=== FILE: README.md ===
# Driver finance backend: a Dafny model

This project models the core of the driver finance app's backend. That backend is a
FastAPI service. Drivers sign up, log in with a bearer token, keep income and
expense transactions in categories (their own, or shared system categories
such as "Combustível"), and read summaries: an overall balance, monthly and
daily figures, a per-category breakdown and fuel spending.

The database is a value `Store.Db`. It holds three tables as sequences of rows:
users, categories and transactions. Every endpoint is a pure function from the
database and the request to a `Store.Response`, which is the new database plus
either the JSON body or an `ApiError` (status and detail). A refused request
leaves the database unchanged. Python exceptions that escape a handler become
`Errors.Crash(name)`, which is the 500 FastAPI answers with. Failed request
validation becomes `Errors.Invalid(field)` (422).

Modelling choices:

- Money is integer cents. `Numeric(10,2)` is a bound: an amount of
  10^10 cents or more fails with `DataError` when it is written.
- Dates are `Calendar.DateTime` values: a proleptic Gregorian date plus a
  second of the day. Their chronological order is `Calendar.Ordinal`.
- `WHERE` clauses are `Ledger.Where` records, and `Ledger.Select` is the rows
  that match one, in table order.
- `ORDER BY ... DESC` is a stable sort (`Seqs.SortDesc`). `OFFSET/LIMIT` is
  `Seqs.Window`.
- bcrypt and the JWT library are parameters (`Security.Hasher`,
  `Security.TokenCodec`). The only facts about them that the backend relies on are the
  predicates `SoundHasher` (a password verifies against its own hash) and
  `SoundCodec` (a token decodes to its claims until `exp`, and is rejected as
  expired after that). Lemmas take these predicates as preconditions.
- Commit-time checks are modelled where the code relies on them:
  - the foreign key from a transaction to its category;
  - NOT NULL columns;
  - the unique key `(user_id, name, type)` on categories;
  - the numeric overflow of `amount`.

  They are grouped in `Store.WellFormed`, which every writing endpoint is
  proved to preserve.

### Where the code and its documentation differ (the model follows the code)

- **Deleting a category.** The docstring of `delete_category`
  (backend/app/api/v1/endpoints/categories.py:154) and the foreign key
  (backend/app/models/transaction.py:28-30) say that a deleted category's
  transactions keep existing with `category_id = NULL`. But the ORM
  relationship is declared `cascade="all, delete-orphan"`
  (backend/app/models/category.py:41-43), so the ORM deletes those
  transactions with the category. `CategoriesEndpoint.DeleteCategory` deletes them.
- **Fuel analytics.** The docstring (backend/app/services/analytics_service.py:244)
  says that categories named "Combustível" or "Fuel" count. The query matches only
  `ilike '%combustível%'`. It matches EXPENSE categories of every user. It
  does not filter the transactions by type.
  - `AnalyticsService.EnglishNameIsNotFuel` proves that "Fuel" is not matched.
  - `AnalyticsService.FuelCountsIncomeToo` proves that an income transaction
    filed under a fuel category is counted.
  - The daily summary counts something different: the user's EXPENSE rows with
    `category_id == 1`.
- **Date bounds.** An `end_date` such as `2025-03-31` parses to
  midnight, and the bound is `<=`. So a transaction later that day is
  excluded (`TransactionsEndpoint.DateOnlyEndExcludesLaterThatDay` and the two
  analytics counterparts).
- **Category breakdown.** The breakdown is an inner join. Uncategorised
  transactions never appear in it (`AnalyticsService.UncategorisedIsInvisible`).
- **Signup.** The signup docstring promises a token as well as the profile. The code returns
  only the profile.
- **Login by an inactive user.** With the right password this gives 400
  "Inactive user". With a wrong password it gives 401, like every other failed login.
- **`category_id` 0.** The value 0 is falsy. Creating a transaction with
  `category_id` 0 therefore skips the category check and fails at the foreign
  key with `IntegrityError` (500). An update tests `is not None` instead
  (backend/app/services/transaction_service.py:137), so an update with
  `category_id` 0 is checked like any other id and, with no category 0,
  gives 404 "Category not found". An explicit `null` in an update skips the
  check and leaves the transaction uncategorised.
- **Email case at signup and login.** `EmailStr` hands the address on with
  its domain lower-cased (`Schemas.NormalizeEmail`). Signup stores that form,
  but login looks the username up exactly as typed. So an address typed with
  capitals in its domain cannot log in as typed
  (`AuthEndpoint.RawAddressLoginFails`); the normalised form does
  (`AuthEndpoint.SignupLoginRoundTrip`).
- **Changing only a category's type.** An update that changes only the type,
  where that type clashes with another category of the same name, passes the
  endpoint's name check (the check runs only when a non-empty name different
  from the stored one is sent). It then
  fails at the unique key with `IntegrityError` (500).

## Model

| member | source | states |
|---|---|---|
| Models.ParseType | backend/app/models/transaction.py:13-16 | `TransactionType(s)` accepts exactly "income" and "expense", and the member it returns has `s` as its value |
| Models.ParseTypeName | backend/app/models/transaction.py:13-16 | every transaction type parses back from its own value |
| Schemas.ValidateAmount | backend/app/schemas/transaction.py:14 | an amount is accepted iff it is positive and has at most two decimal places; the accepted value in cents is the decimal times 100 |
| Schemas.AmountRoundTrip | backend/app/schemas/transaction.py:14 | every positive number of cents, written with two decimals, is accepted as that number of cents |
| Schemas.ValidateTransactionCreate | backend/app/schemas/transaction.py:10-22 | a create body is accepted iff its type, amount and description length are valid; the result carries the same type, the amount in cents and the other fields unchanged |
| Schemas.CreateBodyRoundTrip | backend/app/schemas/transaction.py:10-22 | every well-formed transaction, written out as a request body, validates back to itself |
| Schemas.ValidateTransactionUpdate | backend/app/schemas/transaction.py:25-32 | an update body is accepted iff every field that is sent is valid; unset and explicit-null fields stay distinguishable, and sent amounts are positive |
| Schemas.MakeFilter | backend/app/schemas/transaction.py:47-55 | a filter is built iff `skip >= 0` and `1 <= limit <= 100`, and it then holds exactly the given criteria |
| Schemas.ValidateUserCreate | backend/app/schemas/user.py:16-21 | a signup body is accepted iff the email is an address and the password has at least 8 characters; the email is handed on with its domain lower-cased and the other fields unchanged |
| Schemas.ValidateUserUpdate | backend/app/schemas/user.py:24-31 | a profile update is accepted iff a sent email is an address and a sent password has at least 8 characters; a sent email is handed on with its domain lower-cased, everything else unchanged |
| Schemas.NormalizeEmail | backend/app/schemas/user.py:19 | the normalised address has the same length and local part, and every letter after the '@' is lower-cased |
| Schemas.NormalizeEmailIdempotent | backend/app/schemas/user.py:19 | normalising an already normalised address changes nothing |
| Schemas.NormalizedIsAddress | backend/app/schemas/user.py:19 | normalising an address gives an address |
| Schemas.NormalizeEmailExample | backend/app/schemas/user.py:19 | "Bob@Example.COM" is handed on as "Bob@example.com" |
| Schemas.ToResponse | backend/app/schemas/user.py:45-50 | the public profile copies id, email, name and both flags from the user |
| Schemas.ResponseHidesPassword | backend/app/schemas/user.py:45-46 | the public profile does not depend on the password hash |
| Schemas.DefaultColorIsHex | backend/app/schemas/category.py:14 | the default colour satisfies the colour pattern and fills the 7-character column |
| Schemas.ValidateCategoryCreate | backend/app/schemas/category.py:9-20 | a category body is accepted iff the name length, type, colour pattern and icon length are valid; an omitted colour becomes the default and an omitted icon becomes none |
| Schemas.ValidateCategoryUpdate | backend/app/schemas/category.py:23-29 | a category patch is accepted iff every sent field is valid; unset and null stay distinguishable |
| Calendar.OrdinalIsChronological | backend/app/repositories/transaction_repository.py:55-58 | comparing date-times by ordinal is calendar order (year, month, day, second), and equal ordinals mean equal date-times |
| Calendar.LaterSameDayIsAfterMidnight | backend/app/api/v1/endpoints/transactions.py:71 | a time after midnight is not at or before that day's midnight |
| Security.IntStringRoundTrip | backend/app/core/security.py:58 | `int(str(n)) == n` for every integer subject |
| Security.Expiry | backend/app/core/security.py:53-56 | a non-zero delta sets the expiry to now plus the delta; an absent or zero delta gives the configured 60 minutes |
| Security.AccessClaims | backend/app/core/security.py:58 | the claims are exactly that expiry and the subject written as text |
| Security.CreateAccessToken | backend/app/core/security.py:42-60 | with a sound codec, the token decodes at its expiry second to exactly that expiry and the subject as text, and is expired one second later |
| Security.TokenRoundTrip | backend/app/core/security.py:42-60 | a fresh token decodes to a subject that reads back as the user id until it expires, and is rejected as expired afterwards |
| BaseRepository.GetById | backend/app/repositories/base.py:32-44 | returns a row with that key if there is one, and None iff no row has it |
| BaseRepository.Exists | backend/app/repositories/base.py:128-140 | a key exists iff lookup by that key finds a row |
| BaseRepository.GetMulti | backend/app/repositories/base.py:46-63 | the rows from position `skip` on, in table order (one of the orders the database may return), at most `limit` of them, and exactly `min(limit, n - skip)` |
| BaseRepository.NextId | backend/app/repositories/base.py:65-81 | a new row's key is positive and differs from every key in the table |
| BaseRepository.Update | backend/app/repositories/base.py:83-107 | no such row gives None; otherwise the patched row replaces exactly that row, or nothing is written and the failing exception is reported |
| BaseRepository.Delete | backend/app/repositories/base.py:109-126 | no such row gives None; otherwise exactly that row is removed and returned |
| BaseRepository.DeleteRemovesOnlyThatRow | backend/app/repositories/base.py:109-126 | with unique keys, a delete shrinks the table by one and keeps every other row |
| Ledger.SplitByKind | backend/app/repositories/transaction_repository.py:86-121 | income and expense rows partition any selection: their counts and sums add up to the whole, and income minus expenses is the net |
| Ledger.SumAmountsNonNegative | backend/app/models/transaction.py:51 | with positive amounts, a sum is non-negative, and it is positive when there is a row |
| Ledger.NarrowerSelectsLess | backend/app/services/analytics_service.py:135-148 | a stricter filter selects no more rows and no larger sum |
| UserRepository.GetById | backend/app/repositories/base.py:32-44 | the user with that id, or None iff there is none |
| UserRepository.GetByEmail | backend/app/repositories/user_repository.py:18-30 | the user with that email, or None iff there is none |
| UserRepository.Create | backend/app/repositories/user_repository.py:32-57 | appends one active, non-superuser row with a fresh id, the given email and name, and the hash of the password |
| UserRepository.ApplyUpdate | backend/app/repositories/user_repository.py:59-90 | every sent field is taken and every other field is kept; a sent password is stored hashed; an explicit null password raises TypeError |
| UserRepository.EmptyUpdateIsIdentity | backend/app/repositories/user_repository.py:59-90 | an update that sends nothing leaves the user unchanged |
| UserRepository.UpdatedPasswordVerifies | backend/app/repositories/user_repository.py:79-83 | after an update, the new password (or the old one, if none was sent) verifies against the stored hash |
| UserRepository.Update | backend/app/repositories/user_repository.py:59-90 | a missing user gives None; otherwise the user's row is replaced by the updated one, or nothing changes when the update raises |
| UserRepository.Authenticate | backend/app/repositories/user_repository.py:92-111 | returns the user with that email iff the password verifies against their hash |
| UserRepository.CreatedUserAuthenticates | backend/app/repositories/user_repository.py:92-111 | a newly created user authenticates with the password they signed up with |
| CrudUser.GetUserById | backend/app/crud/crud_user.py:11-23 | the user with that id, or None iff there is none |
| CrudUser.GetUserByEmail | backend/app/crud/crud_user.py:26-38 | the user with that email, or None iff there is none |
| CrudUser.CreateUser | backend/app/crud/crud_user.py:41-65 | appends one active, non-superuser with a fresh id and the hashed password |
| CrudUser.Authenticate | backend/app/crud/crud_user.py:68-85 | an unknown email fails; a known email succeeds iff the password verifies |
| CrudUser.UpdateUser | backend/app/crud/crud_user.py:88-119 | a missing user gives None; otherwise only that user's row changes: sent fields are taken, a new password is stored hashed, unset fields are kept, and a null password (TypeError) or a null in a NOT NULL column rejects the update |
| Deps.GetCurrentUser | backend/app/api/deps.py:20-59 | succeeds iff the token decodes, has a subject, the subject is an integer and a user has that id; every failure is 401 "Could not validate credentials" |
| Deps.GetCurrentActiveUser | backend/app/api/deps.py:62-82 | passes token failures through; an inactive user gives 400 "Inactive user"; an active user is returned exactly as the token resolved it |
| Deps.IssuedTokenResolves | backend/app/api/deps.py:43-59 | a token issued for a stored user resolves to that user until it expires |
| Deps.ExpiredTokenRefused | backend/app/api/deps.py:43-53 | an expired token is refused with 401 |
| Deps.NegativeLifetimeRefused | backend/app/core/security.py:53-54 | a token issued with a negative delta is refused from the moment of issue on |
| AuthEndpoint.Signup | backend/app/api/v1/endpoints/auth.py:17-41 | an invalid body is 422; an email whose normalised form is stored is 400 "Email already registered"; it succeeds iff the body is valid and that email is free, and then exactly one user with the normalised email is added and its profile returned |
| AuthEndpoint.SignupKeepsUsersUnique | backend/app/api/v1/endpoints/auth.py:32-37 | signup keeps emails and ids unique |
| AuthEndpoint.Login | backend/app/api/v1/endpoints/auth.py:44-82 | failed authentication is 401; an inactive user is 400; an authenticated active user gets exactly a bearer token for their id issued now |
| AuthEndpoint.LoginFailuresIndistinguishable | backend/app/api/v1/endpoints/auth.py:63-68 | an unknown email and a wrong password give the same 401 answer |
| AuthEndpoint.InactiveWithWrongPasswordIs401 | backend/app/api/v1/endpoints/auth.py:63-68 | an inactive user with a wrong password gets 401 |
| AuthEndpoint.InactiveWithRightPasswordIs400 | backend/app/api/v1/endpoints/auth.py:70-74 | an inactive user with the right password gets 400 "Inactive user" |
| AuthEndpoint.SignupLoginRoundTrip | backend/app/api/v1/endpoints/auth.py:17-82 | after a successful signup, logging in with the stored (normalised) address and the signup password gives a token that resolves to the new user for the next 60 minutes |
| AuthEndpoint.RawAddressLoginFails | backend/app/api/v1/endpoints/auth.py:58-68 | when no one else holds the address as typed and normalising changes it, logging in with the address as typed at signup is 401 |
| AuthEndpoint.CurrentProfile | backend/app/api/v1/endpoints/auth.py:85-94 | `/me` shows the authenticated user's id, email, name and both flags |
| AuthEndpoint.ProfileIsTheTokenOwner | backend/app/api/v1/endpoints/auth.py:85-94 | `/me` with a fresh token of an active user returns that user's profile |
| UsersEndpoint.ReadCurrentUser | backend/app/api/v1/endpoints/users.py:14-23 | the profile shows the caller's id, email, name and both flags |
| UsersEndpoint.UpdateCurrentUser | backend/app/api/v1/endpoints/users.py:26-72 | an invalid body is 422; a non-superuser sending `is_superuser`, then `is_active`, is 403; a sent, different email that is taken is 400; a caller missing from the table is 404; it succeeds iff all these pass and the patch commits, and then only the caller's row is replaced by the patched one |
| UsersEndpoint.UpdateKeepsEmailsUnique | backend/app/api/v1/endpoints/users.py:56-63 | a profile update keeps emails unique |
| UsersEndpoint.ReadUserById | backend/app/api/v1/endpoints/users.py:75-99 | only a superuser may read users (403 otherwise); a missing id is 404; it succeeds iff the caller is a superuser and the id exists, with that user's profile |
| UsersEndpoint.SuperuserReadsThatUser | backend/app/api/v1/endpoints/users.py:75-99 | with unique ids, a superuser asking for a stored user's id gets exactly that user's profile |
| CategoryRepository.GetById | backend/app/repositories/base.py:32-44 | the category with that id, or None iff there is none |
| CategoryRepository.GetByUserAndName | backend/app/repositories/category_repository.py:17-39 | a category with that owner, name and type, or None iff there is none |
| CategoryRepository.KeyLookupIsTheRow | backend/app/models/category.py:47 | under the unique key, the lookup returns exactly the row with that key |
| CategoryRepository.GetUserCategories | backend/app/repositories/category_repository.py:41-67 | the user's own and the system categories in table order (one of the orders the database may return), from position `skip` on, exactly `min(limit, n - skip)` of them; with room for all of them, all are listed |
| CategoryRepository.GetSystemCategories | backend/app/repositories/category_repository.py:69-89 | the system categories in table order (one of the orders the database may return), from position `skip` on, exactly `min(limit, n - skip)` of them; with room for all of them, all are listed |
| CategoryRepository.SystemRowsVisibleToAll | backend/app/repositories/category_repository.py:58-63 | a system category is visible to every user |
| CategoryRepository.GetByType | backend/app/repositories/category_repository.py:91-114 | exactly the visible categories of that type, each as often as it is stored, in table order (one of the orders the database may return) |
| CategoryRepository.ByTypeIsTheFilteredListing | backend/app/repositories/category_repository.py:91-114 | the listing by type holds the same rows as the user's listing with room for all, narrowed to that type |
| CategoryRepository.Create | backend/app/repositories/category_repository.py:116-133 | succeeds iff no category has that key (IntegrityError otherwise); it appends one non-system row owned by the user, with a fresh id |
| CategoryRepository.CreateKeepsCommitted | backend/app/repositories/category_repository.py:116-133 | creating a valid category keeps the table within its column limits and unique keys |
| TransactionRepository.ListWhereMeans | backend/app/repositories/transaction_repository.py:46-60 | a row matches the listing filter iff it is the user's and meets every criterion that was given, with inclusive date bounds |
| TransactionRepository.GetUserTransactions | backend/app/repositories/transaction_repository.py:19-63 | the page at `skip` of size at most `limit` of the user's matching rows ordered newest first, with the exact page length; from the first page with room for all, exactly the matching rows |
| TransactionRepository.PagesConcatenate | backend/app/repositories/transaction_repository.py:19-63 | the page at `skip` of size `a` followed by the page at `skip + a` of size `b` is the page at `skip` of size `a + b`: consecutive pages neither repeat nor skip a row |
| TransactionRepository.ListingIsComplete | backend/app/repositories/transaction_repository.py:19-63 | from the first page, with room for all matches, no matching row is missing |
| TransactionRepository.GetUserBalance | backend/app/repositories/transaction_repository.py:86-121 | income minus expenses over the user's rows; zero for a user without rows |
| TransactionRepository.GetTotalByType | backend/app/repositories/transaction_repository.py:123-146 | zero when the user has no row of that type; with positive amounts it is non-negative, and positive iff such a row exists |
| TransactionRepository.TotalsPartitionTurnover | backend/app/repositories/transaction_repository.py:123-146 | per-type totals are non-negative and add up to the user's turnover |
| TransactionRepository.GetByCategory | backend/app/repositories/transaction_repository.py:148-172 | the user's rows in that category, each exactly once, newest first |
| TransactionRepository.ByCategoryIsTheFilteredListing | backend/app/repositories/transaction_repository.py:148-172 | the category listing holds the same rows as the general listing filtered by that category with room for all |
| TransactionRepository.Create | backend/app/repositories/transaction_repository.py:65-84 | an oversized amount is DataError; a dangling category is IntegrityError; otherwise one row is appended with a fresh id |
| TransactionRepository.CreateKeepsCommitted | backend/app/repositories/transaction_repository.py:65-84 | creating a valid transaction keeps every reference and unique id |
| TransactionService.CheckCategory | backend/app/services/transaction_service.py:41-54 | an unknown category is 404; a category that is neither system nor the user's is 403; it passes iff the category exists and is system or the user's |
| TransactionService.CheckCategoryIsUsableOnly | backend/app/services/transaction_service.py:41-54 | with unique ids, a stored category passes the check iff it is system or the user's, and otherwise is 403 |
| TransactionService.UsableIffVisible | backend/app/services/transaction_service.py:41-54 | the categories a user may file under are exactly the ones listed for that user |
| TransactionService.CreateTransaction | backend/app/services/transaction_service.py:21-56 | a non-zero category id that fails the check gives that 404 or 403 with the database unchanged; it succeeds iff the check passes and the insert commits, adding one row of the user with the body's fields |
| TransactionService.CategoryZeroReachesTheDatabase | backend/app/services/transaction_service.py:41 | category id 0 skips the check and fails at the foreign key (500) |
| TransactionService.CreateKeepsWellFormed | backend/app/services/transaction_service.py:21-56 | creating a transaction preserves the database invariants |
| TransactionService.GetUserTransactions | backend/app/services/transaction_service.py:58-81 | the repository listing with the filter's skip, limit, type, category and date bounds: only the user's matching rows, newest first, at most `limit` |
| TransactionService.GetTransaction | backend/app/services/transaction_service.py:83-109 | an unknown id is 404, another user's row is 403, otherwise it is the row |
| TransactionService.GetTransactionIsOwnerOnly | backend/app/services/transaction_service.py:83-109 | with unique ids, the owner gets the row and anyone else gets 403 |
| TransactionService.ApplyUpdate | backend/app/services/transaction_service.py:111-150 | sent fields replace the stored ones; the commit succeeds iff no NOT NULL column is set to null, the resulting amount fits the column and the resulting category reference is empty or exists |
| TransactionService.EmptyPatchIsIdentity | backend/app/services/transaction_service.py:111-150 | a patch that sends nothing leaves a stored transaction unchanged |
| TransactionService.UpdateTransaction | backend/app/services/transaction_service.py:111-150 | lookup failures pass through; a sent category id, 0 included, that fails the check gives that 404 or 403; it succeeds iff the lookup and check pass and the patch commits, and then exactly that row is replaced by the patched one |
| TransactionService.UpdateKeepsWellFormed | backend/app/services/transaction_service.py:111-150 | updating a transaction preserves the database invariants |
| TransactionService.DeleteTransaction | backend/app/services/transaction_service.py:152-170 | lookup failures pass through; it succeeds iff the ownership lookup succeeds, and a success removes exactly that row |
| TransactionService.DeleteRemovesOneRow | backend/app/services/transaction_service.py:152-170 | the table shrinks by one, and the id is gone |
| TransactionService.RemovalKeepsCommitted | backend/app/services/transaction_service.py:152-170 | removing a transaction keeps references and unique ids |
| TransactionService.GetSummary | backend/app/services/transaction_service.py:172-195 | the totals are the sums of the user's income and expense rows, and the balance is their difference |
| TransactionService.SummaryTotalsAreTurnover | backend/app/services/transaction_service.py:172-195 | both totals are non-negative and add up to the user's turnover |
| TransactionsEndpoint.CreateTransaction | backend/app/api/v1/endpoints/transactions.py:19-36 | an invalid body is 422; a valid body gets exactly the service's answer for the caller, so a success is the caller's row with the body's fields |
| TransactionsEndpoint.ListTransactions | backend/app/api/v1/endpoints/transactions.py:39-76 | a bad type or date string is 500 (ValueError), and a negative skip or a limit below 1 is 500 (ValidationError); the limit is capped at 100; the result is the caller's matching rows, newest first |
| TransactionsEndpoint.ListingIsOwnAndCapped | backend/app/api/v1/endpoints/transactions.py:67-74 | any limit of 100 or more returns at most 100 of the caller's own rows |
| TransactionsEndpoint.DefaultListingIsEverything | backend/app/api/v1/endpoints/transactions.py:39-76 | with at most 50 rows, the default listing contains each of the caller's rows |
| TransactionsEndpoint.DateOnlyEndExcludesLaterThatDay | backend/app/api/v1/endpoints/transactions.py:71 | a date-only end bound excludes that day's transactions after midnight |
| TransactionsEndpoint.Summary | backend/app/api/v1/endpoints/transactions.py:79-92 | the income and expense totals are the sums of the caller's rows of each type, and the balance is their difference |
| TransactionsEndpoint.GetTransaction | backend/app/api/v1/endpoints/transactions.py:95-106 | an unknown id is 404; the stored row with that id is returned when it is the caller's and is 403 otherwise; the answer is the service's |
| TransactionsEndpoint.UpdateTransaction | backend/app/api/v1/endpoints/transactions.py:109-124 | an invalid body is 422; otherwise the service's answer for the caller, so a success replaces only that row and keeps every other |
| TransactionsEndpoint.UpdateKeepsWellFormed | backend/app/api/v1/endpoints/transactions.py:109-124 | updating through the endpoint preserves the database invariants |
| TransactionsEndpoint.DeleteTransaction | backend/app/api/v1/endpoints/transactions.py:127-139 | it succeeds iff the caller owns a row with that id, and a success removes exactly that row |
| CategoriesEndpoint.ListCategories | backend/app/api/v1/endpoints/categories.py:15-33 | a bad type is 500; with a type, exactly the visible categories of that type, each as often as stored; without one, the first page of the user's listing |
| CategoriesEndpoint.CreateCategory | backend/app/api/v1/endpoints/categories.py:36-62 | an invalid body is 422; a taken key is 400; otherwise one category owned by the caller is added |
| CategoriesEndpoint.CreateKeepsWellFormed | backend/app/api/v1/endpoints/categories.py:36-62 | creating a category preserves the database invariants |
| CategoriesEndpoint.GetCategory | backend/app/api/v1/endpoints/categories.py:65-90 | unknown is 404; another user's private category is 403; a category that is system or the caller's is returned as stored |
| CategoriesEndpoint.GetCategoryIsUsableOnly | backend/app/api/v1/endpoints/categories.py:65-90 | with unique ids, a stored category is returned iff it is system or the caller's, and otherwise is 403 |
| CategoriesEndpoint.SharedRowsReadableByAll | backend/app/api/v1/endpoints/categories.py:65-90 | every user can read a category without an owner |
| CategoriesEndpoint.OwnedCategory | backend/app/api/v1/endpoints/categories.py:114-126 | unknown is 404; a system category is 403 with the given detail; another user's is 403; otherwise it is the row |
| CategoriesEndpoint.ApplyUpdate | backend/app/api/v1/endpoints/categories.py:93-140 | sent fields replace stored ones; a null name, type or colour fails at commit |
| CategoriesEndpoint.EmptyPatchIsIdentity | backend/app/api/v1/endpoints/categories.py:93-140 | a patch that sends nothing leaves the category unchanged |
| CategoriesEndpoint.UpdateCategory | backend/app/api/v1/endpoints/categories.py:93-140 | invalid is 422; ownership failures pass through; a sent name that clashes is 400; it succeeds iff the body is valid, the caller owns the non-system row, the name does not clash, no NOT NULL column becomes null and the unique key still holds, and a success replaces exactly that row |
| CategoriesEndpoint.TypeOnlyClashIsServerError | backend/app/api/v1/endpoints/categories.py:128-138 | a type-only change that clashes with the unique key fails with 500 |
| CategoriesEndpoint.UpdateKeepsWellFormed | backend/app/api/v1/endpoints/categories.py:93-140 | updating a category preserves the database invariants |
| CategoriesEndpoint.CascadeDelete | backend/app/models/category.py:41-43 | the transactions of the deleted category go with it, and every other transaction stays, each as often as before |
| CategoriesEndpoint.DeleteCategory | backend/app/api/v1/endpoints/categories.py:143-178 | succeeds iff the caller owns the non-system category; it removes the category and its transactions |
| CategoriesEndpoint.DeleteKeepsWellFormed | backend/app/api/v1/endpoints/categories.py:143-178 | deleting a category preserves the database invariants, references included |
| CategoriesEndpoint.CascadeKeepsReferences | backend/app/models/category.py:41-43 | after the cascade no transaction refers to the deleted category |
| CategoriesEndpoint.CascadeKeepsUniqueIds | backend/app/models/category.py:41-43 | the cascade keeps transaction ids unique |
| IsoFormat.FormatDate | backend/app/services/analytics_service.py:161 | `date.isoformat()` is ten characters `YYYY-MM-DD` |
| IsoFormat.FromIsoFormat | backend/app/api/v1/endpoints/analytics.py:71 | `datetime.fromisoformat` accepts only valid dates and times, gives midnight for a bare date and raises ValueError otherwise |
| IsoFormat.ParseFormatDate | backend/app/services/analytics_service.py:161 | a formatted date parses back to itself |
| IsoFormat.ParseFormatTime | backend/app/api/v1/endpoints/analytics.py:71 | a formatted time of day parses back to itself |
| IsoFormat.DateRoundTrip | backend/app/api/v1/endpoints/analytics.py:148 | `fromisoformat(d.isoformat())` is midnight of `d` |
| IsoFormat.DateTimeRoundTrip | backend/app/api/v1/endpoints/analytics.py:71-72 | `fromisoformat(t.isoformat())` is `t` |
| IsoFormat.DateParam | backend/app/api/v1/endpoints/analytics.py:71-72 | an absent or empty parameter is no bound; any other value is parsed or raises ValueError |
| IsoFormat.TypeParam | backend/app/api/v1/endpoints/analytics.py:70 | an absent or empty type is no filter; an unknown type raises ValueError |
| IsoFormat.TypeParamRoundTrip | backend/app/api/v1/endpoints/analytics.py:70 | each type's own value parses to it |
| AnalyticsService.TotalsOf | backend/app/services/analytics_service.py:36-83 | totals and counts are the sums and sizes of the income and expense selections; the balance and total count combine them |
| AnalyticsService.TotalsPartition | backend/app/services/analytics_service.py:36-83 | the total count is the whole selection's size, and the balance is its net |
| AnalyticsService.EmptyTotalsAreZero | backend/app/services/analytics_service.py:36-68 | with nothing selected, every figure is zero (the `coalesce`) |
| AnalyticsService.GetMonthlySummary | backend/app/services/analytics_service.py:21-83 | the report is for that year and month; the income and the expense total and count are the sum and size of the user's rows of that type in that month, and the balance and total count combine them |
| AnalyticsService.MonthlyCountsExactlyThatMonth | backend/app/services/analytics_service.py:36-68 | a row is counted iff it is the user's and dated in that year and month |
| AnalyticsService.Average | backend/app/services/analytics_service.py:154-158 | the average times the count is the total; zero when nothing was counted |
| AnalyticsService.GetDailySummary | backend/app/services/analytics_service.py:85-171 | the date is the day's ISO text; the income and the expense total and count are the sum and size of the user's rows of that type on that day; fuel figures cover the user's expense rows in category 1 that day |
| AnalyticsService.DailyCountsExactlyThatDay | backend/app/services/analytics_service.py:99-133 | a row is counted iff it is the user's and dated that day |
| AnalyticsService.FuelWithinExpenses | backend/app/services/analytics_service.py:135-158 | daily fuel count and total never exceed the day's expense count and total |
| AnalyticsService.GetCategoryBreakdown | backend/app/services/analytics_service.py:173-232 | highest total first; every row holds one category's name, type, colour and icon and the sum and count of its matching transactions; every category with a matching transaction has a row, and with unique category ids none has two |
| AnalyticsService.Groups | backend/app/services/analytics_service.py:194-218 | every group is one category's: its name, type, colour and icon, with the sum and count (at least one) of its joined rows |
| AnalyticsService.GroupsDistinct | backend/app/services/analytics_service.py:194-218 | with unique category ids, no category forms two groups |
| AnalyticsService.GroupsComplete | backend/app/services/analytics_service.py:194-218 | every category with a joined row forms a group |
| AnalyticsService.BreakdownRowsAreTheCallers | backend/app/services/analytics_service.py:194-218 | every transaction behind a row is the caller's, in that category, of the requested type and within the bounds |
| AnalyticsService.BreakdownSumsTheJoin | backend/app/services/analytics_service.py:194-218 | the rows' totals and counts add up to the sum and size of the join |
| AnalyticsService.UncategorisedIsInvisible | backend/app/services/analytics_service.py:194-218 | adding an uncategorised transaction does not change the breakdown |
| AnalyticsService.IsFuelName | backend/app/services/analytics_service.py:259 | a name matches iff its lower-case form contains "combustível" |
| AnalyticsService.FuelCategoryIds | backend/app/services/analytics_service.py:255-264 | exactly the ids of EXPENSE categories, of any user, whose name matches |
| AnalyticsService.GetFuelAnalytics | backend/app/services/analytics_service.py:234-298 | no fuel category gives all zeros; otherwise sum, count and average of the user's rows in those categories within the bounds |
| AnalyticsService.SeededNameIsFuel | backend/app/services/analytics_service.py:259 | "Combustível" matches |
| AnalyticsService.CapitalsAreFuel | backend/app/services/analytics_service.py:259 | "COMBUSTÍVEL" matches, so the match ignores case |
| AnalyticsService.EnglishNameIsNotFuel | backend/app/services/analytics_service.py:244 | "Fuel" does not match, although the docstring says it should |
| AnalyticsService.FuelCountsIncomeToo | backend/app/services/analytics_service.py:273-283 | an income row in a fuel category is counted as fuel spending |
| AnalyticsEndpoint.Monthly | backend/app/api/v1/endpoints/analytics.py:15-39 | a missing year or a month outside 1..12 is 422; otherwise it is exactly that month's report for the caller |
| AnalyticsEndpoint.Breakdown | backend/app/api/v1/endpoints/analytics.py:42-76 | a bad type or date is 500 (ValueError); otherwise exactly the caller's breakdown with the parsed filters |
| AnalyticsEndpoint.Fuel | backend/app/api/v1/endpoints/analytics.py:79-104 | a bad date is 500; otherwise exactly the caller's fuel report for the parsed bounds |
| AnalyticsEndpoint.Summary | backend/app/api/v1/endpoints/analytics.py:107-123 | agrees with the all-time income, expense and balance figures of the caller's rows |
| AnalyticsEndpoint.Daily | backend/app/api/v1/endpoints/analytics.py:126-150 | no date means today; a bad date is 500; otherwise that day's report |
| AnalyticsEndpoint.DailyDateRoundTrip | backend/app/api/v1/endpoints/analytics.py:148 | asking for a day by its ISO text reports that day, under the same text |
| AnalyticsEndpoint.BreakdownEndExcludesLaterThatDay | backend/app/api/v1/endpoints/analytics.py:72 | a date-only end bound leaves out that day's transactions after midnight |
| AnalyticsEndpoint.FuelEndExcludesLaterThatDay | backend/app/api/v1/endpoints/analytics.py:102 | the same holds for the fuel report |

## Left out

- Time zones: every date-time is a naive calendar date with a second of the day. The `DateTime(timezone=True)` columns and the `Z`/offset forms of `fromisoformat` are not modelled.
- `IsoFormat.FromIsoFormat`: the model accepts only `YYYY-MM-DD`, `YYYY-MM-DDTHH:MM:SS` and the space-separated form. Python's `fromisoformat` also accepts `YYYY-MM-DDTHH:MM`, fractional seconds, week dates and other ISO 8601 forms; those are left out.
- bcrypt and python-jose are parameters (`Hasher`, `TokenCodec`). Only the facts the backend relies on are assumed about them, as lemma preconditions.
- `EmailStr` is simplified to "one `@` with text on both sides". Full address syntax is left out.
- `Schemas.NormalizeEmail`: only the ASCII lower-casing of the domain is modelled. The email validator's other normalisations (stripping of surrounding whitespace, Unicode NFC, IDNA encoding of the domain, the display-name form, length limits) are left out.
- `ilike` is modelled with ASCII and Latin-1 case folding. Other Unicode case mappings and database collation are left out.
- The summary and analytics endpoints return floats. The model keeps exact cents, and the averages are exact ratios (`Ratio`), because floating point is out of scope.
- HTTP routing, headers (`WWW-Authenticate`), status codes of successful responses and OpenAPI metadata are left out.
- `created_at` / `updated_at` are server timestamps. They are not modelled.
- SQL leaves the order of ties in `ORDER BY` unspecified. The model picks table order among equal keys, which is one of the orders the database may return.
- Queries without any `ORDER BY` (`get_multi`, `get_user_categories`, `get_system_categories`, `get_by_type`) have no guaranteed order at all. The model returns table order, one of the orders the database may return; the contracts of those members are about that order.
- `TransactionRepository.PagesConcatenate`: proved for the model's one fixed order of rows with equal dates. The database may order such ties differently in two `LIMIT`/`OFFSET` queries, so real consecutive pages may repeat or skip rows that share a date.
- Users are never deleted, so the `ON DELETE CASCADE` from users to categories and transactions is not modelled.
- backend/app/models/user.py, backend/app/core/config.py and backend/app/core/database.py are not part of this model. The user columns are assumed NOT NULL except `full_name`. The settings appear only as constants: token lifetime 60 minutes, limit cap 100.
- Database sessions, transactions and rollback are not modelled: a failed commit is a refusal that leaves the database unchanged.
- `Security.ParseInt`: the model accepts only an optional sign followed by decimal digits. Python's `int()` also strips surrounding whitespace and accepts `_` between digits; tokens the backend issues always carry `str(id)`, so only foreign subjects are affected.
- `Schemas.IsEmailAddress`: weaker than pydantic's `EmailStr` check, as said above.

=== FILE: analytics_endpoint.dfy ===
/** The `/analytics` handlers. Each acts for the authenticated user
    `current`. `month` is validated by FastAPI (422); the type and date
    query strings are parsed inside the handlers, so a bad one is an
    uncaught ValueError (500). The clock is a parameter: `today` is the
    server's current date. */
module AnalyticsEndpoint {
  import opened Wrappers
  import opened Errors
  import opened Calendar
  import opened Models
  import opened Ledger
  import opened IsoFormat
  import opened AnalyticsService
  import TransactionService
  import Seqs

  /** `GET /analytics/monthly`: both parameters are required and the month
      must lie in 1..12. */
  function Monthly(txs: seq<Transaction>, current: User, year: Option<int>, month: Option<int>): (r: Result<MonthlyReport, ApiError>)
    ensures year.None? ==> r == Err(Invalid("year"))
    ensures r.Ok? <==> year.Some? && month.Some? && 1 <= month.value <= 12
    ensures r.Err? ==> r.error.status == Unprocessable
    ensures r.Ok? ==>
      && r.value.year == year.value && r.value.month == month.value
      && r.value.totals.totalTransactions == |Select(txs, MonthWhere(current.id, year.value, month.value))|
      && r.value.totals.balance == Net(Select(txs, MonthWhere(current.id, year.value, month.value)))
    ensures r.Ok? ==> r.value == GetMonthlySummary(txs, current.id, year.value, month.value)
  {
    if year.None? then Err(Invalid("year"))
    else if month.None? || !(1 <= month.value <= 12) then Err(Invalid("month"))
    else
      TotalsPartition(txs, MonthWhere(current.id, year.value, month.value));
      Ok(GetMonthlySummary(txs, current.id, year.value, month.value))
  }

  /** `GET /analytics/category-breakdown`: the type, then the start, then
      the end are parsed. */
  function Breakdown(txs: seq<Transaction>, cats: seq<Category>, current: User,
                     kind: Option<string>, startDate: Option<string>, endDate: Option<string>)
    : (r: Result<seq<BreakdownRow>, ApiError>)
    ensures r.Err? ==> r.error == Crash(ValueErrorName)
    ensures r.Ok? <==> TypeParam(kind).Ok? && DateParam(startDate).Ok? && DateParam(endDate).Ok?
    ensures r.Ok? ==>
      var w := RangeWhere(current.id, TypeParam(kind).value, DateParam(startDate).value, DateParam(endDate).value);
      && Seqs.Descending(r.value, RowTotal)
      && forall i | 0 <= i < |r.value| :: IsGroupOf(txs, cats, w, r.value[i])
    ensures r.Ok? ==>
      r.value == GetCategoryBreakdown(txs, cats, current.id, TypeParam(kind).value,
                                      DateParam(startDate).value, DateParam(endDate).value)
  {
    var k :- TypeParam(kind);
    var start :- DateParam(startDate);
    var end :- DateParam(endDate);
    Ok(GetCategoryBreakdown(txs, cats, current.id, k, start, end))
  }

  /** `GET /analytics/fuel`. */
  function Fuel(txs: seq<Transaction>, cats: seq<Category>, current: User,
                startDate: Option<string>, endDate: Option<string>): (r: Result<FuelReport, ApiError>)
    ensures r.Err? ==> r.error == Crash(ValueErrorName)
    ensures r.Ok? <==> DateParam(startDate).Ok? && DateParam(endDate).Ok?
    ensures r.Ok? && FuelCategoryIds(cats) != {} ==>
      var rows := Select(txs, FuelWhere(current.id, FuelCategoryIds(cats), DateParam(startDate).value, DateParam(endDate).value));
      r.value.totalFuelExpenses == SumAmounts(rows) && r.value.fuelTransactionCount == |rows|
    ensures r.Ok? && FuelCategoryIds(cats) == {} ==> r.value == FuelReport(0, 0, Ratio(0, 1))
    ensures r.Ok? ==> r.value == GetFuelAnalytics(txs, cats, current.id, DateParam(startDate).value, DateParam(endDate).value)
  {
    var start :- DateParam(startDate);
    var end :- DateParam(endDate);
    Ok(GetFuelAnalytics(txs, cats, current.id, start, end))
  }

  /** `GET /analytics/summary`, the same totals as `/transactions/summary`:
      the repository's sums agree with the income and expense queries of
      the period reports taken over all time. */
  function Summary(txs: seq<Transaction>, current: User): (r: TransactionService.Summary)
    ensures r.totalIncome == TotalsOf(txs, OwnedBy(current.id)).totalIncome
    ensures r.totalExpenses == TotalsOf(txs, OwnedBy(current.id)).totalExpenses
    ensures r.balance == TotalsOf(txs, OwnedBy(current.id)).balance
  {
    TransactionService.GetSummary(txs, current.id)
  }

  /** `GET /analytics/daily`: the given date's calendar day, or today. */
  function Daily(txs: seq<Transaction>, current: User, date: Option<string>, today: Date): (r: Result<DailyReport, ApiError>)
    requires ValidDate(today)
    ensures r.Err? <==> date.Some? && date.value != "" && FromIsoFormat(date.value).Err?
    ensures r.Err? ==> r.error == Crash(ValueErrorName)
    ensures date.None? || date == Some("") ==> r == Ok(GetDailySummary(txs, current.id, today))
    ensures r.Ok? && date.Some? && date.value != "" ==>
      r == Ok(GetDailySummary(txs, current.id, DateOf(FromIsoFormat(date.value).value)))
  {
    if date.None? || date.value == "" then Ok(GetDailySummary(txs, current.id, today))
    else
      var t :- FromIsoFormat(date.value);
      Ok(GetDailySummary(txs, current.id, DateOf(t)))
  }

  /** The `date` field of the daily report reads back as the requested day,
      and the report covers exactly that day's rows. */
  lemma DailyDateRoundTrip(txs: seq<Transaction>, current: User, d: Date, today: Date)
    requires ValidDate(d) && ValidDate(today)
    ensures var r := Daily(txs, current, Some(FormatDate(d)), today);
      && r.Ok? && FromIsoFormat(r.value.date) == Ok(Midnight(d))
      && r.value.totals.totalTransactions == |Select(txs, DayWhere(current.id, d))|
  {
    DateRoundTrip(d);
  }

  /** A date-only `end_date` means midnight, so a row later on that day is
      left out of every breakdown group. */
  lemma BreakdownEndExcludesLaterThatDay(txs: seq<Transaction>, cats: seq<Category>, current: User,
                                         end: string, t: Transaction, i: int)
    requires |end| == 10 && FromIsoFormat(end).Ok?
    requires t.date.date == FromIsoFormat(end).value.date && t.date.second > 0
    requires Breakdown(txs, cats, current, None, None, Some(end)).Ok?
    requires 0 <= i < |Breakdown(txs, cats, current, None, None, Some(end)).value|
    ensures var row := Breakdown(txs, cats, current, None, None, Some(end)).value[i];
      t !in Select(txs, InCategory(RangeWhere(current.id, None, None, Some(FromIsoFormat(end).value)), row.categoryId))
  {
    var row := Breakdown(txs, cats, current, None, None, Some(end)).value[i];
    LaterThanEndExcluded(txs, current.id, FromIsoFormat(end).value, t, row.categoryId);
  }

  lemma LaterThanEndExcluded(txs: seq<Transaction>, uid: int, bound: DateTime, t: Transaction, id: int)
    requires t.date.date == bound.date && bound.second == 0 && t.date.second > 0
    ensures t !in Select(txs, InCategory(RangeWhere(uid, None, None, Some(bound)), id))
  {
    LaterSameDayIsAfterMidnight(t.date, bound.date);
    assert bound == Midnight(bound.date);
    var s := Select(txs, InCategory(RangeWhere(uid, None, None, Some(bound)), id));
    assert forall j | 0 <= j < |s| :: NotAfter(s[j].date, bound);
  }

  /** The same inclusive, midnight-anchored bound applies to the fuel query. */
  lemma FuelEndExcludesLaterThatDay(txs: seq<Transaction>, cats: seq<Category>, current: User,
                                    end: string, t: Transaction)
    requires |end| == 10 && FromIsoFormat(end).Ok?
    requires t.date.date == FromIsoFormat(end).value.date && t.date.second > 0
    ensures Fuel(txs, cats, current, None, Some(end)).Ok?
    ensures t !in Select(txs, FuelWhere(current.id, FuelCategoryIds(cats), None, Some(FromIsoFormat(end).value)))
  {
    var bound := FromIsoFormat(end).value;
    LaterSameDayIsAfterMidnight(t.date, bound.date);
    var s := Select(txs, FuelWhere(current.id, FuelCategoryIds(cats), None, Some(bound)));
    assert forall j | 0 <= j < |s| :: NotAfter(s[j].date, bound);
  }
}

=== FILE: analytics_service.dfy ===
/** The reports: monthly and daily summaries, the per-category breakdown and
    the fuel figures. Each is a set of aggregate queries over the
    `transactions` table (and, for the breakdown and fuel, `categories`).
    Amounts are cents; the `float(...)` conversions of the responses are
    not modelled, and averages are kept as exact fractions. */
module AnalyticsService {
  import opened Wrappers
  import opened Calendar
  import opened Models
  import opened Ledger
  import opened Store
  import opened IsoFormat
  import Seqs

  // ------------------------------------------------------------ summaries

  /** The fields shared by the monthly and daily summaries. */
  datatype Totals = Totals(
    totalIncome: int, incomeCount: nat,
    totalExpenses: int, expenseCount: nat,
    balance: int, totalTransactions: nat)

  /** The INCOME query and the EXPENSE query under one clause, and what the
      handler derives from them. */
  function TotalsOf(txs: seq<Transaction>, w: Where): (r: Totals)
    requires w.kind.None?
    ensures r.totalIncome == SumAmounts(Select(txs, WithKind(w, Income)))
    ensures r.incomeCount == |Select(txs, WithKind(w, Income))|
    ensures r.totalExpenses == SumAmounts(Select(txs, WithKind(w, Expense)))
    ensures r.expenseCount == |Select(txs, WithKind(w, Expense))|
    ensures r.balance == r.totalIncome - r.totalExpenses
    ensures r.totalTransactions == r.incomeCount + r.expenseCount
  {
    var income := Aggregated(txs, WithKind(w, Income));
    var expense := Aggregated(txs, WithKind(w, Expense));
    Totals(income.total, income.count, expense.total, expense.count,
           income.total - expense.total, income.count + expense.count)
  }

  /** Splitting by type loses nothing: the two counts are all the rows the
      clause selects, and the balance is their signed sum. */
  lemma TotalsPartition(txs: seq<Transaction>, w: Where)
    requires w.kind.None?
    ensures TotalsOf(txs, w).totalTransactions == |Select(txs, w)|
    ensures TotalsOf(txs, w).balance == Net(Select(txs, w))
    ensures TotalsOf(txs, w).totalIncome + TotalsOf(txs, w).totalExpenses == SumAmounts(Select(txs, w))
  {
    SplitByKind(txs, w);
  }

  /** No selected row: every figure is exactly zero. */
  lemma EmptyTotalsAreZero(txs: seq<Transaction>, w: Where)
    requires w.kind.None?
    requires forall i | 0 <= i < |txs| :: !Matches(w, txs[i])
    ensures TotalsOf(txs, w) == Totals(0, 0, 0, 0, 0, 0)
  {
    NoMatchAggregatesToZero(txs, WithKind(w, Income));
    NoMatchAggregatesToZero(txs, WithKind(w, Expense));
  }

  /** `extract(year) = year AND extract(month) = month` for one user. */
  function MonthWhere(uid: int, year: int, month: int): Where {
    Where(uid, None, None, None, None, None, None, Some((year, month)))
  }

  datatype MonthlyReport = MonthlyReport(year: int, month: int, totals: Totals)

  /** `get_monthly_summary`. */
  function GetMonthlySummary(txs: seq<Transaction>, uid: int, year: int, month: int): (r: MonthlyReport)
    ensures r.year == year && r.month == month
    ensures r.totals.totalIncome == SumAmounts(Select(txs, WithKind(MonthWhere(uid, year, month), Income)))
    ensures r.totals.incomeCount == |Select(txs, WithKind(MonthWhere(uid, year, month), Income))|
    ensures r.totals.totalExpenses == SumAmounts(Select(txs, WithKind(MonthWhere(uid, year, month), Expense)))
    ensures r.totals.expenseCount == |Select(txs, WithKind(MonthWhere(uid, year, month), Expense))|
    ensures r.totals.balance == r.totals.totalIncome - r.totals.totalExpenses
    ensures r.totals.totalTransactions == r.totals.incomeCount + r.totals.expenseCount
    ensures r.totals.totalTransactions == |Select(txs, MonthWhere(uid, year, month))|
  {
    TotalsPartition(txs, MonthWhere(uid, year, month));
    MonthlyReport(year, month, TotalsOf(txs, MonthWhere(uid, year, month)))
  }

  /** A row counts toward a month exactly when it is the user's and its date
      lies in that year and month. */
  lemma MonthlyCountsExactlyThatMonth(txs: seq<Transaction>, uid: int, year: int, month: int, t: Transaction)
    requires t in txs
    ensures t in Select(txs, MonthWhere(uid, year, month))
        <==> t.userId == uid && YearOf(t.date) == year && MonthOf(t.date) == month
  {
  }

  /** `cast(transaction_date, Date) = day` for one user. */
  function DayWhere(uid: int, day: Date): Where {
    Where(uid, None, None, None, None, None, Some(day), None)
  }

  /** The fuel subset of a day: EXPENSE rows in category 1 (the first
      seeded category). */
  function FuelDayWhere(uid: int, day: Date): Where {
    Where(uid, Some(Expense), Some(FuelCategoryId), None, None, None, Some(day), None)
  }

  /** An exact fraction `num / den`. */
  datatype Ratio = Ratio(num: int, den: int)

  /** `total / count` when there are rows, else exactly 0. */
  function Average(total: int, count: nat): (a: Ratio)
    ensures a.den >= 1
    ensures a.num * count == total * a.den || count == 0
    ensures count == 0 ==> a == Ratio(0, 1)
    ensures count > 0 ==> a.den == count
  {
    if count > 0 then Ratio(total, count) else Ratio(0, 1)
  }

  datatype DailyReport = DailyReport(
    date: string, totals: Totals,
    totalFuelExpenses: int, fuelTransactionCount: nat, averageFuelExpense: Ratio)

  /** `get_daily_summary`. */
  function GetDailySummary(txs: seq<Transaction>, uid: int, day: Date): (r: DailyReport)
    requires ValidDate(day)
    ensures r.date == FormatDate(day)
    ensures r.totals.totalIncome == SumAmounts(Select(txs, WithKind(DayWhere(uid, day), Income)))
    ensures r.totals.incomeCount == |Select(txs, WithKind(DayWhere(uid, day), Income))|
    ensures r.totals.totalExpenses == SumAmounts(Select(txs, WithKind(DayWhere(uid, day), Expense)))
    ensures r.totals.expenseCount == |Select(txs, WithKind(DayWhere(uid, day), Expense))|
    ensures r.totals.balance == r.totals.totalIncome - r.totals.totalExpenses
    ensures r.totals.totalTransactions == r.totals.incomeCount + r.totals.expenseCount
    ensures r.totals.totalTransactions == |Select(txs, DayWhere(uid, day))|
    ensures r.totalFuelExpenses == SumAmounts(Select(txs, FuelDayWhere(uid, day)))
    ensures r.fuelTransactionCount == |Select(txs, FuelDayWhere(uid, day))|
    ensures r.averageFuelExpense == Average(r.totalFuelExpenses, r.fuelTransactionCount)
  {
    TotalsPartition(txs, DayWhere(uid, day));
    var fuel := Aggregated(txs, FuelDayWhere(uid, day));
    DailyReport(FormatDate(day), TotalsOf(txs, DayWhere(uid, day)),
                fuel.total, fuel.count, Average(fuel.total, fuel.count))
  }

  /** A row counts toward a day exactly when it is the user's and its date,
      cast to a calendar date, is that day. */
  lemma DailyCountsExactlyThatDay(txs: seq<Transaction>, uid: int, day: Date, t: Transaction)
    requires t in txs
    ensures t in Select(txs, DayWhere(uid, day)) <==> t.userId == uid && DateOf(t.date) == day
  {
  }

  /** The fuel subset is part of the day's expenses: never more rows, and
      (amounts being positive) never a larger total. */
  lemma FuelWithinExpenses(txs: seq<Transaction>, uid: int, day: Date)
    requires ValidDate(day) && PositiveAmounts(txs)
    ensures GetDailySummary(txs, uid, day).fuelTransactionCount <= GetDailySummary(txs, uid, day).totals.expenseCount
    ensures GetDailySummary(txs, uid, day).totalFuelExpenses <= GetDailySummary(txs, uid, day).totals.totalExpenses
  {
    NarrowerSelectsLess(txs, FuelDayWhere(uid, day), WithKind(DayWhere(uid, day), Expense));
  }

  // ------------------------------------------------------------ breakdown

  /** One row of the category breakdown. */
  datatype BreakdownRow = BreakdownRow(
    categoryId: int, categoryName: string, categoryType: TxType,
    categoryColor: string, categoryIcon: Option<string>,
    total: int, transactionCount: nat)

  function RowTotal(r: BreakdownRow): int { r.total }
  function RowCount(r: BreakdownRow): int { r.transactionCount }

  /** The filters of the breakdown: the user, then the type and the two
      inclusive bounds when given. */
  function RangeWhere(uid: int, kind: Option<TxType>, start: Option<DateTime>, end: Option<DateTime>): Where {
    Where(uid, kind, None, None, start, end, None, None)
  }

  /** The joined rows of one category. */
  function InCategory(w: Where, id: int): Where { w.(categoryIs := Some(id)) }

  /** The category columns of a breakdown row are those of category `c`. */
  predicate HeadsGroup(c: Category, r: BreakdownRow) {
    && r.categoryId == c.id && r.categoryName == c.name && r.categoryType == c.kind
    && r.categoryColor == c.color && r.categoryIcon == c.icon
  }

  function RowCategory(r: BreakdownRow): int { r.categoryId }

  /** What one breakdown row says: its category's joined rows under `w`
      number `transactionCount` (at least one) and sum to `total`. */
  predicate IsGroupOf(txs: seq<Transaction>, cats: seq<Category>, w: Where, r: BreakdownRow) {
    && r.categoryId in CategoryIds(cats)
    && (exists c | c in cats :: HeadsGroup(c, r))
    && r.transactionCount >= 1
    && r.total == SumAmounts(Select(txs, InCategory(w, r.categoryId)))
    && r.transactionCount == |Select(txs, InCategory(w, r.categoryId))|
  }

  /** `JOIN ... GROUP BY category`: one row per category with at least one
      joined transaction, in table order. A transaction without a category
      joins nothing. */
  function Groups(txs: seq<Transaction>, cats: seq<Category>, w: Where): (r: seq<BreakdownRow>)
    ensures forall i | 0 <= i < |r| :: IsGroupOf(txs, cats, w, r[i])
  {
    if |cats| == 0 then []
    else
      var c := cats[0];
      var joined := Select(txs, InCategory(w, c.id));
      var rest := Groups(txs, cats[1..], w);
      assert CategoryIds(cats[1..]) <= CategoryIds(cats);
      assert forall x | x in cats[1..] :: x in cats;
      if |joined| == 0 then rest
      else
        var row := BreakdownRow(c.id, c.name, c.kind, c.color, c.icon, SumAmounts(joined), |joined|);
        assert HeadsGroup(c, row);
        [row] + rest
  }

  /** With unique category ids no category is reported twice. */
  lemma {:induction false} GroupsDistinct(txs: seq<Transaction>, cats: seq<Category>, w: Where)
    requires UniqueCategoryIds(cats)
    ensures Seqs.DistinctKeys(Groups(txs, cats, w), RowCategory)
  {
    if |cats| > 0 {
      UniqueTail(cats);
      GroupsDistinct(txs, cats[1..], w);
      var g := Groups(txs, cats, w);
      var rest := Groups(txs, cats[1..], w);
      if |Select(txs, InCategory(w, cats[0].id))| > 0 {
        assert g[1..] == rest;
        forall i, j | 0 <= i < j < |g| ensures RowCategory(g[i]) != RowCategory(g[j]) {
          assert g[j] == rest[j - 1];
          assert IsGroupOf(txs, cats[1..], w, rest[j - 1]);
          if i > 0 {
            assert g[i] == rest[i - 1];
          }
        }
      }
    }
  }

  /** Every category with a joined transaction gets a row. */
  lemma {:induction false} GroupsComplete(txs: seq<Transaction>, cats: seq<Category>, w: Where, c: Category)
    requires c in cats && |Select(txs, InCategory(w, c.id))| > 0
    ensures exists i | 0 <= i < |Groups(txs, cats, w)| :: Groups(txs, cats, w)[i].categoryId == c.id
  {
    var g := Groups(txs, cats, w);
    if cats[0].id == c.id {
      assert g[0].categoryId == c.id;
    } else {
      assert c in cats[1..];
      GroupsComplete(txs, cats[1..], w, c);
      var rest := Groups(txs, cats[1..], w);
      var i :| 0 <= i < |rest| && rest[i].categoryId == c.id;
      if |Select(txs, InCategory(w, cats[0].id))| > 0 {
        assert g[i + 1] == rest[i];
      } else {
        assert g[i] == rest[i];
      }
    }
  }

  /** `get_category_breakdown`: the groups ordered by total, highest first. */
  function GetCategoryBreakdown(txs: seq<Transaction>, cats: seq<Category>, uid: int, kind: Option<TxType>,
                                start: Option<DateTime>, end: Option<DateTime>): (r: seq<BreakdownRow>)
    ensures Seqs.Descending(r, RowTotal)
    ensures forall i | 0 <= i < |r| :: IsGroupOf(txs, cats, RangeWhere(uid, kind, start, end), r[i])
    ensures UniqueCategoryIds(cats) ==> forall i, j | 0 <= i < j < |r| :: r[i].categoryId != r[j].categoryId
    ensures forall c | c in cats && |Select(txs, InCategory(RangeWhere(uid, kind, start, end), c.id))| > 0 ::
      exists i | 0 <= i < |r| :: r[i].categoryId == c.id
  {
    var w := RangeWhere(uid, kind, start, end);
    var groups := Groups(txs, cats, w);
    var r := Seqs.SortDesc(groups, RowTotal);
    ReorderedGroupsAreGroups(txs, cats, w, r);
    ReorderedGroupsDistinct(txs, cats, w, r);
    ReorderedGroupsComplete(txs, cats, w, r);
    r
  }

  /** Reordering the groups keeps every row a group. */
  lemma ReorderedGroupsAreGroups(txs: seq<Transaction>, cats: seq<Category>, w: Where, r: seq<BreakdownRow>)
    requires multiset(r) == multiset(Groups(txs, cats, w))
    ensures forall i | 0 <= i < |r| :: IsGroupOf(txs, cats, w, r[i])
  {
    var groups := Groups(txs, cats, w);
    forall i | 0 <= i < |r| ensures IsGroupOf(txs, cats, w, r[i]) {
      assert r[i] in multiset(groups);
      var k :| 0 <= k < |groups| && groups[k] == r[i];
    }
  }

  /** Distinct categories survive reordering the groups. */
  lemma ReorderedGroupsDistinct(txs: seq<Transaction>, cats: seq<Category>, w: Where, r: seq<BreakdownRow>)
    requires multiset(r) == multiset(Groups(txs, cats, w))
    ensures UniqueCategoryIds(cats) ==> forall i, j | 0 <= i < j < |r| :: r[i].categoryId != r[j].categoryId
  {
    if UniqueCategoryIds(cats) {
      GroupsDistinct(txs, cats, w);
      Seqs.PermutationKeepsDistinctKeys(Groups(txs, cats, w), r, RowCategory);
    }
  }

  /** Completeness survives reordering the groups. */
  lemma ReorderedGroupsComplete(txs: seq<Transaction>, cats: seq<Category>, w: Where, r: seq<BreakdownRow>)
    requires multiset(r) == multiset(Groups(txs, cats, w))
    ensures forall c | c in cats && |Select(txs, InCategory(w, c.id))| > 0 ::
      exists i | 0 <= i < |r| :: r[i].categoryId == c.id
  {
    var groups := Groups(txs, cats, w);
    forall c | c in cats && |Select(txs, InCategory(w, c.id))| > 0
      ensures exists i | 0 <= i < |r| :: r[i].categoryId == c.id
    {
      GroupsComplete(txs, cats, w, c);
      var k :| 0 <= k < |groups| && groups[k].categoryId == c.id;
      assert groups[k] in multiset(r);
    }
  }

  /** Every row the breakdown reports is the caller's, of the requested type,
      within the bounds, and in the reported category. */
  lemma BreakdownRowsAreTheCallers(txs: seq<Transaction>, cats: seq<Category>, uid: int, kind: Option<TxType>,
                                   start: Option<DateTime>, end: Option<DateTime>, i: int, t: Transaction)
    requires 0 <= i < |GetCategoryBreakdown(txs, cats, uid, kind, start, end)|
    requires t in Select(txs, InCategory(RangeWhere(uid, kind, start, end),
                                         GetCategoryBreakdown(txs, cats, uid, kind, start, end)[i].categoryId))
    ensures t in txs && t.userId == uid
    ensures t.categoryId == Some(GetCategoryBreakdown(txs, cats, uid, kind, start, end)[i].categoryId)
    ensures kind.Some? ==> t.kind == kind.value
    ensures start.Some? ==> NotAfter(start.value, t.date)
    ensures end.Some? ==> NotAfter(t.date, end.value)
  {
  }

  lemma {:induction false} SplitCategoryIn(s: seq<Transaction>, w: Where, c: int, rest: set<int>)
    requires w.categoryIs.None? && w.categoryIn.None? && c !in rest
    ensures SumAmounts(Select(s, w.(categoryIn := Some({c} + rest))))
         == SumAmounts(Select(s, InCategory(w, c))) + SumAmounts(Select(s, w.(categoryIn := Some(rest))))
    ensures |Select(s, w.(categoryIn := Some({c} + rest)))|
         == |Select(s, InCategory(w, c))| + |Select(s, w.(categoryIn := Some(rest)))|
  {
    if |s| > 0 {
      SplitCategoryIn(s[1..], w, c, rest);
    }
  }

  /** Dropping the first category keeps ids unique and leaves its id out. */
  lemma UniqueTail(cats: seq<Category>)
    requires |cats| > 0 && UniqueCategoryIds(cats)
    ensures UniqueCategoryIds(cats[1..])
    ensures cats[0].id !in CategoryIds(cats[1..])
    ensures CategoryIds(cats) == {cats[0].id} + CategoryIds(cats[1..])
  {
    var rest := cats[1..];
    forall i, j | 0 <= i < j < |rest| ensures rest[i].id != rest[j].id {
      assert rest[i] == cats[i + 1] && rest[j] == cats[j + 1];
    }
    forall x | x in rest ensures x.id != cats[0].id {
      var j :| 0 <= j < |rest| && rest[j] == x;
      assert cats[j + 1] == x;
    }
    assert cats == [cats[0]] + rest;
  }

  /** The sums of a group list, one category at a time. */
  lemma GroupsStep(txs: seq<Transaction>, cats: seq<Category>, w: Where)
    requires |cats| > 0
    ensures var joined := Select(txs, InCategory(w, cats[0].id));
      && Seqs.SumBy(Groups(txs, cats, w), RowTotal) == SumAmounts(joined) + Seqs.SumBy(Groups(txs, cats[1..], w), RowTotal)
      && Seqs.SumBy(Groups(txs, cats, w), RowCount) == |joined| + Seqs.SumBy(Groups(txs, cats[1..], w), RowCount)
  {
    var joined := Select(txs, InCategory(w, cats[0].id));
    var rest := Groups(txs, cats[1..], w);
    if |joined| == 0 {
      assert SumAmounts(joined) == 0;
    } else {
      var g := Groups(txs, cats, w);
      assert g[1..] == rest;
    }
  }

  lemma {:induction false} GroupsCoverJoin(txs: seq<Transaction>, cats: seq<Category>, w: Where)
    requires UniqueCategoryIds(cats) && w.categoryIs.None? && w.categoryIn.None?
    ensures Seqs.SumBy(Groups(txs, cats, w), RowTotal) == SumAmounts(Select(txs, w.(categoryIn := Some(CategoryIds(cats)))))
    ensures Seqs.SumBy(Groups(txs, cats, w), RowCount) == |Select(txs, w.(categoryIn := Some(CategoryIds(cats))))|
  {
    if |cats| == 0 {
      NoMatchAggregatesToZero(txs, w.(categoryIn := Some(CategoryIds(cats))));
    } else {
      UniqueTail(cats);
      GroupsCoverJoin(txs, cats[1..], w);
      GroupsStep(txs, cats, w);
      SplitCategoryIn(txs, w, cats[0].id, CategoryIds(cats[1..]));
    }
  }

  /** Reading the breakdown back: with unique category ids, its totals add
      up to the user's filtered transactions that reference a category, and
      its counts to their number. */
  lemma BreakdownSumsTheJoin(txs: seq<Transaction>, cats: seq<Category>, uid: int, kind: Option<TxType>,
                             start: Option<DateTime>, end: Option<DateTime>)
    requires UniqueCategoryIds(cats)
    ensures var joined := Select(txs, RangeWhere(uid, kind, start, end).(categoryIn := Some(CategoryIds(cats))));
      && Seqs.SumBy(GetCategoryBreakdown(txs, cats, uid, kind, start, end), RowTotal) == SumAmounts(joined)
      && Seqs.SumBy(GetCategoryBreakdown(txs, cats, uid, kind, start, end), RowCount) == |joined|
  {
    var w := RangeWhere(uid, kind, start, end);
    GroupsCoverJoin(txs, cats, w);
    Seqs.SumBySortDesc(Groups(txs, cats, w), RowTotal, RowTotal);
    Seqs.SumBySortDesc(Groups(txs, cats, w), RowTotal, RowCount);
  }

  lemma {:induction false} GroupsIgnoreUncategorised(txs: seq<Transaction>, cats: seq<Category>, w: Where, t: Transaction)
    requires t.categoryId.None?
    ensures Groups(txs + [t], cats, w) == Groups(txs, cats, w)
  {
    if |cats| > 0 {
      SelectAppend(txs, [t], InCategory(w, cats[0].id));
      assert Select([t], InCategory(w, cats[0].id)) == [] by {
        assert [t][1..] == [];
      }
      assert Select(txs + [t], InCategory(w, cats[0].id)) == Select(txs, InCategory(w, cats[0].id));
      GroupsIgnoreUncategorised(txs, cats[1..], w, t);
    }
  }

  /** The inner join: adding a transaction without a category changes no
      breakdown. */
  lemma UncategorisedIsInvisible(txs: seq<Transaction>, cats: seq<Category>, uid: int, kind: Option<TxType>,
                                 start: Option<DateTime>, end: Option<DateTime>, t: Transaction)
    requires t.categoryId.None?
    ensures GetCategoryBreakdown(txs + [t], cats, uid, kind, start, end)
         == GetCategoryBreakdown(txs, cats, uid, kind, start, end)
  {
    GroupsIgnoreUncategorised(txs, cats, RangeWhere(uid, kind, start, end), t);
  }

  // ------------------------------------------------------------ fuel

  /** Lower-casing as `ilike` applies it to the letters that occur here:
      ASCII and the Latin-1 capitals (U+00C0..U+00DE except U+00D7). */
  function Lower(c: char): char {
    if 'A' <= c <= 'Z' then (c as int + 32) as char
    else if 'À' <= c <= 'Þ' && c != '×' then (c as int + 32) as char
    else c
  }

  function LowerAll(s: string): (r: string)
    ensures |r| == |s|
    ensures forall i | 0 <= i < |s| :: r[i] == Lower(s[i])
  {
    if |s| == 0 then [] else [Lower(s[0])] + LowerAll(s[1..])
  }

  predicate MatchAt(s: string, pattern: string, i: int) {
    0 <= i && i + |pattern| <= |s| && s[i..i + |pattern|] == pattern
  }

  /** `pattern` occurs in `s` at some position. */
  predicate Contains(s: string, pattern: string) {
    exists i | 0 <= i <= |s| :: MatchAt(s, pattern, i)
  }

  /** The first position at or after `from` where `pattern` occurs. */
  function Find(s: string, pattern: string, from: nat): (r: Option<nat>)
    requires from <= |s|
    ensures r.Some? ==> from <= r.value <= |s| && MatchAt(s, pattern, r.value)
    ensures r.None? ==> forall i | from <= i <= |s| :: !MatchAt(s, pattern, i)
    decreases |s| - from
  {
    if from + |pattern| > |s| then None
    else if s[from..from + |pattern|] == pattern then Some(from)
    else Find(s, pattern, from + 1)
  }

  const FuelPattern := "combustível"

  /** `name ilike '%combustível%'`. */
  predicate IsFuelName(name: string)
    ensures IsFuelName(name) <==> Contains(LowerAll(name), FuelPattern)
  {
    Find(LowerAll(name), FuelPattern, 0).Some?
  }

  /** The ids of every EXPENSE category whose name contains "combustível",
      in any case: all users' categories, not only the caller's. */
  function FuelCategoryIds(cats: seq<Category>): (ids: set<int>)
    ensures forall id :: id in ids <==> exists c | c in cats :: c.id == id && IsFuelName(c.name) && c.kind == Expense
  {
    set c | c in cats && IsFuelName(c.name) && c.kind == Expense :: c.id
  }

  datatype FuelReport = FuelReport(totalFuelExpenses: int, fuelTransactionCount: nat, averageFuelExpense: Ratio)

  /** The fuel query: the user's rows in a fuel category within the
      inclusive bounds, of either type. */
  function FuelWhere(uid: int, ids: set<int>, start: Option<DateTime>, end: Option<DateTime>): Where {
    Where(uid, None, None, Some(ids), start, end, None, None)
  }

  /** `get_fuel_analytics`. */
  function GetFuelAnalytics(txs: seq<Transaction>, cats: seq<Category>, uid: int,
                            start: Option<DateTime>, end: Option<DateTime>): (r: FuelReport)
    ensures FuelCategoryIds(cats) == {} ==> r == FuelReport(0, 0, Ratio(0, 1))
    ensures FuelCategoryIds(cats) != {} ==>
      var rows := Select(txs, FuelWhere(uid, FuelCategoryIds(cats), start, end));
      && r.totalFuelExpenses == SumAmounts(rows)
      && r.fuelTransactionCount == |rows|
    ensures r.averageFuelExpense == Average(r.totalFuelExpenses, r.fuelTransactionCount)
  {
    var ids := FuelCategoryIds(cats);
    if ids == {} then FuelReport(0, 0, Ratio(0, 1))
    else
      var a := Aggregated(txs, FuelWhere(uid, ids, start, end));
      FuelReport(a.total, a.count, Average(a.total, a.count))
  }

  /** A name whose letters lower-case to the pattern is a fuel name. */
  lemma LowersTo(s: string)
    requires |s| == |FuelPattern|
    requires forall i | 0 <= i < |s| :: Lower(s[i]) == FuelPattern[i]
    ensures IsFuelName(s)
  {
    assert LowerAll(s) == FuelPattern;
    assert MatchAt(LowerAll(s), FuelPattern, 0);
  }

  /** The match ignores case, so the seeded name matches... */
  lemma SeededNameIsFuel()
    ensures IsFuelName("Combustível")
  {
    LowersTo("Combustível");
  }

  /** ...and so does the same name in capitals... */
  lemma CapitalsAreFuel()
    ensures IsFuelName("COMBUSTÍVEL")
  {
    LowersTo("COMBUSTÍVEL");
  }

  /** ...while "Fuel", which the documentation also promises, does not. */
  lemma EnglishNameIsNotFuel()
    ensures !IsFuelName("Fuel")
  {
  }

  /** No transaction-type filter: an INCOME row in a fuel category counts. */
  lemma FuelCountsIncomeToo(txs: seq<Transaction>, cats: seq<Category>, uid: int, t: Transaction)
    requires t in txs && t.userId == uid && t.kind == Income
    requires t.categoryId.Some? && t.categoryId.value in FuelCategoryIds(cats)
    ensures t in Select(txs, FuelWhere(uid, FuelCategoryIds(cats), None, None))
    ensures GetFuelAnalytics(txs, cats, uid, None, None).fuelTransactionCount >= 1
  {
  }
}

=== FILE: auth_endpoint.dfy ===
/** The sign-up and login handlers. */
module AuthEndpoint {
  import opened Wrappers
  import opened Errors
  import opened Models
  import opened Schemas
  import opened Security
  import opened Store
  import CrudUser
  import UserRepository
  import Deps

  /** `signup`: a body failing the schema is 422; an email already stored is
      400; otherwise one new user is stored and its public profile returned.
      The lookup and the new row both use the normalised address. */
  function Signup(db: Db, hasher: Hasher, body: UserCreate): (r: Response<UserResponse>)
    ensures r.result.Err? ==> r.db == db
    ensures ValidateUserCreate(body).Err? ==> r.result.Err? && r.result.error.status == Unprocessable
    ensures ValidateUserCreate(body).Ok? && CrudUser.GetUserByEmail(db.users, NormalizeEmail(body.email)).Some?
      ==> r.result == Err(BadRequestError(EmailRegistered))
    ensures r.result.Ok? <==>
      ValidateUserCreate(body).Ok? && CrudUser.GetUserByEmail(db.users, NormalizeEmail(body.email)).None?
    ensures r.result.Ok? ==>
      && |r.db.users| == |db.users| + 1
      && r.db.users[..|db.users|] == db.users
      && r.db.categories == db.categories && r.db.transactions == db.transactions
      && var u := r.db.users[|db.users|];
         && r.result.value == ToResponse(u)
         && u.isActive && !u.isSuperuser
         && u.email == NormalizeEmail(body.email) && u.fullName == body.fullName
         && u.hashedPassword == hasher.hash(body.password)
  {
    match ValidateUserCreate(body)
    case Err(e) => Refuse(db, e)
    case Ok(input) =>
      if CrudUser.GetUserByEmail(db.users, input.email).Some? then
        Refuse(db, BadRequestError(EmailRegistered))
      else
        var (users, u) := CrudUser.CreateUser(db.users, hasher, input);
        assert users[..|db.users|] == db.users;
        Response(db.(users := users), Ok(ToResponse(u)))
  }

  /** Sign-up keeps both emails and ids unique. */
  lemma SignupKeepsUsersUnique(db: Db, hasher: Hasher, body: UserCreate)
    requires EmailsUnique(db.users) && UniqueUserIds(db.users)
    ensures EmailsUnique(Signup(db, hasher, body).db.users)
    ensures UniqueUserIds(Signup(db, hasher, body).db.users)
  {
    var r := Signup(db, hasher, body);
    if r.result.Ok? {
      var (users, u) := CrudUser.CreateUser(db.users, hasher, ValidateUserCreate(body).value);
      assert r.db.users == users;
      assert forall j | 0 <= j < |db.users| :: db.users[j].id in UserIds(db.users);
    }
  }

  datatype TokenResponse = TokenResponse(accessToken: string, tokenType: string)

  /** `login`: authentication first (401 for an unknown email or a wrong
      password alike), then the active check (400), then a token for the
      user's id. */
  function Login(users: seq<User>, hasher: Hasher, codec: TokenCodec, username: string, password: string, now: int)
    : (r: Result<TokenResponse, ApiError>)
    ensures CrudUser.Authenticate(users, hasher, username, password).None?
      ==> r == Err(UnauthorizedError(BadCredentials))
    ensures CrudUser.Authenticate(users, hasher, username, password).Some?
      && !CrudUser.Authenticate(users, hasher, username, password).value.isActive
      ==> r == Err(BadRequestError(InactiveUser))
    ensures r.Ok? ==>
      var u := CrudUser.Authenticate(users, hasher, username, password);
      && u.Some? && u.value.isActive
      && r.value == TokenResponse(CreateAccessToken(codec, u.value.id, None, now), "bearer")
    ensures CrudUser.Authenticate(users, hasher, username, password).Some?
      && CrudUser.Authenticate(users, hasher, username, password).value.isActive
      ==> r == Ok(TokenResponse(CreateAccessToken(codec, CrudUser.Authenticate(users, hasher, username, password).value.id, None, now), "bearer"))
  {
    match CrudUser.Authenticate(users, hasher, username, password)
    case None => Err(UnauthorizedError(BadCredentials))
    case Some(u) =>
      if !u.isActive then Err(BadRequestError(InactiveUser))
      else Ok(TokenResponse(CreateAccessToken(codec, u.id, None, now), "bearer"))
  }

  /** An unknown email and a wrong password get the identical answer. */
  lemma LoginFailuresIndistinguishable(users: seq<User>, hasher: Hasher, codec: TokenCodec,
                                       unknown: string, known: User, wrong: string, now: int)
    requires forall j | 0 <= j < |users| :: users[j].email != unknown
    requires CrudUser.GetUserByEmail(users, known.email) == Some(known)
    requires !hasher.verify(wrong, known.hashedPassword)
    ensures Login(users, hasher, codec, unknown, wrong, now) == Login(users, hasher, codec, known.email, wrong, now)
    ensures Login(users, hasher, codec, unknown, wrong, now) == Err(UnauthorizedError(BadCredentials))
  {
  }

  /** An inactive user with the wrong password is told 401, not "Inactive
      user": the password is checked before the active flag. */
  lemma InactiveWithWrongPasswordIs401(users: seq<User>, hasher: Hasher, codec: TokenCodec, u: User, wrong: string, now: int)
    requires CrudUser.GetUserByEmail(users, u.email) == Some(u) && !u.isActive
    requires !hasher.verify(wrong, u.hashedPassword)
    ensures Login(users, hasher, codec, u.email, wrong, now).error.status == Unauthorized
  {
  }

  /** An inactive user with the right password is told 400 "Inactive user". */
  lemma InactiveWithRightPasswordIs400(users: seq<User>, hasher: Hasher, codec: TokenCodec, u: User, password: string, now: int)
    requires CrudUser.GetUserByEmail(users, u.email) == Some(u) && !u.isActive
    requires hasher.verify(password, u.hashedPassword)
    ensures Login(users, hasher, codec, u.email, password, now) == Err(BadRequestError(InactiveUser))
  {
  }

  /** Sign up, log in with the stored (normalised) address, present the
      token: the request resolves to the new user for the whole token
      lifetime. */
  lemma SignupLoginRoundTrip(db: Db, hasher: Hasher, codec: TokenCodec, body: UserCreate, issued: int, now: int)
    requires SoundHasher(hasher) && SoundCodec(codec)
    requires UniqueUserIds(db.users)
    requires Signup(db, hasher, body).result.Ok?
    requires issued <= now <= issued + AccessTokenExpireMinutes * SecondsPerMinute
    ensures var users := Signup(db, hasher, body).db.users;
      var login := Login(users, hasher, codec, NormalizeEmail(body.email), body.password, issued);
      && login.Ok? && login.value.tokenType == "bearer"
      && Deps.GetCurrentActiveUser(users, codec, login.value.accessToken, now) == Ok(users[|db.users|])
  {
    var input := ValidateUserCreate(body).value;
    var (users, u) := CrudUser.CreateUser(db.users, hasher, input);
    UserRepository.CreatedUserAuthenticates(db.users, hasher, input);
    assert UniqueUserIds(users) by {
      assert forall j | 0 <= j < |db.users| :: db.users[j].id in UserIds(db.users);
    }
    Deps.IssuedTokenResolves(users, codec, u, None, issued, now);
  }

  /** Login looks the username up as typed, without normalising it. So an
      address signed up with capitals in its domain cannot log in as it was
      typed at sign-up (401). */
  lemma RawAddressLoginFails(db: Db, hasher: Hasher, codec: TokenCodec, body: UserCreate, now: int)
    requires Signup(db, hasher, body).result.Ok?
    requires body.email != NormalizeEmail(body.email)
    requires forall j | 0 <= j < |db.users| :: db.users[j].email != body.email
    ensures Login(Signup(db, hasher, body).db.users, hasher, codec, body.email, body.password, now)
         == Err(UnauthorizedError(BadCredentials))
  {
    var users := Signup(db, hasher, body).db.users;
    forall j | 0 <= j < |users| ensures users[j].email != body.email {
      if j < |db.users| { assert users[j] == users[..|db.users|][j]; }
    }
  }

  /** `get_current_user_profile` (`GET /auth/me`): the public profile of the
      user the token resolved to. */
  function CurrentProfile(current: User): (r: UserResponse)
    ensures r.id == current.id && r.email == current.email && r.fullName == current.fullName
    ensures r.isActive == current.isActive && r.isSuperuser == current.isSuperuser
  {
    ToResponse(current)
  }

  /** A token issued to an active user, presented before it expires, shows
      that user's profile and no one else's. */
  lemma ProfileIsTheTokenOwner(users: seq<User>, codec: TokenCodec, u: User, issued: int, now: int)
    requires SoundCodec(codec) && UniqueUserIds(users) && u in users && u.isActive
    requires now <= Expiry(issued, None)
    ensures var current := Deps.GetCurrentActiveUser(users, codec, CreateAccessToken(codec, u.id, None, issued), now);
      current.Ok? && CurrentProfile(current.value).id == u.id && CurrentProfile(current.value).email == u.email
  {
    Deps.IssuedTokenResolves(users, codec, u, None, issued, now);
  }
}

=== FILE: base_repository.dfy ===
/** The generic repository every table uses: lookup by primary key, paging,
    partial update and delete. `idOf` projects a row's primary key. */
module BaseRepository {
  import opened Wrappers
  import Seqs

  /** Position of the row with primary key `id`, or -1. */
  function IndexOf<T>(rows: seq<T>, idOf: T -> int, id: int): (k: int)
    ensures -1 <= k < |rows|
    ensures k >= 0 ==> idOf(rows[k]) == id
    ensures k >= 0 ==> forall j | 0 <= j < k :: idOf(rows[j]) != id
    ensures k == -1 <==> forall j | 0 <= j < |rows| :: idOf(rows[j]) != id
  {
    if |rows| == 0 then -1
    else if idOf(rows[0]) == id then 0
    else
      var k := IndexOf(rows[1..], idOf, id);
      if k == -1 then -1 else k + 1
  }

  /** `get_by_id`: the row with that key, or None. */
  function GetById<T>(rows: seq<T>, idOf: T -> int, id: int): (r: Option<T>)
    ensures r.Some? ==> r.value in rows && idOf(r.value) == id
    ensures r.None? <==> forall j | 0 <= j < |rows| :: idOf(rows[j]) != id
    ensures r.Some? ==> 0 <= IndexOf(rows, idOf, id) && r.value == rows[IndexOf(rows, idOf, id)]
  {
    var k := IndexOf(rows, idOf, id);
    if k == -1 then None else Some(rows[k])
  }

  /** `exists`. */
  predicate Exists<T>(rows: seq<T>, idOf: T -> int, id: int)
    ensures Exists(rows, idOf, id) <==> GetById(rows, idOf, id).Some?
  {
    exists j | 0 <= j < |rows| :: idOf(rows[j]) == id
  }

  /** `get_multi`: table order, `OFFSET skip LIMIT limit`. */
  function GetMulti<T>(rows: seq<T>, skip: nat, limit: nat): (r: seq<T>)
    ensures |r| <= limit
    ensures skip >= |rows| ==> r == []
    ensures skip < |rows| ==> |r| == Seqs.Min(limit, |rows| - skip)
    ensures forall i | 0 <= i < |r| :: r[i] == rows[skip + i]
  {
    Seqs.Window(rows, skip, limit)
  }

  /** A fresh primary key: larger than every key in the table. */
  function NextId<T>(rows: seq<T>, idOf: T -> int): (n: int)
    ensures n >= 1
    ensures forall j | 0 <= j < |rows| :: idOf(rows[j]) < n
  {
    if |rows| == 0 then 1
    else
      var m := NextId(rows[1..], idOf);
      if idOf(rows[0]) < m then m else idOf(rows[0]) + 1
  }

  /** How `update` ends: no such row (returns None), a failed flush or
      commit (the exception name; nothing is written), or the stored row. */
  datatype UpdateOutcome<T> = Missing | Rejected(exception: string) | Updated(rows: seq<T>, row: T)

  /** `update`: `apply` performs the `setattr` of every field the client
      sent (or raises), and `commits` is the check the database makes of
      the resulting table. */
  function Update<T, P>(rows: seq<T>, idOf: T -> int, id: int, patch: P,
                        apply: (T, P) -> Result<T, string>,
                        commits: seq<T> -> bool,
                        constraintName: string): (r: UpdateOutcome<T>)
    ensures r.Missing? <==> IndexOf(rows, idOf, id) == -1
    ensures r.Updated? ==>
      var k := IndexOf(rows, idOf, id);
      && k >= 0
      && apply(rows[k], patch) == Ok(r.row)
      && r.rows == rows[k := r.row]
      && commits(r.rows)
    ensures r.Rejected? ==>
      var k := IndexOf(rows, idOf, id);
      && k >= 0
      && match apply(rows[k], patch)
         case Err(e) => r.exception == e
         case Ok(row) => !commits(rows[k := row]) && r.exception == constraintName
  {
    var k := IndexOf(rows, idOf, id);
    if k == -1 then Missing
    else
      match apply(rows[k], patch)
      case Err(e) => Rejected(e)
      case Ok(row) =>
        if commits(rows[k := row]) then Updated(rows[k := row], row) else Rejected(constraintName)
  }

  /** `delete`: removes the row with that key and returns it, or None. */
  function Delete<T>(rows: seq<T>, idOf: T -> int, id: int): (r: Option<(seq<T>, T)>)
    ensures r.None? <==> forall j | 0 <= j < |rows| :: idOf(rows[j]) != id
    ensures r.Some? ==>
      var k := IndexOf(rows, idOf, id);
      && k >= 0 && r.value.1 == rows[k] && idOf(r.value.1) == id
      && r.value.0 == rows[..k] + rows[k + 1..]
  {
    var k := IndexOf(rows, idOf, id);
    if k == -1 then None else Some((rows[..k] + rows[k + 1..], rows[k]))
  }

  predicate UniqueKeys<T>(rows: seq<T>, idOf: T -> int) {
    forall i, j | 0 <= i < j < |rows| :: idOf(rows[i]) != idOf(rows[j])
  }

  /** With unique keys, a delete removes exactly the row with that key. */
  lemma DeleteRemovesOnlyThatRow<T>(rows: seq<T>, idOf: T -> int, id: int)
    requires UniqueKeys(rows, idOf)
    requires Delete(rows, idOf, id).Some?
    ensures var rest := Delete(rows, idOf, id).value.0;
      && |rest| == |rows| - 1
      && (forall x | x in rest :: idOf(x) != id)
      && (forall x | x in rows && idOf(x) != id :: x in rest)
  {
    var k := IndexOf(rows, idOf, id);
    var rest := rows[..k] + rows[k + 1..];
    forall x | x in rest ensures idOf(x) != id {
      var j :| 0 <= j < |rest| && rest[j] == x;
      if j < k { assert x == rows[j]; } else { assert x == rows[j + 1]; }
    }
    forall x | x in rows && idOf(x) != id ensures x in rest {
      var j :| 0 <= j < |rows| && rows[j] == x;
      if j < k { assert rest[j] == x; } else { assert j != k; assert rest[j - 1] == x; }
    }
  }
}

=== FILE: calendar.dfy ===
/** Calendar dates and date-times as the backend compares them. Time zones
    are not modelled: a `DateTime` is a calendar date plus the second of that
    day, and `DateOf` / `YearOf` / `MonthOf` are the projections that the SQL
    `cast(..., Date)` and `extract(...)` perform. */
module Calendar {
  import opened Wrappers

  const SecondsPerDay := 86400

  datatype Date = Date(year: int, month: int, day: int)

  datatype DateTime = DateTime(date: Date, second: int)

  predicate IsLeapYear(y: int) {
    y % 4 == 0 && (y % 100 != 0 || y % 400 == 0)
  }

  function DaysInMonth(y: int, m: int): (n: int)
    requires 1 <= m <= 12
    ensures 28 <= n <= 31
  {
    if m == 2 then (if IsLeapYear(y) then 29 else 28)
    else if m == 4 || m == 6 || m == 9 || m == 11 then 30
    else 31
  }

  /** Python's `date` only admits years 1..9999 and real days of the month. */
  predicate ValidDate(d: Date) {
    1 <= d.year <= 9999 && 1 <= d.month <= 12 && 1 <= d.day <= DaysInMonth(d.year, d.month)
  }

  predicate ValidDateTime(t: DateTime) {
    ValidDate(t.date) && 0 <= t.second < SecondsPerDay
  }

  function DateOf(t: DateTime): Date { t.date }
  function YearOf(t: DateTime): int { t.date.year }
  function MonthOf(t: DateTime): int { t.date.month }

  /** The start of a day: what `datetime.fromisoformat("YYYY-MM-DD")` yields. */
  function Midnight(d: Date): (t: DateTime)
    ensures DateOf(t) == d && t.second == 0
  {
    DateTime(d, 0)
  }

  /** A position on the time line; equal positions are equal instants. Every
      month is given 31 day slots, which keeps the order and leaves gaps. */
  function Ordinal(t: DateTime): int {
    ((t.date.year * 12 + (t.date.month - 1)) * 31 + (t.date.day - 1)) * SecondsPerDay + t.second
  }

  /** `a <= b` on timestamps. */
  predicate NotAfter(a: DateTime, b: DateTime) {
    Ordinal(a) <= Ordinal(b)
  }

  /** Chronological order: first by date (year, month, day), then by second. */
  predicate LexBefore(a: DateTime, b: DateTime) {
    || a.date.year < b.date.year
    || (a.date.year == b.date.year && a.date.month < b.date.month)
    || (a.date.year == b.date.year && a.date.month == b.date.month && a.date.day < b.date.day)
    || (a.date == b.date && a.second < b.second)
  }

  lemma OrdinalOfLaterDay(a: DateTime, b: DateTime)
    requires ValidDateTime(a) && ValidDateTime(b)
    requires a.date.year == b.date.year && a.date.month == b.date.month && a.date.day < b.date.day
    ensures Ordinal(a) < Ordinal(b)
  {
    var base := (a.date.year * 12 + (a.date.month - 1)) * 31;
    assert Ordinal(a) == (base + a.date.day - 1) * SecondsPerDay + a.second;
    assert Ordinal(b) == (base + b.date.day - 1) * SecondsPerDay + b.second;
    assert (base + b.date.day - 1) * SecondsPerDay >= (base + a.date.day) * SecondsPerDay;
  }

  lemma OrdinalOfLaterMonth(a: DateTime, b: DateTime)
    requires ValidDateTime(a) && ValidDateTime(b)
    requires a.date.year == b.date.year && a.date.month < b.date.month
    ensures Ordinal(a) < Ordinal(b)
  {
    var ma := a.date.year * 12 + (a.date.month - 1);
    var mb := b.date.year * 12 + (b.date.month - 1);
    assert mb >= ma + 1;
    var da := ma * 31 + (a.date.day - 1);
    var db := mb * 31 + (b.date.day - 1);
    assert da < ma * 31 + 31;
    assert db >= mb * 31 >= ma * 31 + 31;
    assert Ordinal(a) == da * SecondsPerDay + a.second;
    assert Ordinal(b) == db * SecondsPerDay + b.second;
    assert db * SecondsPerDay >= (da + 1) * SecondsPerDay;
  }

  lemma OrdinalOfLaterYear(a: DateTime, b: DateTime)
    requires ValidDateTime(a) && ValidDateTime(b)
    requires a.date.year < b.date.year
    ensures Ordinal(a) < Ordinal(b)
  {
    var ma := a.date.year * 12 + (a.date.month - 1);
    var mb := b.date.year * 12 + (b.date.month - 1);
    assert mb >= ma + 1;
    var da := ma * 31 + (a.date.day - 1);
    var db := mb * 31 + (b.date.day - 1);
    assert da < ma * 31 + 31;
    assert db >= mb * 31 >= ma * 31 + 31;
    assert Ordinal(a) == da * SecondsPerDay + a.second;
    assert Ordinal(b) == db * SecondsPerDay + b.second;
    assert db * SecondsPerDay >= (da + 1) * SecondsPerDay;
  }

  /** On valid date-times the ordinal order is exactly chronological order,
      so comparing ordinals is comparing timestamps. */
  lemma {:induction false} OrdinalIsChronological(a: DateTime, b: DateTime)
    requires ValidDateTime(a) && ValidDateTime(b)
    ensures Ordinal(a) < Ordinal(b) <==> LexBefore(a, b)
    ensures Ordinal(a) == Ordinal(b) <==> a == b
  {
    if a.date.year < b.date.year {
      OrdinalOfLaterYear(a, b);
    } else if b.date.year < a.date.year {
      OrdinalOfLaterYear(b, a);
    } else if a.date.month < b.date.month {
      OrdinalOfLaterMonth(a, b);
    } else if b.date.month < a.date.month {
      OrdinalOfLaterMonth(b, a);
    } else if a.date.day < b.date.day {
      OrdinalOfLaterDay(a, b);
    } else if b.date.day < a.date.day {
      OrdinalOfLaterDay(b, a);
    } else {
      assert a.date == b.date;
    }
  }

  /** A later moment of day `d` is after midnight of `d`: an upper bound given
      as a bare date excludes the rest of that day. */
  lemma LaterSameDayIsAfterMidnight(t: DateTime, d: Date)
    requires DateOf(t) == d && t.second > 0
    ensures !NotAfter(t, Midnight(d))
  {
  }
}

=== FILE: categories_endpoint.dfy ===
/** The `/categories` handlers: listing, creation, and the decision ladders
    of get, update and delete (unknown id, then system row, then owner). */
module CategoriesEndpoint {
  import opened Wrappers
  import opened Errors
  import opened Models
  import opened Schemas
  import opened Store
  import opened IsoFormat
  import Seqs
  import BaseRepository
  import CategoryRepository
  import TransactionService

  /** `GET /categories/`: a truthy `type` selects `get_by_type` (an unknown
      value raises ValueError, 500); otherwise the first 100 visible rows. */
  function ListCategories(cats: seq<Category>, current: User, kind: Option<string>): (r: Result<seq<Category>, ApiError>)
    ensures r.Err? <==> TypeParam(kind).Err?
    ensures r.Err? ==> r.error == Crash(ValueErrorName)
    ensures r.Ok? ==> forall i | 0 <= i < |r.value| ::
      && r.value[i] in cats && CategoryRepository.VisibleTo(r.value[i], current.id)
      && (TypeParam(kind).value.Some? ==> r.value[i].kind == TypeParam(kind).value.value)
    ensures r.Ok? && TypeParam(kind).value.Some? ==>
      forall c | c in cats && CategoryRepository.VisibleTo(c, current.id) && c.kind == TypeParam(kind).value.value
        :: c in r.value
    ensures r.Ok? && TypeParam(kind).value.Some? ==>
      forall c :: multiset(r.value)[c]
        == if CategoryRepository.VisibleTo(c, current.id) && c.kind == TypeParam(kind).value.value
           then multiset(cats)[c] else 0
    ensures r.Ok? && TypeParam(kind).value.None? ==>
      r.value == CategoryRepository.GetUserCategories(cats, current.id, 0, CategoryRepository.DefaultCategoryLimit)
  {
    var k :- TypeParam(kind);
    if k.Some? then Ok(CategoryRepository.GetByType(cats, current.id, k.value))
    else Ok(CategoryRepository.GetUserCategories(cats, current.id, 0, CategoryRepository.DefaultCategoryLimit))
  }

  /** `POST /categories/`: 422 for a bad body, 400 when the caller already
      has a category of that name and type (system rows do not count), else
      the insert. */
  function CreateCategory(db: Db, current: User, body: CategoryCreateBody): (r: Response<Category>)
    ensures r.result.Err? ==> r.db == db
    ensures ValidateCategoryCreate(body).Err? ==> r.result.Err? && r.result.error.status == Unprocessable
    ensures ValidateCategoryCreate(body).Ok? ==>
      var input := ValidateCategoryCreate(body).value;
      && (CategoryRepository.GetByUserAndName(db.categories, current.id, input.name, input.kind).Some?
          <==> r.result == Err(BadRequestError(CategoryExists)))
      && (r.result.Ok? <==> CategoryRepository.GetByUserAndName(db.categories, current.id, input.name, input.kind).None?)
    ensures r.result.Ok? ==>
      var c := r.result.value;
      && r.db == db.(categories := db.categories + [c])
      && c.userId == Some(current.id) && !c.isSystem && c.name == body.name && TypeName(c.kind) == body.kind
  {
    match ValidateCategoryCreate(body)
    case Err(e) => Refuse(db, e)
    case Ok(input) =>
      if CategoryRepository.GetByUserAndName(db.categories, current.id, input.name, input.kind).Some? then
        Refuse(db, BadRequestError(CategoryExists))
      else
        match CategoryRepository.Create(db.categories, input, current.id)
        case Err(e) => Refuse(db, e)
        case Ok((rows, c)) => Response(db.(categories := rows), Ok(c))
  }

  /** A created category keeps every database invariant. */
  lemma CreateKeepsWellFormed(db: Db, current: User, body: CategoryCreateBody)
    requires WellFormed(db)
    ensures WellFormed(CreateCategory(db, current, body).db)
  {
    var r := CreateCategory(db, current, body);
    if r.result.Ok? {
      var input := ValidateCategoryCreate(body).value;
      CategoryRepository.CreateKeepsCommitted(db.categories, input, current.id);
      var c := r.result.value;
      assert CategoryIds(db.categories) <= CategoryIds(r.db.categories);
    }
  }

  /** `GET /categories/{id}`: 404, then 403 for another user's row. */
  function GetCategory(cats: seq<Category>, current: User, id: int): (r: Result<Category, ApiError>)
    ensures id !in CategoryIds(cats) ==> r == Err(NotFoundError(CategoryNotFound))
    ensures r.Ok? ==> r.value in cats && r.value.id == id && TransactionService.UsableBy(r.value, current.id)
    ensures id in CategoryIds(cats) && !TransactionService.UsableBy(CategoryRepository.GetById(cats, id).value, current.id)
      ==> r == Err(ForbiddenError(CategoryNotOwned))
    ensures id in CategoryIds(cats) && TransactionService.UsableBy(CategoryRepository.GetById(cats, id).value, current.id)
      ==> r == Ok(CategoryRepository.GetById(cats, id).value)
  {
    match CategoryRepository.GetById(cats, id)
    case None => Err(NotFoundError(CategoryNotFound))
    case Some(c) =>
      if c.userId.Some? && c.userId.value != current.id then Err(ForbiddenError(CategoryNotOwned))
      else Ok(c)
  }

  /** With unique ids, a stored category is read back exactly when the
      caller may use it (their own or an ownerless one), and is 403
      otherwise. */
  lemma GetCategoryIsUsableOnly(cats: seq<Category>, current: User, c: Category)
    requires UniqueCategoryIds(cats) && c in cats
    ensures TransactionService.UsableBy(c, current.id) ==> GetCategory(cats, current, c.id) == Ok(c)
    ensures !TransactionService.UsableBy(c, current.id) ==> GetCategory(cats, current, c.id) == Err(ForbiddenError(CategoryNotOwned))
  {
    var k := BaseRepository.IndexOf(cats, CategoryRepository.CategoryId, c.id);
    var j :| 0 <= j < |cats| && cats[j] == c;
    assert CategoryRepository.GetById(cats, c.id).Some?;
    assert k == j;
  }

  /** Every system row that no user owns can be read by everyone. */
  lemma SharedRowsReadableByAll(cats: seq<Category>, current: User, c: Category)
    requires UniqueCategoryIds(cats) && c in cats && c.userId.None?
    ensures GetCategory(cats, current, c.id) == Ok(c)
  {
    var k := BaseRepository.IndexOf(cats, CategoryRepository.CategoryId, c.id);
    var j :| 0 <= j < |cats| && cats[j] == c;
    assert k == j;
  }

  /** The ladder shared by update and delete: 404, then 403 for a system
      row (before ownership is looked at), then 403 for another user's. */
  function OwnedCategory(cats: seq<Category>, uid: int, id: int, systemDetail: string): (r: Result<Category, ApiError>)
    ensures id !in CategoryIds(cats) ==> r == Err(NotFoundError(CategoryNotFound))
    ensures id in CategoryIds(cats) && CategoryRepository.GetById(cats, id).value.isSystem
      ==> r == Err(ForbiddenError(systemDetail))
    ensures r.Ok? <==>
      && CategoryRepository.GetById(cats, id).Some?
      && !CategoryRepository.GetById(cats, id).value.isSystem
      && CategoryRepository.GetById(cats, id).value.userId == Some(uid)
    ensures r.Ok? ==> r == Ok(CategoryRepository.GetById(cats, id).value) && r.value.id == id
  {
    match CategoryRepository.GetById(cats, id)
    case None => Err(NotFoundError(CategoryNotFound))
    case Some(c) =>
      if c.isSystem then Err(ForbiddenError(systemDetail))
      else if c.userId != Some(uid) then Err(ForbiddenError(CategoryNotOwned))
      else Ok(c)
  }

  /** The `setattr` of every field sent and the flush: a null in a NOT NULL
      column (name, type, color) is an IntegrityError; a null icon clears
      it. */
  function ApplyUpdate(c: Category, patch: CategoryUpdate): (r: Result<Category, string>)
    ensures r.Err? <==> patch.name.Null? || patch.kind.Null? || patch.color.Null?
    ensures r.Err? ==> r.error == IntegrityErrorName
    ensures r.Ok? ==>
      && r.value.id == c.id && r.value.userId == c.userId && r.value.isSystem == c.isSystem
      && r.value.name == (if patch.name.Value? then patch.name.v else c.name)
      && r.value.kind == (if patch.kind.Value? then patch.kind.v else c.kind)
      && r.value.color == (if patch.color.Value? then patch.color.v else c.color)
      && r.value.icon == (match patch.icon case Unset => c.icon case Null => None case Value(i) => Some(i))
  {
    if patch.name.Null? || patch.kind.Null? || patch.color.Null? then Err(IntegrityErrorName)
    else
      Ok(c.(
        name := if patch.name.Value? then patch.name.v else c.name,
        kind := if patch.kind.Value? then patch.kind.v else c.kind,
        color := if patch.color.Value? then patch.color.v else c.color,
        icon := match patch.icon case Unset => c.icon case Null => None case Value(i) => Some(i)))
  }

  /** The empty patch changes nothing. */
  lemma EmptyPatchIsIdentity(c: Category)
    ensures ApplyUpdate(c, CategoryUpdate(Unset, Unset, Unset, Unset)) == Ok(c)
  {
  }

  /** The type the name-conflict check looks under: the new type if one is
      sent, else the current one. */
  function TypeToCheck(c: Category, patch: CategoryUpdate): TxType {
    if patch.kind.Value? then patch.kind.v else c.kind
  }

  /** The name-conflict check runs only for a truthy name that differs from
      the current one. */
  predicate NameConflict(cats: seq<Category>, uid: int, c: Category, patch: CategoryUpdate) {
    && patch.name.Value? && patch.name.v != "" && patch.name.v != c.name
    && CategoryRepository.GetByUserAndName(cats, uid, patch.name.v, TypeToCheck(c, patch)).Some?
  }

  /** `PUT /categories/{id}`. */
  function UpdateCategory(db: Db, current: User, id: int, body: CategoryUpdateBody): (r: Response<Category>)
    ensures r.result.Err? ==> r.db == db
    ensures ValidateCategoryUpdate(body).Err? ==> r.result.Err? && r.result.error.status == Unprocessable
    ensures ValidateCategoryUpdate(body).Ok? && OwnedCategory(db.categories, current.id, id, SystemCategoryImmutable).Err?
      ==> r.result == OwnedCategory(db.categories, current.id, id, SystemCategoryImmutable)
    ensures ValidateCategoryUpdate(body).Ok? && OwnedCategory(db.categories, current.id, id, SystemCategoryImmutable).Ok?
      && NameConflict(db.categories, current.id, OwnedCategory(db.categories, current.id, id, SystemCategoryImmutable).value,
                      ValidateCategoryUpdate(body).value)
      ==> r.result == Err(BadRequestError(CategoryExists))
    ensures r.result.Ok? ==>
      var k := BaseRepository.IndexOf(db.categories, CategoryRepository.CategoryId, id);
      && 0 <= k < |db.categories|
      && !db.categories[k].isSystem && db.categories[k].userId == Some(current.id)
      && ApplyUpdate(db.categories[k], ValidateCategoryUpdate(body).value) == Ok(r.result.value)
      && r.db == db.(categories := db.categories[k := r.result.value])
      && CategoryKeysUnique(r.db.categories)
    ensures r.result.Ok? <==>
      && ValidateCategoryUpdate(body).Ok?
      && OwnedCategory(db.categories, current.id, id, SystemCategoryImmutable).Ok?
      && var c := OwnedCategory(db.categories, current.id, id, SystemCategoryImmutable).value;
         var patch := ValidateCategoryUpdate(body).value;
         && !NameConflict(db.categories, current.id, c, patch)
         && ApplyUpdate(c, patch).Ok?
         && CategoryKeysUnique(db.categories[BaseRepository.IndexOf(db.categories, CategoryRepository.CategoryId, id) := ApplyUpdate(c, patch).value])
  {
    match ValidateCategoryUpdate(body)
    case Err(e) => Refuse(db, e)
    case Ok(patch) =>
      match OwnedCategory(db.categories, current.id, id, SystemCategoryImmutable)
      case Err(e) => Refuse(db, e)
      case Ok(c) =>
        if NameConflict(db.categories, current.id, c, patch) then Refuse(db, BadRequestError(CategoryExists))
        else
          match BaseRepository.Update(db.categories, CategoryRepository.CategoryId, id, patch,
                                      ApplyUpdate, CategoryKeysUnique, IntegrityErrorName)
          case Missing => Refuse(db, NotFoundError(CategoryNotFound))
          case Rejected(e) => Refuse(db, Crash(e))
          case Updated(rows, u) => Response(db.(categories := rows), Ok(u))
  }

  /** Changing only the type onto an existing (name, type) pair is not
      caught by the name check (the name is unchanged), so the unique key
      refuses it at commit: 500, not 400. */
  lemma TypeOnlyClashIsServerError(db: Db, current: User, id: int, body: CategoryUpdateBody, j: int)
    requires ValidateCategoryUpdate(body).Ok? && body.name.Unset? && body.color.Unset? && body.icon.Unset?
    requires body.kind.Value?
    requires OwnedCategory(db.categories, current.id, id, SystemCategoryImmutable).Ok?
    requires var c := OwnedCategory(db.categories, current.id, id, SystemCategoryImmutable).value;
      && 0 <= j < |db.categories| && db.categories[j].id != id
      && CategoryRepository.HasKey(db.categories[j], current.id, c.name, ValidateCategoryUpdate(body).value.kind.v)
    ensures UpdateCategory(db, current, id, body) == Refuse(db, Crash(IntegrityErrorName))
  {
    var patch := ValidateCategoryUpdate(body).value;
    var k := BaseRepository.IndexOf(db.categories, CategoryRepository.CategoryId, id);
    var u := ApplyUpdate(db.categories[k], patch).value;
    var rows := db.categories[k := u];
    assert j != k;
    if j < k {
      assert rows[j] == db.categories[j] && rows[k] == u;
    } else {
      assert rows[k] == u && rows[j] == db.categories[j];
    }
    assert !CategoryKeysUnique(rows);
  }

  /** The fields `CategoryUpdate` validation guarantees. */
  predicate UpdateFieldsOk(p: CategoryUpdate) {
    && (p.name.Value? ==> NameOk(p.name.v))
    && (p.color.Value? ==> IsHexColor(p.color.v))
    && (p.icon.Value? ==> |p.icon.v| <= MaxIconLength)
  }

  /** A category update keeps every database invariant: ids and therefore
      every transaction's category reference are untouched. */
  lemma UpdateKeepsWellFormed(db: Db, current: User, id: int, body: CategoryUpdateBody)
    requires WellFormed(db)
    ensures WellFormed(UpdateCategory(db, current, id, body).db)
  {
    var r := UpdateCategory(db, current, id, body);
    if r.result.Ok? {
      var k := BaseRepository.IndexOf(db.categories, CategoryRepository.CategoryId, id);
      var rows := r.db.categories;
      forall i | 0 <= i < |rows| ensures rows[i].id == db.categories[i].id && CategoryRowOk(rows[i]) {
        if i != k { assert rows[i] == db.categories[i]; }
      }
      assert CategoryIds(rows) == CategoryIds(db.categories) by {
        forall x | x in CategoryIds(rows) ensures x in CategoryIds(db.categories) {
          var i :| 0 <= i < |rows| && rows[i].id == x;
          assert db.categories[i] in db.categories;
        }
        forall x | x in CategoryIds(db.categories) ensures x in CategoryIds(rows) {
          var i :| 0 <= i < |db.categories| && db.categories[i].id == x;
          assert rows[i] in rows;
        }
      }
    }
  }

  /** The transactions left after the cascade from deleting category `id`:
      exactly those that do not reference it, in table order. */
  function CascadeDelete(txs: seq<Transaction>, id: int): (r: seq<Transaction>)
    ensures forall t | t in r :: t in txs && t.categoryId != Some(id)
    ensures forall t | t in txs && t.categoryId != Some(id) :: t in r
    ensures forall t :: multiset(r)[t] == if t.categoryId != Some(id) then multiset(txs)[t] else 0
  {
    Seqs.Filter(txs, (t: Transaction) => t.categoryId != Some(id))
  }

  /** `DELETE /categories/{id}`: the same ladder, then the delete. The ORM
      relationship cascades ("all, delete-orphan"), so the category's
      transactions are deleted with it. */
  function DeleteCategory(db: Db, current: User, id: int): (r: Response<()>)
    ensures r.result.Err? ==> r.db == db
    ensures OwnedCategory(db.categories, current.id, id, SystemCategoryUndeletable).Err?
      ==> r.result == Err(OwnedCategory(db.categories, current.id, id, SystemCategoryUndeletable).error)
    ensures r.result.Ok? <==> OwnedCategory(db.categories, current.id, id, SystemCategoryUndeletable).Ok?
    ensures r.result.Ok? ==>
      var k := BaseRepository.IndexOf(db.categories, CategoryRepository.CategoryId, id);
      && 0 <= k < |db.categories|
      && r.db.users == db.users
      && r.db.categories == db.categories[..k] + db.categories[k + 1..]
      && r.db.transactions == CascadeDelete(db.transactions, id)
  {
    match OwnedCategory(db.categories, current.id, id, SystemCategoryUndeletable)
    case Err(e) => Refuse(db, e)
    case Ok(c) =>
      assert c in db.categories && c.id == id;
      var deleted := BaseRepository.Delete(db.categories, CategoryRepository.CategoryId, id);
      if deleted.None? then Refuse(db, NotFoundError(CategoryNotFound))
      else
        Response(Db(db.users, deleted.value.0, CascadeDelete(db.transactions, id)), Ok(()))
  }

  /** Deleting a category removes only that row, and the cascade leaves no
      transaction pointing at it: every invariant holds afterwards. */
  lemma DeleteKeepsWellFormed(db: Db, current: User, id: int)
    requires WellFormed(db)
    ensures WellFormed(DeleteCategory(db, current, id).db)
  {
    var r := DeleteCategory(db, current, id);
    if r.result.Ok? {
      var cats := db.categories;
      var k := BaseRepository.IndexOf(cats, CategoryRepository.CategoryId, id);
      RemovalKeepsCategoriesCommitted(cats, k);
      CascadeKeepsReferences(db.transactions, cats, k);
      CascadeKeepsUniqueIds(db.transactions, id);
    }
  }

  lemma RemovalKeepsCategoriesCommitted(cats: seq<Category>, k: int)
    requires 0 <= k < |cats|
    requires CategoriesCommit(cats) && UniqueCategoryIds(cats)
    ensures CategoriesCommit(cats[..k] + cats[k + 1..]) && UniqueCategoryIds(cats[..k] + cats[k + 1..])
  {
    var rows := cats[..k] + cats[k + 1..];
    forall i | 0 <= i < |rows| ensures rows[i] == cats[if i < k then i else i + 1] {
    }
    forall i, j | 0 <= i < j < |rows| ensures rows[i].id != rows[j].id {
      assert rows[i] == cats[if i < k then i else i + 1];
      assert rows[j] == cats[if j < k then j else j + 1];
    }
    forall i, j | 0 <= i < j < |rows|
      ensures !(rows[i].userId.Some? && rows[i].userId == rows[j].userId
                && rows[i].name == rows[j].name && rows[i].kind == rows[j].kind)
    {
      assert rows[i] == cats[if i < k then i else i + 1];
      assert rows[j] == cats[if j < k then j else j + 1];
    }
  }

  /** After the cascade every remaining reference still resolves once the
      category at position `k` is gone. */
  lemma CascadeKeepsReferences(txs: seq<Transaction>, cats: seq<Category>, k: int)
    requires 0 <= k < |cats|
    requires TransactionsCommit(txs, cats)
    ensures TransactionsCommit(CascadeDelete(txs, cats[k].id), cats[..k] + cats[k + 1..])
  {
    var id := cats[k].id;
    var rows := cats[..k] + cats[k + 1..];
    var kept := CascadeDelete(txs, id);
    forall i | 0 <= i < |kept| ensures TransactionRowOk(kept[i]) && CategoryRefOk(kept[i].categoryId, rows) {
      var t := kept[i];
      assert t in txs;
      if t.categoryId.Some? {
        var c :| c in cats && c.id == t.categoryId.value;
        var j :| 0 <= j < |cats| && cats[j] == c;
        assert j != k;
        if j < k { assert rows[j] == c; } else { assert rows[j - 1] == c; }
      }
    }
  }

  lemma {:induction false} CascadeKeepsUniqueIds(txs: seq<Transaction>, id: int)
    requires UniqueTransactionIds(txs)
    ensures UniqueTransactionIds(CascadeDelete(txs, id))
  {
    if |txs| > 0 {
      var rest := txs[1..];
      assert UniqueTransactionIds(rest) by {
        forall i, j | 0 <= i < j < |rest| ensures rest[i].id != rest[j].id {
          assert rest[i] == txs[i + 1] && rest[j] == txs[j + 1];
        }
      }
      CascadeKeepsUniqueIds(rest, id);
      var f := CascadeDelete(rest, id);
      forall x | x in f ensures x.id != txs[0].id {
        var j :| 0 <= j < |rest| && rest[j] == x;
        assert txs[j + 1] == x;
      }
    }
  }
}

=== FILE: category_repository.dfy ===
/** The `categories` table's queries: lookup by the unique key, the listings
    a user sees (own rows plus the shared system rows), and insertion. */
module CategoryRepository {
  import opened Wrappers
  import opened Errors
  import opened Models
  import opened Schemas
  import opened Store
  import Seqs
  import BaseRepository

  function CategoryId(c: Category): int { c.id }

  /** `get_by_id`. */
  function GetById(cats: seq<Category>, id: int): (r: Option<Category>)
    ensures r.Some? ==> r.value in cats && r.value.id == id
    ensures r.None? <==> id !in CategoryIds(cats)
    ensures r.Some? ==>
      0 <= BaseRepository.IndexOf(cats, CategoryId, id) && r.value == cats[BaseRepository.IndexOf(cats, CategoryId, id)]
  {
    var r := BaseRepository.GetById(cats, CategoryId, id);
    assert r.None? ==> forall c | c in cats :: c.id != id;
    r
  }

  /** Row `c` has the unique key (user_id, name, type) = (uid, name, kind). */
  predicate HasKey(c: Category, uid: int, name: string, kind: TxType) {
    c.userId == Some(uid) && c.name == name && c.kind == kind
  }

  /** `get_by_user_and_name`: the row with that unique key, if any. */
  function GetByUserAndName(cats: seq<Category>, uid: int, name: string, kind: TxType): (r: Option<Category>)
    ensures r.Some? ==> r.value in cats && HasKey(r.value, uid, name, kind)
    ensures r.None? <==> forall j | 0 <= j < |cats| :: !HasKey(cats[j], uid, name, kind)
  {
    if |cats| == 0 then None
    else if HasKey(cats[0], uid, name, kind) then Some(cats[0])
    else GetByUserAndName(cats[1..], uid, name, kind)
  }

  /** Under the unique key there is at most one such row, so the lookup is
      the row. */
  lemma {:induction false} KeyLookupIsTheRow(cats: seq<Category>, uid: int, name: string, kind: TxType, j: int)
    requires CategoryKeysUnique(cats)
    requires 0 <= j < |cats| && HasKey(cats[j], uid, name, kind)
    ensures GetByUserAndName(cats, uid, name, kind) == Some(cats[j])
  {
    if j > 0 {
      assert !HasKey(cats[0], uid, name, kind);
      assert CategoryKeysUnique(cats[1..]) by {
        forall a, b | 0 <= a < b < |cats[1..]|
          ensures !(cats[1..][a].userId.Some? && cats[1..][a].userId == cats[1..][b].userId
                    && cats[1..][a].name == cats[1..][b].name && cats[1..][a].kind == cats[1..][b].kind)
        {
          assert cats[1..][a] == cats[a + 1] && cats[1..][b] == cats[b + 1];
        }
      }
      KeyLookupIsTheRow(cats[1..], uid, name, kind, j - 1);
    }
  }

  /** The rows a user may see and use: their own and the system ones. */
  predicate VisibleTo(c: Category, uid: int) {
    c.userId == Some(uid) || c.isSystem
  }

  function Visible(cats: seq<Category>, uid: int): seq<Category> {
    Seqs.Filter(cats, c => VisibleTo(c, uid))
  }

  /** Defaults of `get_user_categories` and `get_system_categories`. */
  const DefaultCategoryLimit: nat := 100

  /** `get_user_categories`: the visible rows in table order, paged. */
  function GetUserCategories(cats: seq<Category>, uid: int, skip: nat, limit: nat): (r: seq<Category>)
    ensures |r| <= limit
    ensures forall i | 0 <= i < |r| :: r[i] in cats && VisibleTo(r[i], uid)
    ensures skip == 0 && |Visible(cats, uid)| <= limit ==>
      forall c | c in cats && VisibleTo(c, uid) :: c in r
    ensures |r| == (if skip >= |Visible(cats, uid)| then 0 else Seqs.Min(limit, |Visible(cats, uid)| - skip))
    ensures forall i | 0 <= i < |r| :: r[i] == Visible(cats, uid)[skip + i]
  {
    var v := Visible(cats, uid);
    var r := Seqs.Window(v, skip, limit);
    assert skip == 0 && |v| <= limit ==> r == v;
    r
  }

  function System(cats: seq<Category>): seq<Category> {
    Seqs.Filter(cats, (c: Category) => c.isSystem)
  }

  /** `get_system_categories`. */
  function GetSystemCategories(cats: seq<Category>, skip: nat, limit: nat): (r: seq<Category>)
    ensures |r| <= limit
    ensures forall i | 0 <= i < |r| :: r[i] in cats && r[i].isSystem
    ensures skip == 0 && |System(cats)| <= limit ==> forall c | c in cats && c.isSystem :: c in r
    ensures |r| == (if skip >= |System(cats)| then 0 else Seqs.Min(limit, |System(cats)| - skip))
    ensures forall i | 0 <= i < |r| :: r[i] == System(cats)[skip + i]
  {
    var s := System(cats);
    var r := Seqs.Window(s, skip, limit);
    assert skip == 0 && |s| <= limit ==> r == s;
    r
  }

  /** System rows are visible to every user. */
  lemma SystemRowsVisibleToAll(cats: seq<Category>, uid: int, c: Category)
    requires c in cats && c.isSystem
    ensures c in Visible(cats, uid)
  {
  }

  /** `get_by_type`: every visible row of one type, unpaged. */
  function GetByType(cats: seq<Category>, uid: int, kind: TxType): (r: seq<Category>)
    ensures forall i | 0 <= i < |r| :: r[i] in cats && VisibleTo(r[i], uid) && r[i].kind == kind
    ensures forall c | c in cats && VisibleTo(c, uid) && c.kind == kind :: c in r
    ensures forall c :: multiset(r)[c] == if VisibleTo(c, uid) && c.kind == kind then multiset(cats)[c] else 0
  {
    Seqs.Filter(cats, c => VisibleTo(c, uid) && c.kind == kind)
  }

  /** The listing by type holds the same rows as the user's listing, with
      room for every row, narrowed to that type. */
  lemma ByTypeIsTheFilteredListing(cats: seq<Category>, uid: int, kind: TxType)
    ensures multiset(GetByType(cats, uid, kind))
         == multiset(Seqs.Filter(GetUserCategories(cats, uid, 0, |cats|), (c: Category) => c.kind == kind))
  {
    var v := Visible(cats, uid);
    var all := GetUserCategories(cats, uid, 0, |cats|);
    assert all == v;
    var narrowed := Seqs.Filter(all, (c: Category) => c.kind == kind);
    forall c
      ensures multiset(GetByType(cats, uid, kind))[c] == multiset(narrowed)[c]
    {
    }
  }

  /** The row `create` inserts: never a system row, owned by the caller. */
  function NewRow(id: int, input: CategoryCreate, uid: int): Category {
    Category(id, Some(uid), input.name, input.kind, input.color, input.icon, false)
  }

  /** `create`: insert and commit; the commit fails on the unique key. */
  function Create(cats: seq<Category>, input: CategoryCreate, uid: int): (r: Result<(seq<Category>, Category), ApiError>)
    ensures r.Ok? <==> GetByUserAndName(cats, uid, input.name, input.kind).None?
    ensures r.Err? ==> r.error == Crash(IntegrityErrorName)
    ensures r.Ok? ==>
      var (rows, c) := r.value;
      && rows == cats + [c]
      && c.id !in CategoryIds(cats)
      && c.userId == Some(uid) && !c.isSystem
      && c.name == input.name && c.kind == input.kind && c.color == input.color && c.icon == input.icon
  {
    var c := NewRow(BaseRepository.NextId(cats, CategoryId), input, uid);
    if GetByUserAndName(cats, uid, input.name, input.kind).Some? then Err(Crash(IntegrityErrorName))
    else Ok((cats + [c], c))
  }

  /** A committed insert of validated input keeps the table's constraints. */
  lemma CreateKeepsCommitted(cats: seq<Category>, input: CategoryCreate, uid: int)
    requires CategoriesCommit(cats) && UniqueCategoryIds(cats)
    requires NameOk(input.name) && IsHexColor(input.color) && OptLength(input.icon) <= MaxIconLength
    requires Create(cats, input, uid).Ok?
    ensures var rows := Create(cats, input, uid).value.0;
      CategoriesCommit(rows) && UniqueCategoryIds(rows)
  {
    var (rows, c) := Create(cats, input, uid).value;
    assert forall i | 0 <= i < |cats| :: cats[i].id in CategoryIds(cats);
    assert forall i | 0 <= i < |cats| :: !HasKey(cats[i], uid, input.name, input.kind);
  }
}

=== FILE: crud_user.dfy ===
/** The function-style user helpers the sign-up and login handlers call.
    They perform the same queries as the user repository, so each is
    defined by it; the contracts restate what the handlers rely on. */
module CrudUser {
  import opened Wrappers
  import opened Errors
  import opened Models
  import opened Schemas
  import opened Security
  import BaseRepository
  import UserRepository

  /** `get_user_by_id`: exact match on the primary key. */
  function GetUserById(users: seq<User>, id: int): (r: Option<User>)
    ensures r.Some? ==> r.value in users && r.value.id == id
    ensures r.None? <==> forall j | 0 <= j < |users| :: users[j].id != id
  {
    UserRepository.GetById(users, id)
  }

  /** `get_user_by_email`: exact match on the email. */
  function GetUserByEmail(users: seq<User>, email: string): (r: Option<User>)
    ensures r.Some? ==> r.value in users && r.value.email == email
    ensures r.None? <==> forall j | 0 <= j < |users| :: users[j].email != email
  {
    UserRepository.GetByEmail(users, email)
  }

  /** `create_user`: one new active, non-superuser row holding the hash. */
  function CreateUser(users: seq<User>, hasher: Hasher, input: UserCreate): (r: (seq<User>, User))
    ensures r.0 == users + [r.1] && r.1.id !in UserIds(users)
    ensures r.1.email == input.email && r.1.fullName == input.fullName
    ensures r.1.hashedPassword == hasher.hash(input.password)
    ensures r.1.isActive && !r.1.isSuperuser
  {
    UserRepository.Create(users, hasher, input)
  }

  /** `authenticate`: None for an unknown email or a failed verification. */
  function Authenticate(users: seq<User>, hasher: Hasher, email: string, password: string): (r: Option<User>)
    ensures r.Some? ==> r.value in users && r.value.email == email && hasher.verify(password, r.value.hashedPassword)
    ensures (forall j | 0 <= j < |users| :: users[j].email != email) ==> r.None?
    ensures r.None? && GetUserByEmail(users, email).Some? ==>
      !hasher.verify(password, GetUserByEmail(users, email).value.hashedPassword)
  {
    UserRepository.Authenticate(users, hasher, email, password)
  }

  /** `update_user`: None for a missing user; otherwise that user's row,
      and no other, becomes the patched user. Sent fields are taken, a new
      password is stored as its hash, unsent fields keep their values, and a
      null in a NOT NULL column (or a null password, which cannot be hashed)
      makes the update fail. */
  function UpdateUser(users: seq<User>, hasher: Hasher, id: int, patch: UserUpdate)
    : (r: BaseRepository.UpdateOutcome<User>)
    ensures r.Missing? <==> forall j | 0 <= j < |users| :: users[j].id != id
    ensures r.Updated? ==>
      && r.row.id == id
      && r.row.hashedPassword == (if patch.password.Value? then hasher.hash(patch.password.v)
                                  else GetUserById(users, id).value.hashedPassword)
      && (patch.fullName.Unset? ==> r.row.fullName == GetUserById(users, id).value.fullName)
      && (patch.email.Unset? ==> r.row.email == GetUserById(users, id).value.email)
      && (patch.isActive.Unset? ==> r.row.isActive == GetUserById(users, id).value.isActive)
      && (patch.isSuperuser.Unset? ==> r.row.isSuperuser == GetUserById(users, id).value.isSuperuser)
    ensures r.Updated? ==>
      var k := BaseRepository.IndexOf(users, UserRepository.UserId, id);
      && 0 <= k < |users| && users[k] == GetUserById(users, id).value
      && r.rows == users[k := r.row]
      && (patch.email.Value? ==> r.row.email == patch.email.v)
      && (patch.fullName.Value? ==> r.row.fullName == Some(patch.fullName.v))
      && (patch.fullName.Null? ==> r.row.fullName == None)
      && (patch.isActive.Value? ==> r.row.isActive == patch.isActive.v)
      && (patch.isSuperuser.Value? ==> r.row.isSuperuser == patch.isSuperuser.v)
    ensures GetUserById(users, id).Some? ==>
      (r.Rejected? <==> UserRepository.ApplyUpdate(GetUserById(users, id).value, patch, hasher).Err?)
    ensures patch.password.Null? && GetUserById(users, id).Some? ==> r == BaseRepository.Rejected(TypeErrorName)
  {
    UserRepository.Update(users, hasher, id, patch)
  }
}

=== FILE: deps.dfy ===
/** Resolving the bearer token of a protected request to a user. The user
    table is only read: the functions return no database. */
module Deps {
  import opened Wrappers
  import opened Errors
  import opened Models
  import opened Security
  import UserRepository

  /** The user id a token names, if it decodes and carries an integer `sub`. */
  function TokenSubject(codec: TokenCodec, token: string, now: int): Option<int> {
    match codec.decode(token, now)
    case Err(_) => None
    case Ok(claims) =>
      if claims.sub.None? then None else ParseInt(claims.sub.value)
  }

  /** `get_current_user`: every failure (bad signature, malformed or expired
      token, no `sub`, a `sub` that is not an integer, no such user) is the
      same 401. */
  function GetCurrentUser(users: seq<User>, codec: TokenCodec, token: string, now: int): (r: Result<User, ApiError>)
    ensures r.Err? ==> r.error == UnauthorizedError(InvalidToken)
    ensures codec.decode(token, now).Err? ==> r.Err?
    ensures codec.decode(token, now).Ok? && codec.decode(token, now).value.sub.None? ==> r.Err?
    ensures r.Ok? <==>
      TokenSubject(codec, token, now).Some? && UserRepository.GetById(users, TokenSubject(codec, token, now).value).Some?
    ensures r.Ok? ==> r.value in users && Some(r.value.id) == TokenSubject(codec, token, now)
  {
    match TokenSubject(codec, token, now)
    case None => Err(UnauthorizedError(InvalidToken))
    case Some(id) =>
      match UserRepository.GetById(users, id)
      case None => Err(UnauthorizedError(InvalidToken))
      case Some(u) => Ok(u)
  }

  /** `get_current_active_user`: an inactive user is refused with 400. */
  function GetCurrentActiveUser(users: seq<User>, codec: TokenCodec, token: string, now: int): (r: Result<User, ApiError>)
    ensures GetCurrentUser(users, codec, token, now).Err? ==> r == GetCurrentUser(users, codec, token, now)
    ensures GetCurrentUser(users, codec, token, now).Ok? && !GetCurrentUser(users, codec, token, now).value.isActive
      ==> r == Err(BadRequestError(InactiveUser))
    ensures r.Ok? ==> r == GetCurrentUser(users, codec, token, now) && r.value.isActive
    ensures GetCurrentUser(users, codec, token, now).Ok? && GetCurrentUser(users, codec, token, now).value.isActive
      ==> r == GetCurrentUser(users, codec, token, now)
  {
    match GetCurrentUser(users, codec, token, now)
    case Err(e) => Err(e)
    case Ok(u) => if u.isActive then Ok(u) else Err(BadRequestError(InactiveUser))
  }

  /** A token issued for a stored user resolves to that user until it
      expires. */
  lemma IssuedTokenResolves(users: seq<User>, codec: TokenCodec, u: User, delta: Option<int>, issued: int, now: int)
    requires SoundCodec(codec) && UniqueUserIds(users) && u in users
    requires now <= Expiry(issued, delta)
    ensures GetCurrentUser(users, codec, CreateAccessToken(codec, u.id, delta, issued), now) == Ok(u)
  {
    TokenRoundTrip(codec, u.id, delta, issued, now);
    var found := UserRepository.GetById(users, u.id);
    assert found.Some?;
  }

  /** After expiry the same token is refused with 401. */
  lemma ExpiredTokenRefused(users: seq<User>, codec: TokenCodec, subject: int, delta: Option<int>, issued: int, now: int)
    requires SoundCodec(codec)
    requires now > Expiry(issued, delta)
    ensures GetCurrentUser(users, codec, CreateAccessToken(codec, subject, delta, issued), now)
         == Err(UnauthorizedError(InvalidToken))
  {
    TokenRoundTrip(codec, subject, delta, issued, now);
  }

  /** A token created with a negative lifetime is refused from the moment it
      is issued. */
  lemma NegativeLifetimeRefused(users: seq<User>, codec: TokenCodec, subject: int, delta: int, issued: int, now: int)
    requires SoundCodec(codec)
    requires delta < 0 && now >= issued
    ensures GetCurrentUser(users, codec, CreateAccessToken(codec, subject, Some(delta), issued), now).Err?
  {
    ExpiredTokenRefused(users, codec, subject, Some(delta), issued, now);
  }
}

=== FILE: errors.dfy ===
/** The errors the backend reports. A FastAPI `HTTPException` becomes an
    `ApiError` carrying its status and its `detail` text; a request that fails
    FastAPI's own parameter or body validation is `Unprocessable`; a Python
    exception that nothing catches (a `ValueError` from an enum or date
    constructor, a pydantic `ValidationError` raised inside a handler, a
    database `IntegrityError`) is answered by the server with `ServerError`. */
module Errors {

  datatype Status =
    | BadRequest      // 400
    | Unauthorized    // 401
    | Forbidden       // 403
    | NotFound        // 404
    | Unprocessable   // 422
    | ServerError     // 500

  datatype ApiError = ApiError(status: Status, detail: string)

  // Detail texts of the HTTPExceptions raised by the handlers.
  const CategoryNotFound := "Category not found"
  const CategoryNotOwned := "Category does not belong to this user"
  const CategoryExists := "Category with this name and type already exists"
  const SystemCategoryImmutable := "System categories cannot be modified"
  const SystemCategoryUndeletable := "System categories cannot be deleted"
  const TransactionNotFound := "Transaction not found"
  const TransactionNotOwned := "Transaction does not belong to this user"
  const EmailRegistered := "Email already registered"
  const BadCredentials := "Incorrect email or password"
  const InactiveUser := "Inactive user"
  const InvalidToken := "Could not validate credentials"
  const SuperuserFlagDenied := "Not authorized to modify superuser status"
  const ActiveFlagDenied := "Not authorized to modify active status"
  const UserNotFound := "User not found"
  const OtherUsersDenied := "Not authorized to access other users"

  // Names of the uncaught exceptions behind a ServerError.
  const ValueErrorName := "ValueError"
  const ValidationErrorName := "ValidationError"
  const IntegrityErrorName := "IntegrityError"
  const DataErrorName := "DataError"
  const TypeErrorName := "TypeError"

  function NotFoundError(detail: string): ApiError { ApiError(NotFound, detail) }
  function ForbiddenError(detail: string): ApiError { ApiError(Forbidden, detail) }
  function BadRequestError(detail: string): ApiError { ApiError(BadRequest, detail) }
  function UnauthorizedError(detail: string): ApiError { ApiError(Unauthorized, detail) }
  function Crash(exception: string): ApiError { ApiError(ServerError, exception) }
  function Invalid(field: string): ApiError { ApiError(Unprocessable, field) }
}

=== FILE: iso_format.dfy ===
/** The text forms of dates in query strings and responses:
    `datetime.fromisoformat` for the two shapes the endpoints document
    ("YYYY-MM-DD" and "YYYY-MM-DDTHH:MM:SS"), `date.isoformat()`, and the
    "parse it if it is truthy" idiom the endpoints use for optional
    parameters. */
module IsoFormat {
  import opened Wrappers
  import opened Errors
  import opened Calendar
  import opened Numerals
  import opened Models

  /** `date.isoformat()`: "YYYY-MM-DD". */
  function FormatDate(d: Date): (s: string)
    requires ValidDate(d)
    ensures |s| == 10 && s[4] == '-' && s[7] == '-'
  {
    Padded(d.year, 4) + "-" + Padded(d.month, 2) + "-" + Padded(d.day, 2)
  }

  /** Hours, minutes and seconds of a second of the day. */
  datatype Clock = Clock(hour: nat, minute: nat, second: nat)

  function ClockOf(second: int): (c: Clock)
    requires 0 <= second < SecondsPerDay
    ensures c.hour < 24 && c.minute < 60 && c.second < 60
    ensures c.hour * 3600 + c.minute * 60 + c.second == second
  {
    var r := second % 3600;
    assert second == second / 3600 * 3600 + r;
    assert r == r / 60 * 60 + r % 60;
    Clock(second / 3600, r / 60, r % 60)
  }

  /** "HH:MM:SS" of a second of the day. */
  function FormatTime(second: int): (s: string)
    requires 0 <= second < SecondsPerDay
    ensures |s| == 8 && s[2] == ':' && s[5] == ':'
  {
    var c := ClockOf(second);
    Padded(c.hour, 2) + ":" + Padded(c.minute, 2) + ":" + Padded(c.second, 2)
  }

  /** `datetime.isoformat()` of a whole-second, zone-less value. */
  function FormatDateTime(t: DateTime): (s: string)
    requires ValidDateTime(t)
    ensures |s| == 19
  {
    FormatDate(t.date) + "T" + FormatTime(t.second)
  }

  /** "YYYY-MM-DD" of a real date, else nothing. */
  function ParseDate(s: string): (r: Option<Date>)
    ensures r.Some? ==> ValidDate(r.value)
  {
    if |s| != 10 || s[4] != '-' || s[7] != '-' then None
    else
      var y := ParseDigits(s[..4]);
      var m := ParseDigits(s[5..7]);
      var d := ParseDigits(s[8..]);
      if y.None? || m.None? || d.None? then None
      else
        var date := Date(y.value, m.value, d.value);
        if ValidDate(date) then Some(date) else None
  }

  /** "HH:MM:SS" with hour < 24, minute < 60, second < 60, as the second of
      the day. */
  function ParseTime(s: string): (r: Option<int>)
    ensures r.Some? ==> 0 <= r.value < SecondsPerDay
  {
    if |s| != 8 || s[2] != ':' || s[5] != ':' then None
    else
      var h := ParseDigits(s[..2]);
      var m := ParseDigits(s[3..5]);
      var sec := ParseDigits(s[6..]);
      if h.None? || m.None? || sec.None? then None
      else if h.value >= 24 || m.value >= 60 || sec.value >= 60 then None
      else Some(h.value * 3600 + m.value * 60 + sec.value)
  }

  /** `datetime.fromisoformat(s)`: a date alone means its midnight; a date
      and a time are separated by 'T' or a space. Anything else raises
      ValueError, which nothing catches (500). */
  function FromIsoFormat(s: string): (r: Result<DateTime, ApiError>)
    ensures r.Ok? ==> ValidDateTime(r.value)
    ensures r.Err? ==> r.error == Crash(ValueErrorName)
    ensures |s| == 10 && r.Ok? ==> r.value.second == 0
  {
    if |s| == 10 then
      match ParseDate(s)
      case None => Err(Crash(ValueErrorName))
      case Some(d) => Ok(Midnight(d))
    else if |s| == 19 && (s[10] == 'T' || s[10] == ' ') then
      var d := ParseDate(s[..10]);
      var t := ParseTime(s[11..]);
      if d.None? || t.None? then Err(Crash(ValueErrorName))
      else Ok(DateTime(d.value, t.value))
    else Err(Crash(ValueErrorName))
  }

  lemma ParseFormatDate(d: Date)
    requires ValidDate(d)
    ensures ParseDate(FormatDate(d)) == Some(d)
  {
    var s := FormatDate(d);
    assert s[..4] == Padded(d.year, 4);
    assert s[5..7] == Padded(d.month, 2);
    assert s[8..] == Padded(d.day, 2);
    PaddedRoundTrip(d.year, 4);
    PaddedRoundTrip(d.month, 2);
    PaddedRoundTrip(d.day, 2);
  }

  lemma ParseFormatTime(second: int)
    requires 0 <= second < SecondsPerDay
    ensures ParseTime(FormatTime(second)) == Some(second)
  {
    var c := ClockOf(second);
    var a, b, d := Padded(c.hour, 2), Padded(c.minute, 2), Padded(c.second, 2);
    assert FormatTime(second) == a + ":" + b + ":" + d;
    PaddedRoundTrip(c.hour, 2);
    PaddedRoundTrip(c.minute, 2);
    PaddedRoundTrip(c.second, 2);
    ParseTimeOfFields(a, b, d, c, second);
  }

  lemma ParseTimeOfFields(a: string, b: string, d: string, c: Clock, second: int)
    requires |a| == 2 && |b| == 2 && |d| == 2
    requires ParseDigits(a) == Some(c.hour) && ParseDigits(b) == Some(c.minute) && ParseDigits(d) == Some(c.second)
    requires c.hour < 24 && c.minute < 60 && c.second < 60
    requires c.hour * 3600 + c.minute * 60 + c.second == second
    ensures ParseTime(a + ":" + b + ":" + d) == Some(second)
  {
    ThreeFields(a, b, d, ':');
  }

  /** The fields of "aa:bb:cc" slice back out. */
  lemma ThreeFields(a: string, b: string, c: string, sep: char)
    requires |a| == 2 && |b| == 2 && |c| == 2
    ensures var s := a + [sep] + b + [sep] + c;
      |s| == 8 && s[..2] == a && s[2] == sep && s[3..5] == b && s[5] == sep && s[6..] == c
  {
  }

  /** A date written by `isoformat` reads back as its midnight. */
  lemma DateRoundTrip(d: Date)
    requires ValidDate(d)
    ensures FromIsoFormat(FormatDate(d)) == Ok(Midnight(d))
  {
    ParseFormatDate(d);
  }

  /** A date-time written by `isoformat` reads back unchanged. */
  lemma DateTimeRoundTrip(t: DateTime)
    requires ValidDateTime(t)
    ensures FromIsoFormat(FormatDateTime(t)) == Ok(t)
  {
    var s := FormatDateTime(t);
    assert s[..10] == FormatDate(t.date);
    assert s[11..] == FormatTime(t.second);
    ParseFormatDate(t.date);
    ParseFormatTime(t.second);
  }

  /** `datetime.fromisoformat(p) if p else None`: absent and empty both
      mean no bound. */
  function DateParam(p: Option<string>): (r: Result<Option<DateTime>, ApiError>)
    ensures p.None? || p == Some("") ==> r == Ok(None)
    ensures p.Some? && p.value != "" ==>
      match FromIsoFormat(p.value)
      case Ok(t) => r == Ok(Some(t))
      case Err(e) => r == Err(e)
  {
    if p.None? || p.value == "" then Ok(None)
    else
      match FromIsoFormat(p.value)
      case Err(e) => Err(e)
      case Ok(t) => Ok(Some(t))
  }

  /** `TransactionType(p) if p else None`: an unknown value raises
      ValueError (500). */
  function TypeParam(p: Option<string>): (r: Result<Option<TxType>, ApiError>)
    ensures p.None? || p == Some("") ==> r == Ok(None)
    ensures r.Ok? && r.value.Some? ==> p == Some(TypeName(r.value.value))
    ensures r.Err? <==> p.Some? && p.value != "" && ParseType(p.value).None?
    ensures r.Err? ==> r.error == Crash(ValueErrorName)
  {
    if p.None? || p.value == "" then Ok(None)
    else
      match ParseType(p.value)
      case None => Err(Crash(ValueErrorName))
      case Some(k) => Ok(Some(k))
  }

  /** Every type's own name is accepted and read back. */
  lemma TypeParamRoundTrip(k: TxType)
    ensures TypeParam(Some(TypeName(k))) == Ok(Some(k))
  {
    ParseTypeName(k);
  }
}

=== FILE: ledger.dfy ===
/** The SQL `WHERE` / `SUM` / `COUNT` queries over the `transactions` table,
    as a filter (`Select`) and folds over its result. Every aggregate query
    of the backend is `Aggregate(s, w)` for some `Where` clause `w`. */
module Ledger {
  import opened Wrappers
  import opened Calendar
  import opened Models

  /** A conjunction of the conditions the backend's queries put on a
      transaction row; `None` leaves a condition out. */
  datatype Where = Where(
    userId: int,                   // user_id = ...
    kind: Option<TxType>,          // type = ...
    categoryIs: Option<int>,       // category_id = ...
    categoryIn: Option<set<int>>,  // category_id IN (...)
    from: Option<DateTime>,        // transaction_date >= ...
    until: Option<DateTime>,       // transaction_date <= ...
    onDate: Option<Date>,          // cast(transaction_date, Date) = ...
    inMonth: Option<(int, int)>)   // extract(year) = ... AND extract(month) = ...

  /** `WHERE user_id = uid` and nothing else. */
  function OwnedBy(uid: int): Where {
    Where(uid, None, None, None, None, None, None, None)
  }

  function WithKind(w: Where, k: TxType): Where { w.(kind := Some(k)) }

  predicate Matches(w: Where, t: Transaction) {
    && t.userId == w.userId
    && (w.kind.Some? ==> t.kind == w.kind.value)
    && (w.categoryIs.Some? ==> t.categoryId == Some(w.categoryIs.value))
    && (w.categoryIn.Some? ==> t.categoryId.Some? && t.categoryId.value in w.categoryIn.value)
    && (w.from.Some? ==> NotAfter(w.from.value, t.date))
    && (w.until.Some? ==> NotAfter(t.date, w.until.value))
    && (w.onDate.Some? ==> DateOf(t.date) == w.onDate.value)
    && (w.inMonth.Some? ==> YearOf(t.date) == w.inMonth.value.0 && MonthOf(t.date) == w.inMonth.value.1)
  }

  /** The rows satisfying `w`, in table order. */
  function Select(s: seq<Transaction>, w: Where): (r: seq<Transaction>)
    ensures |r| <= |s|
    ensures forall i | 0 <= i < |r| :: Matches(w, r[i]) && r[i] in s
    ensures forall t | t in s && Matches(w, t) :: t in r
  {
    if |s| == 0 then []
    else if Matches(w, s[0]) then [s[0]] + Select(s[1..], w)
    else Select(s[1..], w)
  }

  function SumAmounts(s: seq<Transaction>): int {
    if |s| == 0 then 0 else s[0].amount + SumAmounts(s[1..])
  }

  /** Income counts up, expense counts down. */
  function Net(s: seq<Transaction>): int {
    if |s| == 0 then 0
    else (if s[0].kind == Income then s[0].amount else -s[0].amount) + Net(s[1..])
  }

  /** What the CHECK constraint `amount > 0` guarantees of the table. */
  predicate PositiveAmounts(s: seq<Transaction>) {
    forall i | 0 <= i < |s| :: s[i].amount > 0
  }

  /** `SELECT coalesce(sum(amount), 0), count(id) ... WHERE w`. */
  datatype Aggregate = Aggregate(total: int, count: nat)

  function Aggregated(s: seq<Transaction>, w: Where): Aggregate {
    var rows := Select(s, w);
    Aggregate(SumAmounts(rows), |rows|)
  }

  lemma {:induction false} SumAmountsNonNegative(s: seq<Transaction>)
    requires PositiveAmounts(s)
    ensures SumAmounts(s) >= 0
    ensures |s| > 0 ==> SumAmounts(s) > 0
  {
    if |s| > 0 {
      SumAmountsNonNegative(s[1..]);
    }
  }

  /** With no matching row, SUM coalesces to 0 and COUNT is 0. */
  lemma {:induction false} NoMatchAggregatesToZero(s: seq<Transaction>, w: Where)
    requires forall i | 0 <= i < |s| :: !Matches(w, s[i])
    ensures Aggregated(s, w) == Aggregate(0, 0)
  {
    if |s| > 0 {
      NoMatchAggregatesToZero(s[1..], w);
    }
  }

  lemma {:induction false} SelectAppend(a: seq<Transaction>, b: seq<Transaction>, w: Where)
    ensures Select(a + b, w) == Select(a, w) + Select(b, w)
  {
    if |a| == 0 {
      assert a + b == b;
    } else {
      assert (a + b)[1..] == a[1..] + b;
      SelectAppend(a[1..], b, w);
    }
  }

  /** Splitting a query without a type condition by type: the INCOME rows
      and the EXPENSE rows together are exactly its rows, so counts add,
      sums add, and income minus expenses is the signed total. */
  lemma SplitByKind(s: seq<Transaction>, w: Where)
    requires w.kind.None?
    ensures |Select(s, WithKind(w, Income))| + |Select(s, WithKind(w, Expense))| == |Select(s, w)|
    ensures SumAmounts(Select(s, WithKind(w, Income))) + SumAmounts(Select(s, WithKind(w, Expense)))
         == SumAmounts(Select(s, w))
    ensures SumAmounts(Select(s, WithKind(w, Income))) - SumAmounts(Select(s, WithKind(w, Expense)))
         == Net(Select(s, w))
  {
    CountsSplitByKind(s, w);
    SumsSplitByKind(s, w);
    NetSplitsByKind(s, w);
  }

  lemma {:induction false} CountsSplitByKind(s: seq<Transaction>, w: Where)
    requires w.kind.None?
    ensures |Select(s, WithKind(w, Income))| + |Select(s, WithKind(w, Expense))| == |Select(s, w)|
  {
    if |s| > 0 {
      CountsSplitByKind(s[1..], w);
    }
  }

  lemma {:induction false} SumsSplitByKind(s: seq<Transaction>, w: Where)
    requires w.kind.None?
    ensures SumAmounts(Select(s, WithKind(w, Income))) + SumAmounts(Select(s, WithKind(w, Expense)))
         == SumAmounts(Select(s, w))
  {
    if |s| > 0 {
      SumsSplitByKind(s[1..], w);
    }
  }

  lemma {:induction false} NetSplitsByKind(s: seq<Transaction>, w: Where)
    requires w.kind.None?
    ensures SumAmounts(Select(s, WithKind(w, Income))) - SumAmounts(Select(s, WithKind(w, Expense)))
         == Net(Select(s, w))
  {
    if |s| > 0 {
      NetSplitsByKind(s[1..], w);
    }
  }

  /** A stricter clause selects fewer rows and, amounts being positive, a
      smaller total. */
  lemma {:induction false} NarrowerSelectsLess(s: seq<Transaction>, narrow: Where, wide: Where)
    requires PositiveAmounts(s)
    requires forall i | 0 <= i < |s| :: Matches(narrow, s[i]) ==> Matches(wide, s[i])
    ensures |Select(s, narrow)| <= |Select(s, wide)|
    ensures SumAmounts(Select(s, narrow)) <= SumAmounts(Select(s, wide))
  {
    if |s| > 0 {
      NarrowerSelectsLess(s[1..], narrow, wide);
      if Matches(wide, s[0]) && !Matches(narrow, s[0]) {
        assert Select(s, wide) == [s[0]] + Select(s[1..], wide);
      }
    }
  }
}

=== FILE: models.dfy ===
/** The stored records: transactions, categories and users, with the column
    constraints the database enforces. Money is held in integer cents. */
module Models {
  import opened Wrappers
  import opened Calendar

  /** `TransactionType` and `CategoryType` are two Python enums with the same
      two string values; they compare equal as strings, so one type serves both. */
  datatype TxType = Income | Expense

  function TypeName(k: TxType): string {
    match k
    case Income => "income"
    case Expense => "expense"
  }

  /** `TransactionType(s)`: the enum member whose value is `s`, if any. */
  function ParseType(s: string): (r: Option<TxType>)
    ensures r.Some? <==> s == "income" || s == "expense"
    ensures r.Some? ==> TypeName(r.value) == s
  {
    if s == "income" then Some(Income)
    else if s == "expense" then Some(Expense)
    else None
  }

  lemma ParseTypeName(k: TxType)
    ensures ParseType(TypeName(k)) == Some(k)
  {
  }

  /** Numeric(10, 2): at most 8 integer digits, so below 10^10 cents. */
  const AmountLimitCents := 10_000_000_000
  const MaxDescriptionLength := 500
  const MaxCategoryNameLength := 100
  const MaxColorLength := 7
  const MaxIconLength := 50
  const DefaultColor := "#6B7280"

  /** The first seeded system category, 'Combustível' (fuel), gets id 1. */
  const FuelCategoryId := 1

  datatype Transaction = Transaction(
    id: int,
    userId: int,
    categoryId: Option<int>,
    kind: TxType,
    amount: int,                 // cents
    description: Option<string>,
    date: DateTime)

  datatype Category = Category(
    id: int,
    userId: Option<int>,         // None: a shared system row
    name: string,
    kind: TxType,
    color: string,
    icon: Option<string>,
    isSystem: bool)

  datatype User = User(
    id: int,
    email: string,
    hashedPassword: string,
    fullName: Option<string>,
    isActive: bool,
    isSuperuser: bool)

  function OptLength(s: Option<string>): nat {
    match s
    case None => 0
    case Some(v) => |v|
  }

  /** The CHECK constraint `amount > 0` and the Numeric(10, 2) range. */
  predicate AmountFits(cents: int) {
    0 < cents < AmountLimitCents
  }

  /** Column constraints of one `transactions` row. */
  predicate TransactionRowOk(t: Transaction) {
    && AmountFits(t.amount)
    && OptLength(t.description) <= MaxDescriptionLength
  }

  /** Column constraints of one `categories` row. */
  predicate CategoryRowOk(c: Category) {
    && |c.name| <= MaxCategoryNameLength
    && |c.color| <= MaxColorLength
    && OptLength(c.icon) <= MaxIconLength
  }

  /** The unique key (user_id, name, type). NULLs are distinct in the
      database, so system rows (user_id NULL) are not constrained by it. */
  predicate CategoryKeysUnique(cats: seq<Category>) {
    forall i, j | 0 <= i < j < |cats| ::
      !(cats[i].userId.Some? && cats[i].userId == cats[j].userId
        && cats[i].name == cats[j].name && cats[i].kind == cats[j].kind)
  }

  function TransactionIds(s: seq<Transaction>): set<int> { set t | t in s :: t.id }
  function CategoryIds(s: seq<Category>): set<int> { set c | c in s :: c.id }
  function UserIds(s: seq<User>): set<int> { set u | u in s :: u.id }

  predicate UniqueUserIds(s: seq<User>) {
    forall i, j | 0 <= i < j < |s| :: s[i].id != s[j].id
  }

  predicate EmailsUnique(s: seq<User>) {
    forall i, j | 0 <= i < j < |s| :: s[i].email != s[j].email
  }
}

=== FILE: numerals.dfy ===
/** Decimal numerals: digit characters, `str(n)` and the digit-string
    parser under `int(s)`, and the fixed-width zero-padded numerals of ISO
    dates. */
module Numerals {
  import opened Wrappers

  function Pow10(n: nat): (p: nat)
    ensures p >= 1
  {
    if n == 0 then 1 else 10 * Pow10(n - 1)
  }

  function DigitChar(d: int): char
    requires 0 <= d <= 9
  {
    "0123456789"[d]
  }

  function DigitValue(c: char): (r: Option<int>)
    ensures r.Some? ==> 0 <= r.value <= 9
  {
    if '0' <= c <= '9' then Some(c as int - '0' as int) else None
  }

  lemma DigitRoundTrip(d: int)
    requires 0 <= d <= 9
    ensures DigitValue(DigitChar(d)) == Some(d)
  {
  }

  function NatToString(n: nat): (s: string)
    ensures |s| >= 1
    decreases n
  {
    if n < 10 then [DigitChar(n)] else NatToString(n / 10) + [DigitChar(n % 10)]
  }

  function ParseDigits(s: string): (r: Option<nat>)
    requires |s| >= 1
    decreases |s|
  {
    var last := DigitValue(s[|s| - 1]);
    if last.None? then None
    else if |s| == 1 then Some(last.value)
    else
      var init := ParseDigits(s[..|s| - 1]);
      if init.None? then None else Some(init.value * 10 + last.value)
  }

  lemma {:induction false} ParseNatToString(n: nat)
    ensures ParseDigits(NatToString(n)) == Some(n)
    decreases n
  {
    if n < 10 {
      DigitRoundTrip(n);
      assert NatToString(n) == [DigitChar(n)];
    } else {
      var q, d := n / 10, n % 10;
      ParseNatToString(q);
      var init := NatToString(q);
      assert n == 10 * q + d by { LastDigit(n); }
      assert ParseDigits(init + [DigitChar(d)]) == Some(10 * q + d) by { AppendDigit(init, q, d); }
      assert NatToString(n) == init + [DigitChar(d)];
    }
  }

  lemma {:induction false} NatStringStartsWithDigit(n: nat)
    ensures '0' <= NatToString(n)[0] <= '9'
    decreases n
  {
    if n >= 10 {
      NatStringStartsWithDigit(n / 10);
      assert NatToString(n)[0] == NatToString(n / 10)[0];
    }
  }

  /** `n` written with exactly `width` digits, zero-padded on the left
      (the `%04d` / `%02d` fields of an ISO date). */
  function Padded(n: nat, width: nat): (s: string)
    requires n < Pow10(width)
    ensures |s| == width
    ensures forall i | 0 <= i < |s| :: '0' <= s[i] <= '9'
  {
    if width == 0 then [] else Padded(n / 10, width - 1) + [DigitChar(n % 10)]
  }

  /** Padding does not change the value read back. */
  lemma {:induction false} PaddedRoundTrip(n: nat, width: nat)
    requires 1 <= width && n < Pow10(width)
    ensures ParseDigits(Padded(n, width)) == Some(n)
  {
    if width == 1 {
      assert Pow10(1) == 10;
      SingleDigit(n);
    } else {
      DivideBound(n, width - 1);
      PaddedRoundTrip(n / 10, width - 1);
      PaddedStep(n, width);
    }
  }

  /** The last digit of a padded numeral, appended to the numeral of the
      others. */
  lemma PaddedStep(n: nat, width: nat)
    requires 2 <= width && n < Pow10(width) && n / 10 < Pow10(width - 1)
    requires ParseDigits(Padded(n / 10, width - 1)) == Some(n / 10)
    ensures ParseDigits(Padded(n, width)) == Some(n)
  {
    var q, d := n / 10, n % 10;
    var init := Padded(q, width - 1);
    assert n == 10 * q + d by { LastDigit(n); }
    assert ParseDigits(init + [DigitChar(d)]) == Some(10 * q + d) by { AppendDigit(init, q, d); }
    assert Padded(n, width) == init + [DigitChar(d)];
  }

  lemma SingleDigit(n: nat)
    requires n < 10
    ensures ParseDigits(Padded(n, 1)) == Some(n)
  {
    assert n / 10 == 0 && n % 10 == n;
    assert Padded(n, 1) == [DigitChar(n)];
    DigitRoundTrip(n);
  }

  /** Appending digit `d` to a numeral of `q` reads as `10 * q + d`. */
  lemma AppendDigit(s: string, q: nat, d: int)
    requires |s| >= 1 && 0 <= d <= 9 && ParseDigits(s) == Some(q)
    ensures ParseDigits(s + [DigitChar(d)]) == Some(10 * q + d)
  {
    DigitRoundTrip(d);
    ParseDigitsSnoc(s, DigitChar(d));
  }

  lemma LastDigit(n: nat)
    ensures 10 * (n / 10) + n % 10 == n
  {
  }

  lemma DivideBound(n: nat, k: nat)
    requires n < 10 * Pow10(k)
    ensures n / 10 < Pow10(k)
  {
  }

  /** Appending a digit shifts the value one place. */
  lemma ParseDigitsSnoc(s: string, c: char)
    requires |s| >= 1 && ParseDigits(s).Some? && DigitValue(c).Some?
    ensures ParseDigits(s + [c]) == Some(ParseDigits(s).value * 10 + DigitValue(c).value)
  {
    assert (s + [c])[..|s + [c]| - 1] == s;
  }

  /** A string of digits parses to a value below 10^|s|. */
  lemma {:induction false} ParseDigitsBound(s: string)
    requires |s| >= 1 && ParseDigits(s).Some?
    ensures ParseDigits(s).value < Pow10(|s|)
    decreases |s|
  {
    if |s| > 1 {
      ParseDigitsBound(s[..|s| - 1]);
    }
  }
}

=== FILE: schemas.dfy ===
/** The pydantic request schemas and their field constraints. A body that
    breaks a constraint is answered with 422 before the handler runs; the
    error names the first offending field. */
module Schemas {
  import opened Wrappers
  import opened Errors
  import opened Calendar
  import opened Models
  import opened Numerals

  /** One field of a partial-update body, as `model_dump(exclude_unset=True)`
      sees it: left out, sent as an explicit `null`, or sent with a value. */
  datatype Field<+T> = Unset | Null | Value(v: T)

  // ---------------------------------------------------------------- amounts

  /** A decimal number `digits * 10^-exponent`, as JSON delivers it. */
  datatype Decimal = Decimal(digits: int, exponent: nat)

  /** Decimal places after trailing zeros are stripped (`Decimal.normalize`). */
  function Places(digits: int, exponent: nat): (n: nat)
    ensures n <= exponent
    decreases exponent
  {
    if exponent == 0 then 0
    else if digits % 10 == 0 then Places(digits / 10, exponent - 1)
    else exponent
  }

  /** The value in cents of a decimal with at most two places. */
  function ToCents(digits: int, exponent: nat): (c: int)
    requires Places(digits, exponent) <= 2
    ensures c * Pow10(exponent) == digits * 100
    decreases exponent
  {
    if exponent <= 2 then
      var c := digits * Pow10(2 - exponent);
      assert Pow10(2 - exponent) * Pow10(exponent) == 100 by {
        if exponent == 0 {} else if exponent == 1 {} else {}
      }
      assert c * Pow10(exponent) == digits * (Pow10(2 - exponent) * Pow10(exponent));
      c
    else
      assert digits % 10 == 0;
      var c := ToCents(digits / 10, exponent - 1);
      assert c * Pow10(exponent - 1) == (digits / 10) * 100;
      assert c * Pow10(exponent) == 10 * (c * Pow10(exponent - 1));
      c
  }

  /** `Field(gt=0, decimal_places=2)` on an amount; success yields the cents. */
  function ValidateAmount(d: Decimal): (r: Result<int, ApiError>)
    ensures r.Ok? <==> d.digits > 0 && Places(d.digits, d.exponent) <= 2
    ensures r.Ok? ==> r.value > 0 && r.value * Pow10(d.exponent) == d.digits * 100
  {
    if d.digits <= 0 || Places(d.digits, d.exponent) > 2 then Err(Invalid("amount"))
    else
      var c := ToCents(d.digits, d.exponent);
      assert c * Pow10(d.exponent) > 0;
      Ok(c)
  }

  /** The decimal `c / 100`, as the response serialises a stored amount. */
  function CentsAsDecimal(c: int): Decimal { Decimal(c, 2) }

  /** Every positive cent amount is accepted back exactly. */
  lemma AmountRoundTrip(c: int)
    requires c > 0
    ensures ValidateAmount(CentsAsDecimal(c)) == Ok(c)
  {
    var r := ValidateAmount(CentsAsDecimal(c));
    assert r.value * 100 == c * 100;
  }

  // ----------------------------------------------------------- transactions

  datatype TransactionCreateBody = TransactionCreateBody(
    kind: string, amount: Decimal, description: Option<string>,
    date: DateTime, categoryId: Option<int>)

  /** A validated `TransactionCreate`. */
  datatype TransactionCreate = TransactionCreate(
    kind: TxType, amount: int, description: Option<string>,
    date: DateTime, categoryId: Option<int>)

  predicate CreateFieldsOk(t: TransactionCreate) {
    && t.amount > 0
    && OptLength(t.description) <= MaxDescriptionLength
    && ValidDateTime(t.date)
  }

  function ValidateTransactionCreate(b: TransactionCreateBody): (r: Result<TransactionCreate, ApiError>)
    ensures r.Ok? <==>
      && ParseType(b.kind).Some?
      && ValidateAmount(b.amount).Ok?
      && OptLength(b.description) <= MaxDescriptionLength
      && ValidDateTime(b.date)
    ensures r.Ok? ==> CreateFieldsOk(r.value) && TypeName(r.value.kind) == b.kind
    ensures r.Ok? ==> r.value.amount * Pow10(b.amount.exponent) == b.amount.digits * 100
    ensures r.Ok? ==>
      r.value.description == b.description && r.value.date == b.date && r.value.categoryId == b.categoryId
  {
    match ParseType(b.kind)
    case None => Err(Invalid("type"))
    case Some(k) =>
      match ValidateAmount(b.amount)
      case Err(e) => Err(e)
      case Ok(cents) =>
        if OptLength(b.description) > MaxDescriptionLength then Err(Invalid("description"))
        else if !ValidDateTime(b.date) then Err(Invalid("transaction_date"))
        else Ok(TransactionCreate(k, cents, b.description, b.date, b.categoryId))
  }

  /** The body a client sends to create `t`. */
  function CreateBodyOf(t: TransactionCreate): TransactionCreateBody {
    TransactionCreateBody(TypeName(t.kind), CentsAsDecimal(t.amount), t.description, t.date, t.categoryId)
  }

  lemma CreateBodyRoundTrip(t: TransactionCreate)
    requires CreateFieldsOk(t)
    ensures ValidateTransactionCreate(CreateBodyOf(t)) == Ok(t)
  {
    ParseTypeName(t.kind);
    AmountRoundTrip(t.amount);
  }

  datatype TransactionUpdateBody = TransactionUpdateBody(
    kind: Field<string>, amount: Field<Decimal>, description: Field<string>,
    date: Field<DateTime>, categoryId: Field<int>)

  /** A validated `TransactionUpdate`; every field optional. */
  datatype TransactionUpdate = TransactionUpdate(
    kind: Field<TxType>, amount: Field<int>, description: Field<string>,
    date: Field<DateTime>, categoryId: Field<int>)

  function ValidateTransactionUpdate(b: TransactionUpdateBody): (r: Result<TransactionUpdate, ApiError>)
    ensures r.Ok? <==>
      && (b.kind.Value? ==> ParseType(b.kind.v).Some?)
      && (b.amount.Value? ==> ValidateAmount(b.amount.v).Ok?)
      && (b.description.Value? ==> |b.description.v| <= MaxDescriptionLength)
      && (b.date.Value? ==> ValidDateTime(b.date.v))
    ensures r.Ok? ==> r.value.amount.Value? ==> r.value.amount.v > 0
    ensures r.Ok? ==> (r.value.kind.Unset? <==> b.kind.Unset?) && (r.value.kind.Null? <==> b.kind.Null?)
    ensures r.Ok? ==> (r.value.amount.Unset? <==> b.amount.Unset?) && (r.value.amount.Null? <==> b.amount.Null?)
    ensures r.Ok? ==>
      r.value.description == b.description && r.value.date == b.date && r.value.categoryId == b.categoryId
  {
    var kind: Result<Field<TxType>, ApiError> :=
      match b.kind
      case Unset => Ok(Unset)
      case Null => Ok(Null)
      case Value(s) => if ParseType(s).Some? then Ok(Value(ParseType(s).value)) else Err(Invalid("type"));
    var amount: Result<Field<int>, ApiError> :=
      match b.amount
      case Unset => Ok(Unset)
      case Null => Ok(Null)
      case Value(d) => if ValidateAmount(d).Ok? then Ok(Value(ValidateAmount(d).value)) else Err(Invalid("amount"));
    if kind.Err? then Err(kind.error)
    else if amount.Err? then Err(amount.error)
    else if b.description.Value? && |b.description.v| > MaxDescriptionLength then Err(Invalid("description"))
    else if b.date.Value? && !ValidDateTime(b.date.v) then Err(Invalid("transaction_date"))
    else Ok(TransactionUpdate(kind.value, amount.value, b.description, b.date, b.categoryId))
  }

  const DefaultListLimit := 50
  const MaxListLimit := 100

  /** A validated `TransactionFilter`. */
  datatype TransactionFilter = TransactionFilter(
    kind: Option<TxType>, categoryId: Option<int>,
    start: Option<DateTime>, end: Option<DateTime>,
    skip: nat, limit: nat)

  /** `TransactionFilter(...)`: `skip >= 0` and `1 <= limit <= 100`. */
  function MakeFilter(kind: Option<TxType>, categoryId: Option<int>,
                      start: Option<DateTime>, end: Option<DateTime>,
                      skip: int, limit: int): (r: Result<TransactionFilter, ApiError>)
    ensures r.Ok? <==> skip >= 0 && 1 <= limit <= MaxListLimit
    ensures r.Ok? ==> r.value == TransactionFilter(kind, categoryId, start, end, skip, limit)
  {
    if skip < 0 then Err(Invalid("skip"))
    else if limit < 1 || limit > MaxListLimit then Err(Invalid("limit"))
    else Ok(TransactionFilter(kind, categoryId, start, end, skip, limit))
  }

  // ------------------------------------------------------------------ users

  const MinPasswordLength := 8

  /** `EmailStr`, reduced to its shape: one '@' with text on both sides. */
  predicate IsEmailAddress(s: string) {
    exists i | 0 < i < |s| - 1 :: s[i] == '@' && '@' !in s[..i] && '@' !in s[i + 1..]
  }

  function AsciiLower(c: char): char {
    if 'A' <= c <= 'Z' then (c as int + 32) as char else c
  }

  /** The address `EmailStr` hands on: the part before the '@' as sent, the
      domain lower-cased. */
  function NormalizeEmail(s: string): (r: string)
    ensures |r| == |s|
    ensures forall i | 0 <= i < |s| :: r[i] == (if '@' in s[..i] then AsciiLower(s[i]) else s[i])
  {
    if |s| == 0 then []
    else if s[0] == '@' then
      var rest := seq(|s| - 1, i requires 0 <= i < |s| - 1 => AsciiLower(s[i + 1]));
      assert forall i | 1 <= i < |s| :: '@' in s[..i] by {
        forall i | 1 <= i < |s| ensures '@' in s[..i] { assert s[..i][0] == '@'; }
      }
      "@" + rest
    else
      var tail := NormalizeEmail(s[1..]);
      assert forall i | 1 <= i < |s| :: ('@' in s[..i] <==> '@' in s[1..][..i - 1]) by {
        forall i | 1 <= i < |s| ensures '@' in s[..i] <==> '@' in s[1..][..i - 1] {
          assert s[..i] == [s[0]] + s[1..][..i - 1];
        }
      }
      [s[0]] + tail
  }

  /** Normalising twice is normalising once. */
  lemma NormalizeEmailIdempotent(s: string)
    ensures NormalizeEmail(NormalizeEmail(s)) == NormalizeEmail(s)
  {
    var r := NormalizeEmail(s);
    forall i | 0 <= i < |s| ensures ('@' in r[..i] <==> '@' in s[..i]) {
      forall j | 0 <= j < i ensures (r[j] == '@' <==> s[j] == '@') {}
      if '@' in s[..i] {
        var j :| 0 <= j < i && s[..i][j] == '@';
        assert r[..i][j] == '@';
      }
      if '@' in r[..i] {
        var j :| 0 <= j < i && r[..i][j] == '@';
        assert s[..i][j] == '@';
      }
    }
  }

  /** Normalising keeps an address an address. */
  lemma NormalizedIsAddress(s: string)
    requires IsEmailAddress(s)
    ensures IsEmailAddress(NormalizeEmail(s))
  {
    var r := NormalizeEmail(s);
    var i :| 0 < i < |s| - 1 && s[i] == '@' && '@' !in s[..i] && '@' !in s[i + 1..];
    assert r[i] == '@';
    forall j | 0 <= j < |s| && j != i ensures r[j] != '@' {
      if j < i { assert s[j] in s[..i]; } else { assert s[j] == s[i + 1..][j - i - 1]; }
    }
    assert '@' !in r[..i] by {
      forall j | 0 <= j < i ensures r[..i][j] != '@' {}
    }
    var domain := r[i + 1..];
    assert '@' !in domain by {
      forall j | 0 <= j < |domain| ensures domain[j] != '@' { assert domain[j] == r[i + 1 + j]; }
    }
  }

  /** The domain is lower-cased; the local part keeps its capitals. */
  lemma NormalizeEmailExample()
    ensures NormalizeEmail("Bob@Example.COM") == "Bob@example.com"
  {
    var s := "Bob@Example.COM";
    assert '@' !in s[..0] && '@' !in s[..1] && '@' !in s[..2] && '@' !in s[..3];
    assert forall i | 4 <= i < |s| :: '@' in s[..i] by {
      forall i | 4 <= i < |s| ensures '@' in s[..i] { assert s[..i][3] == '@'; }
    }
  }

  datatype UserCreate = UserCreate(email: string, password: string, fullName: Option<string>)

  /** `UserCreate`: the email must be an address, which is handed on
      normalised, and the password has at least 8 characters. */
  function ValidateUserCreate(u: UserCreate): (r: Result<UserCreate, ApiError>)
    ensures r.Ok? <==> IsEmailAddress(u.email) && |u.password| >= MinPasswordLength
    ensures r.Ok? ==> r.value == u.(email := NormalizeEmail(u.email)) && IsEmailAddress(r.value.email)
  {
    if !IsEmailAddress(u.email) then Err(Invalid("email"))
    else if |u.password| < MinPasswordLength then Err(Invalid("password"))
    else
      NormalizedIsAddress(u.email);
      Ok(u.(email := NormalizeEmail(u.email)))
  }

  datatype UserUpdate = UserUpdate(
    email: Field<string>, password: Field<string>, fullName: Field<string>,
    isActive: Field<bool>, isSuperuser: Field<bool>)

  function ValidateUserUpdate(u: UserUpdate): (r: Result<UserUpdate, ApiError>)
    ensures r.Ok? <==>
      && (u.email.Value? ==> IsEmailAddress(u.email.v))
      && (u.password.Value? ==> |u.password.v| >= MinPasswordLength)
    ensures r.Ok? ==> r.value == u.(email := if u.email.Value? then Value(NormalizeEmail(u.email.v)) else u.email)
  {
    if u.email.Value? && !IsEmailAddress(u.email.v) then Err(Invalid("email"))
    else if u.password.Value? && |u.password.v| < MinPasswordLength then Err(Invalid("password"))
    else Ok(u.(email := if u.email.Value? then Value(NormalizeEmail(u.email.v)) else u.email))
  }

  /** `UserResponse`: the public profile. It has no password field. */
  datatype UserResponse = UserResponse(
    id: int, email: string, fullName: Option<string>, isActive: bool, isSuperuser: bool)

  function ToResponse(u: User): (r: UserResponse)
    ensures r.id == u.id && r.email == u.email && r.fullName == u.fullName
    ensures r.isActive == u.isActive && r.isSuperuser == u.isSuperuser
  {
    UserResponse(u.id, u.email, u.fullName, u.isActive, u.isSuperuser)
  }

  /** The profile does not depend on the stored hash: nothing about the
      password can be read from it. */
  lemma ResponseHidesPassword(u: User, otherHash: string)
    ensures ToResponse(u) == ToResponse(u.(hashedPassword := otherHash))
  {
  }

  // ------------------------------------------------------------- categories

  const MinCategoryNameLength := 1

  predicate IsHexDigit(c: char) {
    ('0' <= c <= '9') || ('A' <= c <= 'F') || ('a' <= c <= 'f')
  }

  /** The pattern `^#[0-9A-Fa-f]{6}$`. */
  predicate IsHexColor(s: string) {
    |s| == 7 && s[0] == '#' && forall i | 1 <= i < 7 :: IsHexDigit(s[i])
  }

  lemma DefaultColorIsHex()
    ensures IsHexColor(DefaultColor) && |DefaultColor| == MaxColorLength
  {
  }

  predicate NameOk(s: string) { MinCategoryNameLength <= |s| <= MaxCategoryNameLength }

  datatype CategoryCreateBody = CategoryCreateBody(
    name: string, kind: string, color: Field<string>, icon: Field<string>)

  /** A validated `CategoryCreate`. */
  datatype CategoryCreate = CategoryCreate(
    name: string, kind: TxType, color: string, icon: Option<string>)

  function ValidateCategoryCreate(b: CategoryCreateBody): (r: Result<CategoryCreate, ApiError>)
    ensures r.Ok? <==>
      && NameOk(b.name)
      && ParseType(b.kind).Some?
      && (b.color.Value? ==> IsHexColor(b.color.v)) && !b.color.Null?
      && (b.icon.Value? ==> |b.icon.v| <= MaxIconLength)
    ensures r.Ok? ==> IsHexColor(r.value.color) && OptLength(r.value.icon) <= MaxIconLength
    ensures r.Ok? ==> r.value.name == b.name && TypeName(r.value.kind) == b.kind
    ensures r.Ok? && b.color.Unset? ==> r.value.color == DefaultColor
    ensures r.Ok? && b.icon.Value? ==> r.value.icon == Some(b.icon.v)
    ensures r.Ok? && !b.icon.Value? ==> r.value.icon == None
  {
    if !NameOk(b.name) then Err(Invalid("name"))
    else if ParseType(b.kind).None? then Err(Invalid("type"))
    else if b.color.Null? || (b.color.Value? && !IsHexColor(b.color.v)) then Err(Invalid("color"))
    else if b.icon.Value? && |b.icon.v| > MaxIconLength then Err(Invalid("icon"))
    else
      DefaultColorIsHex();
      var color := if b.color.Value? then b.color.v else DefaultColor;
      var icon := if b.icon.Value? then Some(b.icon.v) else None;
      Ok(CategoryCreate(b.name, ParseType(b.kind).value, color, icon))
  }

  datatype CategoryUpdateBody = CategoryUpdateBody(
    name: Field<string>, kind: Field<string>, color: Field<string>, icon: Field<string>)

  /** A validated `CategoryUpdate`; every field optional. */
  datatype CategoryUpdate = CategoryUpdate(
    name: Field<string>, kind: Field<TxType>, color: Field<string>, icon: Field<string>)

  function ValidateCategoryUpdate(b: CategoryUpdateBody): (r: Result<CategoryUpdate, ApiError>)
    ensures r.Ok? <==>
      && (b.name.Value? ==> NameOk(b.name.v))
      && (b.kind.Value? ==> ParseType(b.kind.v).Some?)
      && (b.color.Value? ==> IsHexColor(b.color.v))
      && (b.icon.Value? ==> |b.icon.v| <= MaxIconLength)
    ensures r.Ok? ==> r.value.name == b.name && r.value.color == b.color && r.value.icon == b.icon
    ensures r.Ok? ==> (r.value.kind.Unset? <==> b.kind.Unset?) && (r.value.kind.Null? <==> b.kind.Null?)
    ensures r.Ok? && r.value.kind.Value? ==> TypeName(r.value.kind.v) == b.kind.v
  {
    if b.name.Value? && !NameOk(b.name.v) then Err(Invalid("name"))
    else if b.kind.Value? && ParseType(b.kind.v).None? then Err(Invalid("type"))
    else if b.color.Value? && !IsHexColor(b.color.v) then Err(Invalid("color"))
    else if b.icon.Value? && |b.icon.v| > MaxIconLength then Err(Invalid("icon"))
    else
      var kind: Field<TxType> :=
        match b.kind
        case Unset => Unset
        case Null => Null
        case Value(s) => Value(ParseType(s).value);
      Ok(CategoryUpdate(b.name, kind, b.color, b.icon))
  }
}

=== FILE: security.dfy ===
/** Password hashing and access tokens. bcrypt and the JWT library are not
    modelled: a `Hasher` and a `TokenCodec` are whatever functions the
    caller supplies, and `SoundHasher` / `SoundCodec` state the only facts
    the backend relies on. Lemmas take them as preconditions. */
module Security {
  import opened Wrappers
  import opened Numerals

  /** `get_password_hash` and `verify_password`. */
  datatype Hasher = Hasher(hash: string -> string, verify: (string, string) -> bool)

  /** A password verifies against its own hash. */
  ghost predicate SoundHasher(h: Hasher) {
    forall p :: h.verify(p, h.hash(p))
  }

  /** The claim set of an access token: exactly `exp` and `sub`. */
  datatype Claims = Claims(exp: int, sub: Option<string>)

  datatype DecodeError = BadSignature | Malformed | Expired

  /** `jwt.encode` / `jwt.decode` with the server's key; times in seconds. */
  datatype TokenCodec = TokenCodec(encode: Claims -> string, decode: (string, int) -> Result<Claims, DecodeError>)

  /** A token issued by the server decodes to its claims while `now <= exp`
      and is rejected as expired afterwards. */
  ghost predicate SoundCodec(c: TokenCodec) {
    forall cl: Claims, now: int :: c.decode(c.encode(cl), now) == (if now <= cl.exp then Ok(cl) else Err(Expired))
  }

  const AccessTokenExpireMinutes := 60
  const SecondsPerMinute := 60

  // ------------------------------------------------- decimal integer text

  /** `str(n)` for a Python int. */
  function IntToString(n: int): string {
    if n < 0 then "-" + NatToString(-n) else NatToString(n)
  }

  /** `int(s)`, restricted: the model accepts only an optional sign followed
      by decimal digits (no surrounding whitespace, no `_` separators). */
  function ParseInt(s: string): (r: Option<int>)
    ensures s == [] ==> r.None?
    ensures r.Some? && s[0] != '-' ==> r.value >= 0
  {
    if |s| == 0 then None
    else if s[0] == '-' || s[0] == '+' then
      if |s| == 1 then None
      else
        var m := ParseDigits(s[1..]);
        if m.None? then None
        else
          var v: int := m.value;
          if s[0] == '-' then Some(-v) else Some(v)
    else
      var m := ParseDigits(s);
      if m.None? then None else Some(m.value)
  }

  /** `int(str(n)) == n`: a subject written by the server reads back. */
  lemma IntStringRoundTrip(n: int)
    ensures ParseInt(IntToString(n)) == Some(n)
  {
    if n < 0 {
      NegativeStringRoundTrip(n);
    } else {
      NatStringRoundTrip(n);
    }
  }

  lemma NegativeStringRoundTrip(n: int)
    requires n < 0
    ensures ParseInt(IntToString(n)) == Some(n)
  {
    ParseNatToString(-n);
    ParseSigned(NatToString(-n));
  }

  lemma NatStringRoundTrip(n: nat)
    ensures ParseInt(IntToString(n)) == Some(n)
  {
    NatStringStartsWithDigit(n);
    ParseNatToString(n);
    ParseUnsigned(NatToString(n));
  }

  /** A minus sign negates the digits after it. */
  lemma ParseSigned(t: string)
    requires |t| >= 1 && ParseDigits(t).Some?
    ensures ParseInt("-" + t) == Some(-(ParseDigits(t).value as int))
  {
    var u := "-" + t;
    assert |u| > 1 && u[0] == '-';
    assert u[1..] == t;
    var m := ParseDigits(u[1..]);
    assert m == ParseDigits(t);
  }

  /** Digits without a sign read as themselves. */
  lemma ParseUnsigned(t: string)
    requires |t| >= 1 && '0' <= t[0] <= '9' && ParseDigits(t).Some?
    ensures ParseInt(t) == Some(ParseDigits(t).value)
  {
  }

  // ------------------------------------------------------- access tokens

  /** The expiry of `create_access_token`: a zero (falsy) or absent delta
      means the configured lifetime. Deltas are in seconds. */
  function Expiry(now: int, expiresDelta: Option<int>): (exp: int)
    ensures expiresDelta.Some? && expiresDelta.value != 0 ==> exp == now + expiresDelta.value
    ensures expiresDelta.None? || expiresDelta.value == 0 ==>
      exp == now + AccessTokenExpireMinutes * SecondsPerMinute
  {
    if expiresDelta.Some? && expiresDelta.value != 0 then now + expiresDelta.value
    else now + AccessTokenExpireMinutes * SecondsPerMinute
  }

  /** The claims `{"exp": ..., "sub": str(subject)}`. */
  function AccessClaims(subject: int, expiresDelta: Option<int>, now: int): (c: Claims)
    ensures c.sub == Some(IntToString(subject))
    ensures c.exp == Expiry(now, expiresDelta)
  {
    Claims(Expiry(now, expiresDelta), Some(IntToString(subject)))
  }

  /** `create_access_token`: with a sound codec the token carries exactly
      the subject and expiry claims, valid up to and including its expiry
      second and expired one second later. */
  function CreateAccessToken(codec: TokenCodec, subject: int, expiresDelta: Option<int>, now: int): (t: string)
    ensures SoundCodec(codec) ==>
      codec.decode(t, Expiry(now, expiresDelta)) == Ok(Claims(Expiry(now, expiresDelta), Some(IntToString(subject))))
    ensures SoundCodec(codec) ==> codec.decode(t, Expiry(now, expiresDelta) + 1) == Err(Expired)
  {
    codec.encode(AccessClaims(subject, expiresDelta, now))
  }

  /** A fresh token decodes to a subject that parses back to the user id
      for as long as it has not expired, and is rejected once it has. */
  lemma TokenRoundTrip(codec: TokenCodec, subject: int, expiresDelta: Option<int>, issued: int, now: int)
    requires SoundCodec(codec)
    ensures var claims := codec.decode(CreateAccessToken(codec, subject, expiresDelta, issued), now);
      && (now <= Expiry(issued, expiresDelta) ==>
            claims.Ok? && claims.value.sub.Some? && ParseInt(claims.value.sub.value) == Some(subject))
      && (now > Expiry(issued, expiresDelta) ==> claims == Err(Expired))
  {
    IntStringRoundTrip(subject);
  }
}

=== FILE: seqs.dfy ===
/** Sequence operations that stand for SQL clauses: `Window` is
    `OFFSET skip LIMIT limit`, `SortDesc` is `ORDER BY key DESC` (a stable
    insertion sort; SQL leaves the order of ties unspecified, and any order
    of ties the model picks is one the database may return), and `SumBy`
    is `SUM(...)` over a projection. */
module Seqs {

  function Min(a: int, b: int): int { if a <= b then a else b }

  /** The elements satisfying `p`, in order (a `WHERE` over rows). */
  function Filter<T(!new)>(s: seq<T>, p: T -> bool): (r: seq<T>)
    ensures |r| <= |s|
    ensures forall i | 0 <= i < |r| :: p(r[i]) && r[i] in s
    ensures forall x | x in s && p(x) :: x in r
    ensures forall x :: multiset(r)[x] == if p(x) then multiset(s)[x] else 0
  {
    if |s| == 0 then []
    else
      assert s == [s[0]] + s[1..];
      if p(s[0]) then [s[0]] + Filter(s[1..], p)
      else Filter(s[1..], p)
  }

  /** `OFFSET skip LIMIT limit`: drop the first `skip` rows, keep at most `limit`. */
  function Window<T>(s: seq<T>, skip: nat, limit: nat): (r: seq<T>)
    ensures |r| == (if skip >= |s| then 0 else Min(limit, |s| - skip))
    ensures |r| <= limit
    ensures forall i | 0 <= i < |r| :: skip + i < |s| && r[i] == s[skip + i]
  {
    if skip >= |s| then [] else
    var rest := s[skip..];
    if limit >= |rest| then rest else rest[..limit]
  }

  /** A window of a descending sequence is descending. */
  lemma WindowDescending<T>(s: seq<T>, skip: nat, limit: nat, key: T -> int)
    requires Descending(s, key)
    ensures Descending(Window(s, skip, limit), key)
  {
    var r := Window(s, skip, limit);
    forall i, j | 0 <= i < j < |r|
      ensures key(r[j]) <= key(r[i])
    {
      assert r[i] == s[skip + i] && r[j] == s[skip + j];
    }
  }

  /** Two consecutive windows make up the window that spans both. */
  lemma WindowsConcatenate<T>(s: seq<T>, skip: nat, a: nat, b: nat)
    ensures Window(s, skip, a) + Window(s, skip + a, b) == Window(s, skip, a + b)
  {
    var x := Window(s, skip, a);
    var y := Window(s, skip + a, b);
    var z := Window(s, skip, a + b);
    assert |x + y| == |z|;
    forall i | 0 <= i < |z| ensures (x + y)[i] == z[i] {
      if i < |x| {
        assert (x + y)[i] == x[i];
      } else {
        assert (x + y)[i] == y[i - |x|];
      }
    }
  }

  predicate Descending<T>(s: seq<T>, key: T -> int) {
    forall i, j | 0 <= i < j < |s| :: key(s[j]) <= key(s[i])
  }

  /** Places `x` before the first element whose key is not larger. */
  function Insert<T>(x: T, s: seq<T>, key: T -> int): (r: seq<T>)
    requires Descending(s, key)
    ensures Descending(r, key)
    ensures multiset(r) == multiset(s) + multiset{x}
    ensures |r| == |s| + 1
    ensures key(r[0]) == (if |s| == 0 || key(s[0]) <= key(x) then key(x) else key(s[0]))
  {
    if |s| == 0 then [x]
    else if key(s[0]) <= key(x) then [x] + s
    else
      var tail := Insert(x, s[1..], key);
      assert s == [s[0]] + s[1..];
      assert key(tail[0]) <= key(s[0]);
      [s[0]] + tail
  }

  /** A stable sort by descending key. */
  function SortDesc<T>(s: seq<T>, key: T -> int): (r: seq<T>)
    ensures Descending(r, key)
    ensures multiset(r) == multiset(s)
    ensures |r| == |s|
  {
    if |s| == 0 then []
    else
      assert s == [s[0]] + s[1..];
      Insert(s[0], SortDesc(s[1..], key), key)
  }

  /** No two elements share a key. */
  predicate DistinctKeys<T>(s: seq<T>, key: T -> int) {
    forall i, j | 0 <= i < j < |s| :: key(s[i]) != key(s[j])
  }

  /** With distinct keys every element occurs exactly once. */
  lemma {:induction false} OccursOnce<T>(s: seq<T>, key: T -> int, a: int)
    requires DistinctKeys(s, key) && 0 <= a < |s|
    ensures multiset(s)[s[a]] == 1
  {
    var tail := s[1..];
    assert s == [s[0]] + tail;
    assert DistinctKeys(tail, key) by {
      forall i, j | 0 <= i < j < |tail| ensures key(tail[i]) != key(tail[j]) {
        assert tail[i] == s[i + 1] && tail[j] == s[j + 1];
      }
    }
    if a == 0 {
      assert s[0] !in tail by {
        forall j | 0 <= j < |tail| ensures tail[j] != s[0] {
          assert tail[j] == s[j + 1];
        }
      }
    } else {
      OccursOnce(tail, key, a - 1);
      assert tail[a - 1] == s[a];
      assert key(s[0]) != key(s[a]);
    }
  }

  /** Reordering keeps keys distinct. */
  lemma PermutationKeepsDistinctKeys<T>(s: seq<T>, r: seq<T>, key: T -> int)
    requires multiset(r) == multiset(s) && DistinctKeys(s, key)
    ensures DistinctKeys(r, key)
  {
    forall i, j | 0 <= i < j < |r| ensures key(r[i]) != key(r[j]) {
      if key(r[i]) == key(r[j]) {
        assert r[i] in multiset(s) && r[j] in multiset(s);
        var a :| 0 <= a < |s| && s[a] == r[i];
        var b :| 0 <= b < |s| && s[b] == r[j];
        assert a == b;
        var front, back := r[..j], r[j..];
        assert r == front + back;
        assert front[i] == r[i] && back[0] == r[i];
        assert multiset(r)[r[i]] >= 2 by {
          assert multiset(r)[r[i]] == multiset(front)[r[i]] + multiset(back)[r[i]];
        }
        OccursOnce(s, key, a);
        assert false;
      }
    }
  }

  function SumBy<T>(s: seq<T>, f: T -> int): int {
    if |s| == 0 then 0 else f(s[0]) + SumBy(s[1..], f)
  }

  lemma {:induction false} SumByInsert<T>(x: T, s: seq<T>, key: T -> int, f: T -> int)
    requires Descending(s, key)
    ensures SumBy(Insert(x, s, key), f) == f(x) + SumBy(s, f)
    decreases |s|
  {
    if |s| == 0 {
    } else if key(s[0]) <= key(x) {
      assert ([x] + s)[1..] == s;
    } else {
      SumByInsert(x, s[1..], key, f);
      var r := Insert(x, s, key);
      assert r[1..] == Insert(x, s[1..], key);
    }
  }

  /** Sorting does not change a sum. */
  lemma {:induction false} SumBySortDesc<T>(s: seq<T>, key: T -> int, f: T -> int)
    ensures SumBy(SortDesc(s, key), f) == SumBy(s, f)
  {
    if |s| > 0 {
      SumBySortDesc(s[1..], key, f);
      SumByInsert(s[0], SortDesc(s[1..], key), key, f);
    }
  }
}

=== FILE: store.dfy ===
/** The database as one immutable value, and what a commit checks. An
    operation that writes takes a `Db` and returns a `Response`: the database
    after the request, and either the result or the error. */
module Store {
  import opened Wrappers
  import opened Errors
  import opened Models

  datatype Db = Db(users: seq<User>, categories: seq<Category>, transactions: seq<Transaction>)

  datatype Response<T> = Response(db: Db, result: Result<T, ApiError>)

  /** An error response: the database is as it was. */
  function Refuse<T>(db: Db, e: ApiError): (r: Response<T>)
    ensures r.db == db && r.result == Err(e)
  {
    Response(db, Err(e))
  }

  predicate UniqueCategoryIds(s: seq<Category>) {
    forall i, j | 0 <= i < j < |s| :: s[i].id != s[j].id
  }

  predicate UniqueTransactionIds(s: seq<Transaction>) {
    forall i, j | 0 <= i < j < |s| :: s[i].id != s[j].id
  }

  /** The foreign key `transactions.category_id -> categories.id`. */
  predicate CategoryRefOk(categoryId: Option<int>, cats: seq<Category>) {
    categoryId.Some? ==> categoryId.value in CategoryIds(cats)
  }

  /** What a commit of the `transactions` table checks. */
  predicate TransactionsCommit(txs: seq<Transaction>, cats: seq<Category>) {
    forall i | 0 <= i < |txs| :: TransactionRowOk(txs[i]) && CategoryRefOk(txs[i].categoryId, cats)
  }

  /** What a commit of the `categories` table checks. */
  predicate CategoriesCommit(cats: seq<Category>) {
    && (forall i | 0 <= i < |cats| :: CategoryRowOk(cats[i]))
    && CategoryKeysUnique(cats)
  }

  /** The invariant every committed database state satisfies. */
  predicate WellFormed(db: Db) {
    && UniqueUserIds(db.users)
    && UniqueCategoryIds(db.categories)
    && UniqueTransactionIds(db.transactions)
    && CategoriesCommit(db.categories)
    && TransactionsCommit(db.transactions, db.categories)
  }
}

=== FILE: transaction_repository.dfy ===
/** The `transactions` table's queries: the filtered, newest-first, paged
    listing, the per-type totals and the balance, lookup by category, and
    insertion. */
module TransactionRepository {
  import opened Wrappers
  import opened Errors
  import opened Calendar
  import opened Models
  import opened Schemas
  import opened Ledger
  import opened Store
  import Seqs
  import BaseRepository

  function TxId(t: Transaction): int { t.id }

  /** The sort key of `ORDER BY transaction_date`. */
  function Instant(t: Transaction): int { Ordinal(t.date) }

  predicate NewestFirst(s: seq<Transaction>) {
    forall i, j | 0 <= i < j < |s| :: Instant(s[j]) <= Instant(s[i])
  }

  /** The WHERE clause of `get_user_transactions`: each filter applies only
      when its argument is truthy, so a category id of 0 filters nothing. */
  function ListWhere(uid: int, kind: Option<TxType>, categoryId: Option<int>,
                     start: Option<DateTime>, end: Option<DateTime>): Where
  {
    var category := if categoryId.Some? && categoryId.value != 0 then categoryId else None;
    Where(uid, kind, category, None, start, end, None, None)
  }

  /** What the clause admits: the user's rows, of the type when one is
      given, in the category when a non-zero one is given, and within the
      inclusive bounds. */
  lemma ListWhereMeans(uid: int, kind: Option<TxType>, categoryId: Option<int>,
                       start: Option<DateTime>, end: Option<DateTime>, t: Transaction)
    ensures Matches(ListWhere(uid, kind, categoryId, start, end), t) <==>
      && t.userId == uid
      && (kind.Some? ==> t.kind == kind.value)
      && (categoryId.Some? && categoryId.value != 0 ==> t.categoryId == categoryId)
      && (start.Some? ==> NotAfter(start.value, t.date))
      && (end.Some? ==> NotAfter(t.date, end.value))
  {
  }

  /** `get_user_transactions`. */
  function GetUserTransactions(txs: seq<Transaction>, uid: int, skip: nat, limit: nat,
                               kind: Option<TxType>, categoryId: Option<int>,
                               start: Option<DateTime>, end: Option<DateTime>): (r: seq<Transaction>)
    ensures |r| <= limit
    ensures NewestFirst(r)
    ensures forall i | 0 <= i < |r| :: r[i] in txs && Matches(ListWhere(uid, kind, categoryId, start, end), r[i])
    ensures var matching := Select(txs, ListWhere(uid, kind, categoryId, start, end));
      |r| == (if skip >= |matching| then 0 else Seqs.Min(limit, |matching| - skip))
    ensures var matching := Select(txs, ListWhere(uid, kind, categoryId, start, end));
      skip == 0 && |matching| <= limit ==> multiset(r) == multiset(matching)
    ensures var matching := Select(txs, ListWhere(uid, kind, categoryId, start, end));
      exists s | OrderingOf(s, matching) :: r == Seqs.Window(s, skip, limit)
  {
    Page(Sorted(Select(txs, ListWhere(uid, kind, categoryId, start, end))), skip, limit)
  }

  /** `s` is the row set `rows` as `ORDER BY transaction_date DESC` may
      return it: the same rows, newest first (ties in any order). */
  predicate OrderingOf(s: seq<Transaction>, rows: seq<Transaction>) {
    NewestFirst(s) && multiset(s) == multiset(rows)
  }

  /** `OFFSET skip LIMIT limit` of a sorted row set. */
  function Page(sorted: seq<Transaction>, skip: nat, limit: nat): (r: seq<Transaction>)
    requires NewestFirst(sorted)
    ensures NewestFirst(r)
    ensures |r| == (if skip >= |sorted| then 0 else Seqs.Min(limit, |sorted| - skip))
    ensures forall i | 0 <= i < |r| :: r[i] in sorted
    ensures skip == 0 && |sorted| <= limit ==> r == sorted
    ensures r == Seqs.Window(sorted, skip, limit)
  {
    var r := Seqs.Window(sorted, skip, limit);
    assert NewestFirst(r) by { Seqs.WindowDescending(sorted, skip, limit, Instant); }
    assert skip == 0 && |sorted| <= limit ==> r == sorted;
    r
  }

  /** `ORDER BY transaction_date DESC` of a row set. */
  function Sorted(rows: seq<Transaction>): (r: seq<Transaction>)
    ensures NewestFirst(r)
    ensures |r| == |rows| && multiset(r) == multiset(rows)
    ensures forall i | 0 <= i < |r| :: r[i] in rows
    ensures forall t | t in rows :: t in r
  {
    var r := Seqs.SortDesc(rows, Instant);
    assert forall i | 0 <= i < |r| :: r[i] in multiset(rows);
    assert forall t | t in rows :: t in multiset(r);
    r
  }

  /** Every row the listing leaves out either fails a filter or falls
      outside the requested page. */
  lemma ListingIsComplete(txs: seq<Transaction>, uid: int, limit: nat,
                          kind: Option<TxType>, categoryId: Option<int>,
                          start: Option<DateTime>, end: Option<DateTime>, t: Transaction)
    requires t in txs && Matches(ListWhere(uid, kind, categoryId, start, end), t)
    requires |Select(txs, ListWhere(uid, kind, categoryId, start, end))| <= limit
    ensures t in GetUserTransactions(txs, uid, 0, limit, kind, categoryId, start, end)
  {
    var matching := Select(txs, ListWhere(uid, kind, categoryId, start, end));
    var r := GetUserTransactions(txs, uid, 0, limit, kind, categoryId, start, end);
    assert t in multiset(matching);
  }

  /** Paging walks one listing: the page at `skip` of size `a` followed by
      the page right after it of size `b` is the page at `skip` of size
      `a + b`. So no row is repeated or skipped between consecutive pages. */
  lemma PagesConcatenate(txs: seq<Transaction>, uid: int, skip: nat, a: nat, b: nat,
                         kind: Option<TxType>, categoryId: Option<int>,
                         start: Option<DateTime>, end: Option<DateTime>)
    ensures GetUserTransactions(txs, uid, skip, a, kind, categoryId, start, end)
          + GetUserTransactions(txs, uid, skip + a, b, kind, categoryId, start, end)
         == GetUserTransactions(txs, uid, skip, a + b, kind, categoryId, start, end)
  {
    var sorted := Sorted(Select(txs, ListWhere(uid, kind, categoryId, start, end)));
    Seqs.WindowsConcatenate(sorted, skip, a, b);
  }

  /** `get_total_by_type`: `coalesce(sum(amount), 0)` of one type. */
  function GetTotalByType(txs: seq<Transaction>, uid: int, k: TxType): (total: int)
    ensures (forall i | 0 <= i < |txs| :: !(txs[i].userId == uid && txs[i].kind == k)) ==> total == 0
    ensures PositiveAmounts(txs) ==> total >= 0
    ensures PositiveAmounts(txs) ==>
      (total > 0 <==> exists i | 0 <= i < |txs| :: txs[i].userId == uid && txs[i].kind == k)
  {
    TotalByTypeSign(txs, uid, k);
    SumAmounts(Select(txs, WithKind(OwnedBy(uid), k)))
  }

  lemma TotalByTypeSign(txs: seq<Transaction>, uid: int, k: TxType)
    ensures var total := SumAmounts(Select(txs, WithKind(OwnedBy(uid), k)));
      && ((forall i | 0 <= i < |txs| :: !(txs[i].userId == uid && txs[i].kind == k)) ==> total == 0)
      && (PositiveAmounts(txs) ==> total >= 0)
      && (PositiveAmounts(txs) ==>
           (total > 0 <==> exists i | 0 <= i < |txs| :: txs[i].userId == uid && txs[i].kind == k))
  {
    var w := WithKind(OwnedBy(uid), k);
    var rows := Select(txs, w);
    if forall i | 0 <= i < |txs| :: !(txs[i].userId == uid && txs[i].kind == k) {
      NoMatchAggregatesToZero(txs, w);
    }
    if PositiveAmounts(txs) {
      assert PositiveAmounts(rows);
      SumAmountsNonNegative(rows);
      if exists i | 0 <= i < |txs| :: txs[i].userId == uid && txs[i].kind == k {
        var i :| 0 <= i < |txs| && txs[i].userId == uid && txs[i].kind == k;
        assert Matches(w, txs[i]);
        assert txs[i] in rows;
      } else {
        NoMatchAggregatesToZero(txs, w);
      }
    }
  }

  /** `get_user_balance`: income total minus expense total. It equals the
      signed sum over all the user's rows. */
  function GetUserBalance(txs: seq<Transaction>, uid: int): (b: int)
    ensures b == Net(Select(txs, OwnedBy(uid)))
    ensures (forall i | 0 <= i < |txs| :: txs[i].userId != uid) ==> b == 0
  {
    SplitByKind(txs, OwnedBy(uid));
    var b := GetTotalByType(txs, uid, Income) - GetTotalByType(txs, uid, Expense);
    if forall i | 0 <= i < |txs| :: txs[i].userId != uid then
      NoMatchAggregatesToZero(txs, OwnedBy(uid));
      b
    else b
  }

  /** The two totals are never negative and add up to the user's turnover. */
  lemma TotalsPartitionTurnover(txs: seq<Transaction>, uid: int)
    requires PositiveAmounts(txs)
    ensures GetTotalByType(txs, uid, Income) >= 0 && GetTotalByType(txs, uid, Expense) >= 0
    ensures GetTotalByType(txs, uid, Income) + GetTotalByType(txs, uid, Expense)
         == SumAmounts(Select(txs, OwnedBy(uid)))
  {
    SplitByKind(txs, OwnedBy(uid));
    var inc := Select(txs, WithKind(OwnedBy(uid), Income));
    var exp := Select(txs, WithKind(OwnedBy(uid), Expense));
    assert PositiveAmounts(inc);
    assert PositiveAmounts(exp);
    SumAmountsNonNegative(inc);
    SumAmountsNonNegative(exp);
  }

  /** `get_by_category`: the user's rows in that category, newest first. */
  function GetByCategory(txs: seq<Transaction>, uid: int, categoryId: int): (r: seq<Transaction>)
    ensures NewestFirst(r)
    ensures forall i | 0 <= i < |r| :: r[i] in txs && r[i].userId == uid && r[i].categoryId == Some(categoryId)
    ensures forall t | t in txs && t.userId == uid && t.categoryId == Some(categoryId) :: t in r
    ensures multiset(r) == multiset(Select(txs, CategoryWhere(uid, categoryId)))
  {
    Sorted(Select(txs, CategoryWhere(uid, categoryId)))
  }

  /** For a non-zero category, `get_by_category` returns the same rows as an
      unpaged `get_user_transactions` filtered by that category. */
  lemma ByCategoryIsTheFilteredListing(txs: seq<Transaction>, uid: int, categoryId: int)
    requires categoryId != 0
    ensures multiset(GetByCategory(txs, uid, categoryId))
         == multiset(GetUserTransactions(txs, uid, 0, |txs|, None, Some(categoryId), None, None))
  {
    assert ListWhere(uid, None, Some(categoryId), None, None) == CategoryWhere(uid, categoryId);
  }

  /** The clause of `get_by_category`: the user's rows in that category. */
  function CategoryWhere(uid: int, categoryId: int): Where {
    Where(uid, None, Some(categoryId), None, None, None, None, None)
  }

  /** The row `create` inserts: the validated fields plus the owner. */
  function NewRow(id: int, input: TransactionCreate, uid: int): Transaction {
    Transaction(id, uid, input.categoryId, input.kind, input.amount, input.description, input.date)
  }

  /** `create`: insert and commit. The insert fails on an amount beyond
      Numeric(10, 2) (checked as the value is converted, so first) and on a
      category id with no category (foreign key). */
  function Create(txs: seq<Transaction>, cats: seq<Category>, input: TransactionCreate, uid: int)
    : (r: Result<(seq<Transaction>, Transaction), ApiError>)
    ensures r.Ok? ==>
      var (rows, t) := r.value;
      && rows == txs + [t]
      && t.id !in TransactionIds(txs)
      && t.userId == uid && t.categoryId == input.categoryId && t.kind == input.kind
      && t.amount == input.amount && t.description == input.description && t.date == input.date
    ensures r.Ok? <==> CategoryRefOk(input.categoryId, cats) && input.amount < AmountLimitCents
    ensures input.amount >= AmountLimitCents ==> r == Err(Crash(DataErrorName))
    ensures input.amount < AmountLimitCents && !CategoryRefOk(input.categoryId, cats) ==> r == Err(Crash(IntegrityErrorName))
  {
    var t := NewRow(BaseRepository.NextId(txs, TxId), input, uid);
    if input.amount >= AmountLimitCents then Err(Crash(DataErrorName))
    else if !CategoryRefOk(input.categoryId, cats) then Err(Crash(IntegrityErrorName))
    else Ok((txs + [t], t))
  }

  /** A committed insert keeps the table's constraints. */
  lemma CreateKeepsCommitted(txs: seq<Transaction>, cats: seq<Category>, input: TransactionCreate, uid: int)
    requires TransactionsCommit(txs, cats) && UniqueTransactionIds(txs)
    requires CreateFieldsOk(input)
    requires Create(txs, cats, input, uid).Ok?
    ensures var rows := Create(txs, cats, input, uid).value.0;
      TransactionsCommit(rows, cats) && UniqueTransactionIds(rows)
  {
    var (rows, t) := Create(txs, cats, input, uid).value;
    assert forall i | 0 <= i < |txs| :: txs[i].id in TransactionIds(txs);
  }
}

=== FILE: transaction_service.dfy ===
/** The transaction business rules: a user may only attach a category that
    exists and is theirs or shared, and may only read, change or delete
    their own transactions. Every refused request leaves the database as it
    was. */
module TransactionService {
  import opened Wrappers
  import opened Errors
  import opened Models
  import opened Schemas
  import opened Ledger
  import opened Store
  import BaseRepository
  import TransactionRepository
  import CategoryRepository

  /** A category a user may attach: a shared one (no owner) or their own. */
  predicate UsableBy(c: Category, uid: int) {
    c.userId.None? || c.userId == Some(uid)
  }

  /** The category check of create and update: 404 for an unknown id, then
      403 for another user's category. */
  function CheckCategory(cats: seq<Category>, categoryId: int, uid: int): (r: Option<ApiError>)
    ensures categoryId !in CategoryIds(cats) ==> r == Some(NotFoundError(CategoryNotFound))
    ensures r == None ==>
      && CategoryRepository.GetById(cats, categoryId).Some?
      && UsableBy(CategoryRepository.GetById(cats, categoryId).value, uid)
    ensures r == Some(ForbiddenError(CategoryNotOwned)) ==>
      && CategoryRepository.GetById(cats, categoryId).Some?
      && !UsableBy(CategoryRepository.GetById(cats, categoryId).value, uid)
    ensures r.Some? ==> r == Some(NotFoundError(CategoryNotFound)) || r == Some(ForbiddenError(CategoryNotOwned))
    ensures r.None? <==>
      CategoryRepository.GetById(cats, categoryId).Some? && UsableBy(CategoryRepository.GetById(cats, categoryId).value, uid)
  {
    match CategoryRepository.GetById(cats, categoryId)
    case None => Some(NotFoundError(CategoryNotFound))
    case Some(c) => if UsableBy(c, uid) then None else Some(ForbiddenError(CategoryNotOwned))
  }

  /** With unique ids, a stored category passes the check exactly when the
      user may use it, and is 403 otherwise. */
  lemma CheckCategoryIsUsableOnly(cats: seq<Category>, c: Category, uid: int)
    requires UniqueCategoryIds(cats) && c in cats
    ensures UsableBy(c, uid) ==> CheckCategory(cats, c.id, uid) == None
    ensures !UsableBy(c, uid) ==> CheckCategory(cats, c.id, uid) == Some(ForbiddenError(CategoryNotOwned))
  {
    var k := BaseRepository.IndexOf(cats, CategoryRepository.CategoryId, c.id);
    var j :| 0 <= j < |cats| && cats[j] == c;
    assert CategoryRepository.GetById(cats, c.id).Some?;
    assert k == j;
  }

  /** Where system rows are exactly the ownerless ones, as seeded, a
      category is usable exactly when it is listed for the user. */
  lemma UsableIffVisible(c: Category, uid: int)
    requires c.isSystem <==> c.userId.None?
    ensures UsableBy(c, uid) <==> CategoryRepository.VisibleTo(c, uid)
  {
  }

  /** `create_transaction`: the category check runs only for a truthy id,
      so category id 0 skips it and reaches the insert. */
  function CreateTransaction(db: Db, input: TransactionCreate, uid: int): (r: Response<Transaction>)
    ensures r.result.Err? ==> r.db == db
    ensures input.categoryId.Some? && input.categoryId.value != 0 && input.categoryId.value !in CategoryIds(db.categories)
      ==> r.result == Err(NotFoundError(CategoryNotFound))
    ensures r.result.Ok? ==>
      var t := r.result.value;
      && r.db == db.(transactions := db.transactions + [t])
      && t.id !in TransactionIds(db.transactions)
      && t.userId == uid && t.kind == input.kind && t.amount == input.amount
      && t.description == input.description && t.date == input.date && t.categoryId == input.categoryId
    ensures input.categoryId.Some? && input.categoryId.value != 0 && CheckCategory(db.categories, input.categoryId.value, uid).Some?
      ==> r.result == Err(CheckCategory(db.categories, input.categoryId.value, uid).value)
    ensures r.result.Ok? <==>
      && (input.categoryId.Some? && input.categoryId.value != 0 ==> CheckCategory(db.categories, input.categoryId.value, uid).None?)
      && TransactionRepository.Create(db.transactions, db.categories, input, uid).Ok?
  {
    var check := if input.categoryId.Some? && input.categoryId.value != 0
                 then CheckCategory(db.categories, input.categoryId.value, uid) else None;
    if check.Some? then Refuse(db, check.value)
    else
      match TransactionRepository.Create(db.transactions, db.categories, input, uid)
      case Err(e) => Refuse(db, e)
      case Ok((rows, t)) => Response(db.(transactions := rows), Ok(t))
  }

  /** Category id 0 is falsy: it passes the category check and the insert
      then fails on the foreign key (500, IntegrityError). */
  lemma CategoryZeroReachesTheDatabase(db: Db, input: TransactionCreate, uid: int)
    requires input.categoryId == Some(0) && 0 !in CategoryIds(db.categories)
    requires input.amount < AmountLimitCents
    ensures CreateTransaction(db, input, uid) == Refuse(db, Crash(IntegrityErrorName))
  {
  }

  /** A successful create keeps every database invariant. */
  lemma CreateKeepsWellFormed(db: Db, input: TransactionCreate, uid: int)
    requires WellFormed(db) && CreateFieldsOk(input)
    ensures WellFormed(CreateTransaction(db, input, uid).db)
  {
    if CreateTransaction(db, input, uid).result.Ok? {
      TransactionRepository.CreateKeepsCommitted(db.transactions, db.categories, input, uid);
    }
  }

  /** `get_user_transactions`: the repository listing with the filter's
      fields. */
  function GetUserTransactions(txs: seq<Transaction>, uid: int, f: TransactionFilter): (r: seq<Transaction>)
    ensures |r| <= f.limit
    ensures forall i | 0 <= i < |r| :: r[i] in txs && r[i].userId == uid
    ensures TransactionRepository.NewestFirst(r)
    ensures r == TransactionRepository.GetUserTransactions(txs, uid, f.skip, f.limit, f.kind, f.categoryId, f.start, f.end)
  {
    TransactionRepository.GetUserTransactions(txs, uid, f.skip, f.limit, f.kind, f.categoryId, f.start, f.end)
  }

  /** `get_transaction`: 404 for an unknown id, then 403 for another user's
      row. */
  function GetTransaction(txs: seq<Transaction>, id: int, uid: int): (r: Result<Transaction, ApiError>)
    ensures id !in TransactionIds(txs) ==> r == Err(NotFoundError(TransactionNotFound))
    ensures r.Ok? ==> r.value in txs && r.value.id == id && r.value.userId == uid
    ensures r.Ok? ==> r.value == txs[BaseRepository.IndexOf(txs, TransactionRepository.TxId, id)]
    ensures r.Err? ==> r == Err(NotFoundError(TransactionNotFound)) || r == Err(ForbiddenError(TransactionNotOwned))
    ensures id in TransactionIds(txs) ==>
      var t := txs[BaseRepository.IndexOf(txs, TransactionRepository.TxId, id)];
      r == if t.userId == uid then Ok(t) else Err(ForbiddenError(TransactionNotOwned))
  {
    var found := BaseRepository.GetById(txs, TransactionRepository.TxId, id);
    assert found.None? ==> forall t | t in txs :: t.id != id;
    match found
    case None => Err(NotFoundError(TransactionNotFound))
    case Some(t) => if t.userId != uid then Err(ForbiddenError(TransactionNotOwned)) else Ok(t)
  }

  /** With unique ids, a user gets exactly the row with that id when it is
      theirs, and 403 when it is someone else's. */
  lemma GetTransactionIsOwnerOnly(txs: seq<Transaction>, id: int, uid: int, t: Transaction)
    requires UniqueTransactionIds(txs) && t in txs && t.id == id
    ensures t.userId == uid ==> GetTransaction(txs, id, uid) == Ok(t)
    ensures t.userId != uid ==> GetTransaction(txs, id, uid) == Err(ForbiddenError(TransactionNotOwned))
  {
    var k := BaseRepository.IndexOf(txs, TransactionRepository.TxId, id);
    var j :| 0 <= j < |txs| && txs[j] == t;
    assert k == j;
  }

  /** The `setattr` of every field sent and the flush of the changed row:
      an amount past Numeric(10, 2) is a DataError; a null in a NOT NULL
      column and a dangling category id are IntegrityErrors. */
  function ApplyUpdate(t: Transaction, patch: TransactionUpdate, cats: seq<Category>): (r: Result<Transaction, string>)
    ensures r.Ok? ==>
      && r.value.id == t.id && r.value.userId == t.userId
      && r.value.kind == (if patch.kind.Value? then patch.kind.v else t.kind)
      && r.value.amount == (if patch.amount.Value? then patch.amount.v else t.amount)
      && r.value.date == (if patch.date.Value? then patch.date.v else t.date)
      && r.value.description == (match patch.description case Unset => t.description case Null => None case Value(d) => Some(d))
      && r.value.categoryId == (match patch.categoryId case Unset => t.categoryId case Null => None case Value(c) => Some(c))
      && CategoryRefOk(r.value.categoryId, cats)
      && r.value.amount < AmountLimitCents
    ensures patch.amount.Value? && patch.amount.v >= AmountLimitCents ==> r == Err(DataErrorName)
    ensures (patch.kind.Null? || patch.amount.Null? || patch.date.Null?) ==> r.Err?
    ensures r.Err? ==> r.error == DataErrorName || r.error == IntegrityErrorName
    ensures r.Ok? <==>
      && !patch.kind.Null? && !patch.amount.Null? && !patch.date.Null?
      && (if patch.amount.Value? then patch.amount.v else t.amount) < AmountLimitCents
      && CategoryRefOk(match patch.categoryId case Unset => t.categoryId case Null => None case Value(c) => Some(c), cats)
  {
    if patch.amount.Value? && patch.amount.v >= AmountLimitCents then Err(DataErrorName)
    else if patch.kind.Null? || patch.amount.Null? || patch.date.Null? then Err(IntegrityErrorName)
    else
      var u := t.(
        kind := if patch.kind.Value? then patch.kind.v else t.kind,
        amount := if patch.amount.Value? then patch.amount.v else t.amount,
        date := if patch.date.Value? then patch.date.v else t.date,
        description := match patch.description case Unset => t.description case Null => None case Value(d) => Some(d),
        categoryId := match patch.categoryId case Unset => t.categoryId case Null => None case Value(c) => Some(c));
      if !CategoryRefOk(u.categoryId, cats) then Err(IntegrityErrorName)
      else if u.amount >= AmountLimitCents then Err(DataErrorName)
      else Ok(u)
  }

  /** The patch with nothing set changes nothing in a committed row. */
  lemma EmptyPatchIsIdentity(t: Transaction, cats: seq<Category>)
    requires CategoryRefOk(t.categoryId, cats) && t.amount < AmountLimitCents
    ensures ApplyUpdate(t, TransactionUpdate(Unset, Unset, Unset, Unset, Unset), cats) == Ok(t)
  {
  }

  /** `update_transaction`: ownership first, then (when a category id is
      sent) the category check, then the update. An explicit null category
      id skips the check and clears the category. */
  function UpdateTransaction(db: Db, id: int, patch: TransactionUpdate, uid: int): (r: Response<Transaction>)
    ensures r.result.Err? ==> r.db == db
    ensures GetTransaction(db.transactions, id, uid).Err? ==> r.result == GetTransaction(db.transactions, id, uid)
    ensures r.result.Ok? ==>
      var k := BaseRepository.IndexOf(db.transactions, TransactionRepository.TxId, id);
      && 0 <= k < |db.transactions|
      && db.transactions[k].userId == uid
      && ApplyUpdate(db.transactions[k], patch, db.categories) == Ok(r.result.value)
      && r.db == db.(transactions := db.transactions[k := r.result.value])
    ensures GetTransaction(db.transactions, id, uid).Ok? && patch.categoryId.Value?
              && CheckCategory(db.categories, patch.categoryId.v, uid).Some?
      ==> r.result == Err(CheckCategory(db.categories, patch.categoryId.v, uid).value)
    ensures r.result.Ok? <==>
      && GetTransaction(db.transactions, id, uid).Ok?
      && (patch.categoryId.Value? ==> CheckCategory(db.categories, patch.categoryId.v, uid).None?)
      && ApplyUpdate(GetTransaction(db.transactions, id, uid).value, patch, db.categories).Ok?
  {
    match GetTransaction(db.transactions, id, uid)
    case Err(e) => Refuse(db, e)
    case Ok(_) =>
      var check := if patch.categoryId.Value? then CheckCategory(db.categories, patch.categoryId.v, uid) else None;
      if check.Some? then Refuse(db, check.value)
      else
        match BaseRepository.Update(db.transactions, TransactionRepository.TxId, id, patch,
                                    (t, p) => ApplyUpdate(t, p, db.categories), rows => true, "")
        case Missing => Refuse(db, NotFoundError(TransactionNotFound))
        case Rejected(e) => Refuse(db, Crash(e))
        case Updated(rows, t) => Response(db.(transactions := rows), Ok(t))
  }

  /** The fields `TransactionUpdate` validation guarantees. */
  predicate UpdateFieldsOk(p: TransactionUpdate) {
    && (p.amount.Value? ==> p.amount.v > 0)
    && (p.description.Value? ==> |p.description.v| <= MaxDescriptionLength)
  }

  /** A successful update keeps every database invariant, and the row stays
      its owner's. */
  lemma UpdateKeepsWellFormed(db: Db, id: int, patch: TransactionUpdate, uid: int)
    requires WellFormed(db) && UpdateFieldsOk(patch)
    ensures WellFormed(UpdateTransaction(db, id, patch, uid).db)
  {
    var r := UpdateTransaction(db, id, patch, uid);
    if r.result.Ok? {
      var k := BaseRepository.IndexOf(db.transactions, TransactionRepository.TxId, id);
      var rows := r.db.transactions;
      forall i | 0 <= i < |rows| ensures TransactionRowOk(rows[i]) && CategoryRefOk(rows[i].categoryId, db.categories) {
        if i != k { assert rows[i] == db.transactions[i]; }
      }
      forall i, j | 0 <= i < j < |rows| ensures rows[i].id != rows[j].id {
        assert rows[i].id == db.transactions[i].id && rows[j].id == db.transactions[j].id;
      }
    }
  }

  /** `delete_transaction`: ownership first, then the delete. */
  function DeleteTransaction(db: Db, id: int, uid: int): (r: Response<Transaction>)
    ensures r.result.Err? ==> r.db == db
    ensures GetTransaction(db.transactions, id, uid).Err? ==> r.result == GetTransaction(db.transactions, id, uid)
    ensures r.result.Ok? ==>
      var k := BaseRepository.IndexOf(db.transactions, TransactionRepository.TxId, id);
      && 0 <= k < |db.transactions|
      && r.result.value == db.transactions[k] && r.result.value.userId == uid
      && r.db == db.(transactions := db.transactions[..k] + db.transactions[k + 1..])
    ensures r.result.Ok? <==> GetTransaction(db.transactions, id, uid).Ok?
  {
    match GetTransaction(db.transactions, id, uid)
    case Err(e) => Refuse(db, e)
    case Ok(_) =>
      match BaseRepository.Delete(db.transactions, TransactionRepository.TxId, id)
      case None => Refuse(db, NotFoundError(TransactionNotFound))
      case Some((rows, t)) => Response(db.(transactions := rows), Ok(t))
  }

  /** A delete removes exactly the one row and keeps every invariant. */
  lemma DeleteRemovesOneRow(db: Db, id: int, uid: int)
    requires WellFormed(db)
    requires DeleteTransaction(db, id, uid).result.Ok?
    ensures var rows := DeleteTransaction(db, id, uid).db.transactions;
      && |rows| == |db.transactions| - 1
      && (forall t | t in rows :: t.id != id)
      && (forall t | t in db.transactions && t.id != id :: t in rows)
      && WellFormed(DeleteTransaction(db, id, uid).db)
  {
    var txs := db.transactions;
    var k := BaseRepository.IndexOf(txs, TransactionRepository.TxId, id);
    var rows := txs[..k] + txs[k + 1..];
    assert BaseRepository.UniqueKeys(txs, TransactionRepository.TxId);
    BaseRepository.DeleteRemovesOnlyThatRow(txs, TransactionRepository.TxId, id);
    RemovalKeepsCommitted(txs, db.categories, k);
  }

  /** Removing one row keeps the table's constraints. */
  lemma RemovalKeepsCommitted(txs: seq<Transaction>, cats: seq<Category>, k: int)
    requires 0 <= k < |txs|
    requires TransactionsCommit(txs, cats) && UniqueTransactionIds(txs)
    ensures TransactionsCommit(txs[..k] + txs[k + 1..], cats) && UniqueTransactionIds(txs[..k] + txs[k + 1..])
  {
    var rows := txs[..k] + txs[k + 1..];
    forall i | 0 <= i < |rows| ensures rows[i] == txs[if i < k then i else i + 1] {
    }
    forall i, j | 0 <= i < j < |rows| ensures rows[i].id != rows[j].id {
      assert rows[i] == txs[if i < k then i else i + 1];
      assert rows[j] == txs[if j < k then j else j + 1];
    }
  }

  /** `get_summary`. */
  datatype Summary = Summary(totalIncome: int, totalExpenses: int, balance: int)

  function GetSummary(txs: seq<Transaction>, uid: int): (r: Summary)
    ensures r.balance == r.totalIncome - r.totalExpenses
    ensures r.balance == Net(Select(txs, OwnedBy(uid)))
    ensures r.totalIncome == SumAmounts(Select(txs, WithKind(OwnedBy(uid), Income)))
    ensures r.totalExpenses == SumAmounts(Select(txs, WithKind(OwnedBy(uid), Expense)))
  {
    Summary(
      TransactionRepository.GetTotalByType(txs, uid, Income),
      TransactionRepository.GetTotalByType(txs, uid, Expense),
      TransactionRepository.GetUserBalance(txs, uid))
  }

  /** On a committed table both totals are non-negative and together are
      the user's whole turnover. */
  lemma SummaryTotalsAreTurnover(txs: seq<Transaction>, uid: int)
    requires PositiveAmounts(txs)
    ensures GetSummary(txs, uid).totalIncome >= 0 && GetSummary(txs, uid).totalExpenses >= 0
    ensures GetSummary(txs, uid).totalIncome + GetSummary(txs, uid).totalExpenses == SumAmounts(Select(txs, OwnedBy(uid)))
  {
    TransactionRepository.TotalsPartitionTurnover(txs, uid);
  }
}

=== FILE: transactions_endpoint.dfy ===
/** The `/transactions` handlers. Each acts for the authenticated user
    `current`; the body schemas answer 422 before the handler runs, while
    query parameters are parsed inside the handler, so their failures are
    uncaught exceptions (500). */
module TransactionsEndpoint {
  import opened Wrappers
  import opened Errors
  import opened Models
  import opened Schemas
  import opened Ledger
  import opened Store
  import opened IsoFormat
  import Seqs
  import BaseRepository
  import TransactionRepository
  import TransactionService

  /** `POST /transactions/`. */
  function CreateTransaction(db: Db, current: User, body: TransactionCreateBody): (r: Response<Transaction>)
    ensures r.result.Err? ==> r.db == db
    ensures ValidateTransactionCreate(body).Err? ==> r.result.Err? && r.result.error.status == Unprocessable
    ensures r.result.Ok? ==>
      && ValidateTransactionCreate(body).Ok?
      && r == TransactionService.CreateTransaction(db, ValidateTransactionCreate(body).value, current.id)
      && r.result.value.userId == current.id
    ensures ValidateTransactionCreate(body).Ok? ==>
      r == TransactionService.CreateTransaction(db, ValidateTransactionCreate(body).value, current.id)
  {
    match ValidateTransactionCreate(body)
    case Err(e) => Refuse(db, e)
    case Ok(input) => TransactionService.CreateTransaction(db, input, current.id)
  }

  /** `GET /transactions/`: the type, then the two dates are parsed, the
      limit is capped at 100, and the `TransactionFilter` is built, whose
      `ge`/`le` checks raise inside the handler (500). */
  function ListTransactions(txs: seq<Transaction>, current: User,
                            kind: Option<string>, categoryId: Option<int>,
                            startDate: Option<string>, endDate: Option<string>,
                            skip: int, limit: int): (r: Result<seq<Transaction>, ApiError>)
    ensures TypeParam(kind).Err? ==> r == Err(Crash(ValueErrorName))
    ensures TypeParam(kind).Ok? && (DateParam(startDate).Err? || DateParam(endDate).Err?)
      ==> r == Err(Crash(ValueErrorName))
    ensures r.Err? ==> r.error.status == ServerError
    ensures r.Ok? <==>
      && TypeParam(kind).Ok? && DateParam(startDate).Ok? && DateParam(endDate).Ok?
      && skip >= 0 && limit >= 1
    ensures r.Ok? ==>
      && |r.value| <= Seqs.Min(limit, MaxListLimit)
      && TransactionRepository.NewestFirst(r.value)
      && r.value == TransactionRepository.GetUserTransactions(
           txs, current.id, skip, Seqs.Min(limit, MaxListLimit), TypeParam(kind).value,
           categoryId, DateParam(startDate).value, DateParam(endDate).value)
  {
    var k :- TypeParam(kind);
    var start :- DateParam(startDate);
    var end :- DateParam(endDate);
    match MakeFilter(k, categoryId, start, end, skip, Seqs.Min(limit, MaxListLimit))
    case Err(_) => Err(Crash(ValidationErrorName))
    case Ok(f) => Ok(TransactionService.GetUserTransactions(txs, current.id, f))
  }

  /** Every listed row is the caller's, and a too-large limit is capped
      rather than refused. */
  lemma ListingIsOwnAndCapped(txs: seq<Transaction>, current: User, skip: nat, limit: int)
    requires limit >= MaxListLimit
    ensures var r := ListTransactions(txs, current, None, None, None, None, skip, limit);
      && r.Ok? && |r.value| <= MaxListLimit
      && r == ListTransactions(txs, current, None, None, None, None, skip, MaxListLimit)
      && forall i | 0 <= i < |r.value| :: r.value[i] in txs && r.value[i].userId == current.id
  {
  }

  /** With the default parameters and few enough rows, the listing is all
      of the caller's rows, newest first. */
  lemma DefaultListingIsEverything(txs: seq<Transaction>, current: User, t: Transaction)
    requires t in txs && t.userId == current.id
    requires |Select(txs, OwnedBy(current.id))| <= DefaultListLimit
    ensures var r := ListTransactions(txs, current, None, None, None, None, 0, DefaultListLimit);
      r.Ok? && t in r.value
  {
    var w := TransactionRepository.ListWhere(current.id, None, None, None, None);
    assert w == OwnedBy(current.id);
    TransactionRepository.ListingIsComplete(txs, current.id, DefaultListLimit, None, None, None, None, t);
  }

  /** A date-only end bound is that day's midnight, so the rest of that day
      is excluded from the listing. */
  lemma DateOnlyEndExcludesLaterThatDay(txs: seq<Transaction>, current: User, end: string, t: Transaction)
    requires |end| == 10 && FromIsoFormat(end).Ok?
    requires t.date.date == FromIsoFormat(end).value.date && t.date.second > 0
    ensures var r := ListTransactions(txs, current, None, None, None, Some(end), 0, DefaultListLimit);
      r.Ok? && t !in r.value
  {
    var bound := FromIsoFormat(end).value;
    Calendar.LaterSameDayIsAfterMidnight(t.date, bound.date);
    var r := ListTransactions(txs, current, None, None, None, Some(end), 0, DefaultListLimit);
    assert DateParam(Some(end)) == Ok(Some(bound));
    assert forall i | 0 <= i < |r.value| :: Calendar.NotAfter(r.value[i].date, bound);
  }

  /** `GET /transactions/summary`. */
  function Summary(txs: seq<Transaction>, current: User): (r: TransactionService.Summary)
    ensures r.balance == r.totalIncome - r.totalExpenses
    ensures r.balance == Net(Select(txs, OwnedBy(current.id)))
    ensures r.totalIncome == SumAmounts(Select(txs, WithKind(OwnedBy(current.id), Income)))
    ensures r.totalExpenses == SumAmounts(Select(txs, WithKind(OwnedBy(current.id), Expense)))
  {
    TransactionService.GetSummary(txs, current.id)
  }

  /** `GET /transactions/{id}`. */
  function GetTransaction(txs: seq<Transaction>, current: User, id: int): (r: Result<Transaction, ApiError>)
    ensures r.Ok? ==> r.value in txs && r.value.id == id && r.value.userId == current.id
    ensures id !in TransactionIds(txs) ==> r == Err(NotFoundError(TransactionNotFound))
    ensures id in TransactionIds(txs) ==>
      var t := txs[BaseRepository.IndexOf(txs, TransactionRepository.TxId, id)];
      r == if t.userId == current.id then Ok(t) else Err(ForbiddenError(TransactionNotOwned))
    ensures r == TransactionService.GetTransaction(txs, id, current.id)
  {
    TransactionService.GetTransaction(txs, id, current.id)
  }

  /** `PUT /transactions/{id}`. */
  function UpdateTransaction(db: Db, current: User, id: int, body: TransactionUpdateBody): (r: Response<Transaction>)
    ensures r.result.Err? ==> r.db == db
    ensures ValidateTransactionUpdate(body).Err? ==> r.result.Err? && r.result.error.status == Unprocessable
    ensures r.result.Ok? ==>
      && r.result.value.id == id && r.result.value.userId == current.id
      && r.db.users == db.users && r.db.categories == db.categories
      && |r.db.transactions| == |db.transactions|
    ensures ValidateTransactionUpdate(body).Ok? ==>
      r == TransactionService.UpdateTransaction(db, id, ValidateTransactionUpdate(body).value, current.id)
    ensures r.result.Ok? ==>
      var k := BaseRepository.IndexOf(db.transactions, TransactionRepository.TxId, id);
      && 0 <= k < |db.transactions|
      && r.db.transactions == db.transactions[k := r.result.value]
  {
    match ValidateTransactionUpdate(body)
    case Err(e) => Refuse(db, e)
    case Ok(patch) => TransactionService.UpdateTransaction(db, id, patch, current.id)
  }

  /** A validated update keeps every database invariant. */
  lemma UpdateKeepsWellFormed(db: Db, current: User, id: int, body: TransactionUpdateBody)
    requires WellFormed(db)
    ensures WellFormed(UpdateTransaction(db, current, id, body).db)
  {
    if ValidateTransactionUpdate(body).Ok? {
      TransactionService.UpdateKeepsWellFormed(db, id, ValidateTransactionUpdate(body).value, current.id);
    }
  }

  /** `DELETE /transactions/{id}`: 204 with no body on success. */
  function DeleteTransaction(db: Db, current: User, id: int): (r: Response<()>)
    ensures r.result.Err? ==> r.db == db
    ensures r.result.Ok? ==>
      && r.db.users == db.users && r.db.categories == db.categories
      && |r.db.transactions| == |db.transactions| - 1
      && (forall t | t in db.transactions && t !in r.db.transactions :: t.id == id && t.userId == current.id)
    ensures r.result.Ok? <==> TransactionService.GetTransaction(db.transactions, id, current.id).Ok?
  {
    var r := TransactionService.DeleteTransaction(db, id, current.id);
    if r.result.Err? then Refuse(db, r.result.error)
    else
      var k := BaseRepository.IndexOf(db.transactions, TransactionRepository.TxId, id);
      RemovedIsOnlyAt(db.transactions, k);
      Response(r.db, Ok(()))
  }

  /** Removing position `k` keeps every other element. */
  lemma RemovedIsOnlyAt(s: seq<Transaction>, k: int)
    requires 0 <= k < |s|
    ensures forall j | 0 <= j < |s| && j != k :: s[j] in s[..k] + s[k + 1..]
  {
    var rest := s[..k] + s[k + 1..];
    forall j | 0 <= j < |s| && j != k ensures s[j] in rest {
      if j < k { assert rest[j] == s[j]; } else { assert rest[j - 1] == s[j]; }
    }
  }
}

=== FILE: user_repository.dfy ===
/** The `users` table: lookups, creation with a hashed password, partial
    update that rehashes a new password, and authentication. */
module UserRepository {
  import opened Wrappers
  import opened Errors
  import opened Models
  import opened Schemas
  import opened Security
  import BaseRepository

  function UserId(u: User): int { u.id }

  /** `get_by_id`. */
  function GetById(users: seq<User>, id: int): (r: Option<User>)
    ensures r.Some? ==> r.value in users && r.value.id == id
    ensures r.None? <==> forall j | 0 <= j < |users| :: users[j].id != id
    ensures r.Some? ==>
      0 <= BaseRepository.IndexOf(users, UserId, id) && r.value == users[BaseRepository.IndexOf(users, UserId, id)]
  {
    BaseRepository.GetById(users, UserId, id)
  }

  /** `get_by_email`: exact, case-sensitive string equality. */
  function GetByEmail(users: seq<User>, email: string): (r: Option<User>)
    ensures r.Some? ==> r.value in users && r.value.email == email
    ensures r.None? <==> forall j | 0 <= j < |users| :: users[j].email != email
  {
    if |users| == 0 then None
    else if users[0].email == email then Some(users[0])
    else GetByEmail(users[1..], email)
  }

  /** `create`: stores the hash of the password, never the password, with
      `is_active` set and `is_superuser` cleared. */
  function Create(users: seq<User>, hasher: Hasher, input: UserCreate): (r: (seq<User>, User))
    ensures r.0 == users + [r.1]
    ensures r.1.id !in UserIds(users)
    ensures r.1.email == input.email && r.1.fullName == input.fullName
    ensures r.1.hashedPassword == hasher.hash(input.password)
    ensures r.1.isActive && !r.1.isSuperuser
  {
    var id := BaseRepository.NextId(users, UserId);
    var u := User(id, input.email, hasher.hash(input.password), input.fullName, true, false);
    assert forall j | 0 <= j < |users| :: users[j].id < id;
    (users + [u], u)
  }

  /** The `setattr` loop of `update` on one user. An explicit null password
      makes the hasher raise; an explicit null in a NOT NULL column makes the
      commit fail. */
  function ApplyUpdate(u: User, patch: UserUpdate, hasher: Hasher): (r: Result<User, string>)
    ensures patch.password.Null? ==> r == Err(TypeErrorName)
    ensures r.Ok? <==>
      !patch.password.Null? && !patch.email.Null? && !patch.isActive.Null? && !patch.isSuperuser.Null?
    ensures r.Ok? ==> r.value.id == u.id
    ensures r.Ok? ==> r.value.email == (if patch.email.Value? then patch.email.v else u.email)
    ensures r.Ok? ==>
      r.value.hashedPassword == (if patch.password.Value? then hasher.hash(patch.password.v) else u.hashedPassword)
    ensures r.Ok? ==>
      r.value.fullName == (match patch.fullName case Unset => u.fullName case Null => None case Value(n) => Some(n))
    ensures r.Ok? ==> r.value.isActive == (if patch.isActive.Value? then patch.isActive.v else u.isActive)
    ensures r.Ok? ==>
      r.value.isSuperuser == (if patch.isSuperuser.Value? then patch.isSuperuser.v else u.isSuperuser)
  {
    if patch.password.Null? then Err(TypeErrorName)
    else if patch.email.Null? || patch.isActive.Null? || patch.isSuperuser.Null? then Err(IntegrityErrorName)
    else
      Ok(User(
        u.id,
        if patch.email.Value? then patch.email.v else u.email,
        if patch.password.Value? then hasher.hash(patch.password.v) else u.hashedPassword,
        match patch.fullName case Unset => u.fullName case Null => None case Value(n) => Some(n),
        if patch.isActive.Value? then patch.isActive.v else u.isActive,
        if patch.isSuperuser.Value? then patch.isSuperuser.v else u.isSuperuser))
  }

  /** A body that sets nothing changes nothing. */
  lemma EmptyUpdateIsIdentity(u: User, hasher: Hasher)
    ensures ApplyUpdate(u, UserUpdate(Unset, Unset, Unset, Unset, Unset), hasher) == Ok(u)
  {
  }

  /** After a password change the new password verifies; without one the
      old password still does. */
  lemma UpdatedPasswordVerifies(u: User, patch: UserUpdate, hasher: Hasher, oldPassword: string)
    requires SoundHasher(hasher)
    requires ApplyUpdate(u, patch, hasher).Ok?
    requires patch.password.Unset? ==> hasher.verify(oldPassword, u.hashedPassword)
    ensures var v := ApplyUpdate(u, patch, hasher).value;
      hasher.verify(if patch.password.Value? then patch.password.v else oldPassword, v.hashedPassword)
  {
  }

  /** `update`: None when the id is unknown; otherwise only the fields sent
      change, in that user's row alone. */
  function Update(users: seq<User>, hasher: Hasher, id: int, patch: UserUpdate)
    : (r: BaseRepository.UpdateOutcome<User>)
    ensures r.Missing? <==> GetById(users, id).None?
    ensures r.Updated? ==>
      var k := BaseRepository.IndexOf(users, UserId, id);
      && 0 <= k < |users|
      && ApplyUpdate(users[k], patch, hasher) == Ok(r.row)
      && r.rows == users[k := r.row]
    ensures r.Rejected? ==> GetById(users, id).Some? && ApplyUpdate(GetById(users, id).value, patch, hasher).Err?
    ensures GetById(users, id).Some? ==>
      match ApplyUpdate(GetById(users, id).value, patch, hasher)
      case Err(e) => r == BaseRepository.Rejected(e)
      case Ok(row) => r.Updated? && r.row == row
  {
    BaseRepository.Update(users, UserId, id, patch, (u, p) => ApplyUpdate(u, p, hasher), rows => true, IntegrityErrorName)
  }

  /** `authenticate`: the user with that email whose hash the password
      verifies; `is_active` is not consulted. */
  function Authenticate(users: seq<User>, hasher: Hasher, email: string, password: string): (r: Option<User>)
    ensures r.Some? ==> r.value in users && r.value.email == email && hasher.verify(password, r.value.hashedPassword)
    ensures r.None? <==>
      GetByEmail(users, email).None? || !hasher.verify(password, GetByEmail(users, email).value.hashedPassword)
  {
    match GetByEmail(users, email)
    case None => None
    case Some(u) => if hasher.verify(password, u.hashedPassword) then Some(u) else None
  }

  /** A user just created authenticates with the password it was created
      with, provided no earlier user holds the email. */
  lemma CreatedUserAuthenticates(users: seq<User>, hasher: Hasher, input: UserCreate)
    requires SoundHasher(hasher)
    requires GetByEmail(users, input.email).None?
    ensures var (rows, u) := Create(users, hasher, input);
      Authenticate(rows, hasher, input.email, input.password) == Some(u)
  {
    var (rows, u) := Create(users, hasher, input);
    GetByEmailAppend(users, u, input.email);
  }

  lemma {:induction false} GetByEmailAppend(users: seq<User>, u: User, email: string)
    requires GetByEmail(users, email).None? && u.email == email
    ensures GetByEmail(users + [u], email) == Some(u)
  {
    if |users| == 0 {
    } else {
      assert (users + [u])[1..] == users[1..] + [u];
      GetByEmailAppend(users[1..], u, email);
    }
  }
}

=== FILE: users_endpoint.dfy ===
/** The profile handlers: reading and updating one's own record, and the
    superuser-only lookup of another user. */
module UsersEndpoint {
  import opened Wrappers
  import opened Errors
  import opened Models
  import opened Schemas
  import opened Security
  import opened Store
  import BaseRepository
  import UserRepository

  /** `read_current_user`: the caller's own public profile. */
  function ReadCurrentUser(current: User): (r: UserResponse)
    ensures r.id == current.id && r.email == current.email && r.fullName == current.fullName
    ensures r.isActive == current.isActive && r.isSuperuser == current.isSuperuser
  {
    ToResponse(current)
  }

  /** The privilege gate: a non-superuser may send neither flag. */
  predicate FlagDenied(current: User, patch: UserUpdate) {
    !current.isSuperuser && (patch.isSuperuser.Value? || patch.isActive.Value?)
  }

  /** The uniqueness gate: a sent (truthy) email that differs from the
      caller's and already belongs to a stored user. */
  predicate EmailTaken(db: Db, current: User, patch: UserUpdate) {
    && patch.email.Value? && patch.email.v != "" && patch.email.v != current.email
    && UserRepository.GetByEmail(db.users, patch.email.v).Some?
  }

  /** `update_current_user`. In order: the body schema (422); a
      non-superuser may not send `is_superuser` (403), then may not send
      `is_active` (403); a new, different email already registered is 400;
      a user gone from the table is 404; then the update itself, which
      raises on a null in a NOT NULL column. Users may change their own
      email. */
  function UpdateCurrentUser(db: Db, hasher: Hasher, current: User, body: UserUpdate): (r: Response<UserResponse>)
    ensures r.result.Err? ==> r.db == db
    ensures ValidateUserUpdate(body).Err? ==> r.result.Err? && r.result.error.status == Unprocessable
    ensures ValidateUserUpdate(body).Ok? && !current.isSuperuser && body.isSuperuser.Value?
      ==> r.result == Err(ForbiddenError(SuperuserFlagDenied))
    ensures ValidateUserUpdate(body).Ok? && !current.isSuperuser && !body.isSuperuser.Value? && body.isActive.Value?
      ==> r.result == Err(ForbiddenError(ActiveFlagDenied))
    ensures ValidateUserUpdate(body).Ok? && !FlagDenied(current, body)
      && EmailTaken(db, current, ValidateUserUpdate(body).value)
      ==> r.result == Err(BadRequestError(EmailRegistered))
    ensures ValidateUserUpdate(body).Ok? && !FlagDenied(current, body)
      && !EmailTaken(db, current, ValidateUserUpdate(body).value)
      && UserRepository.GetById(db.users, current.id).None?
      ==> r.result == Err(NotFoundError(UserNotFound))
    ensures r.result.Ok? <==>
      && ValidateUserUpdate(body).Ok? && !FlagDenied(current, body)
      && !EmailTaken(db, current, ValidateUserUpdate(body).value)
      && UserRepository.GetById(db.users, current.id).Some?
      && UserRepository.ApplyUpdate(UserRepository.GetById(db.users, current.id).value,
                                    ValidateUserUpdate(body).value, hasher).Ok?
    ensures r.result.Ok? && body.email.Value? ==>
      var e := NormalizeEmail(body.email.v);
      e == current.email || forall j | 0 <= j < |db.users| :: db.users[j].email != e
    ensures r.result.Ok? ==>
      var k := BaseRepository.IndexOf(db.users, UserRepository.UserId, current.id);
      && 0 <= k < |db.users|
      && UserRepository.ApplyUpdate(db.users[k], ValidateUserUpdate(body).value, hasher).Ok?
      && r.db == db.(users := db.users[k := UserRepository.ApplyUpdate(db.users[k], ValidateUserUpdate(body).value, hasher).value])
      && r.result.value == ToResponse(r.db.users[k])
  {
    match ValidateUserUpdate(body)
    case Err(e) => Refuse(db, e)
    case Ok(patch) =>
      if !current.isSuperuser && patch.isSuperuser.Value? then Refuse(db, ForbiddenError(SuperuserFlagDenied))
      else if !current.isSuperuser && patch.isActive.Value? then Refuse(db, ForbiddenError(ActiveFlagDenied))
      else if EmailTaken(db, current, patch) then Refuse(db, BadRequestError(EmailRegistered))
      else
        match UserRepository.Update(db.users, hasher, current.id, patch)
        case Missing => Refuse(db, NotFoundError(UserNotFound))
        case Rejected(e) => Refuse(db, Crash(e))
        case Updated(users, u) => Response(db.(users := users), Ok(ToResponse(u)))
  }

  /** A profile update never gives two users the same email. */
  lemma UpdateKeepsEmailsUnique(db: Db, hasher: Hasher, current: User, body: UserUpdate)
    requires EmailsUnique(db.users)
    requires current in db.users
    requires UniqueUserIds(db.users)
    ensures EmailsUnique(UpdateCurrentUser(db, hasher, current, body).db.users)
  {
    var r := UpdateCurrentUser(db, hasher, current, body);
    if r.result.Ok? {
      var k := BaseRepository.IndexOf(db.users, UserRepository.UserId, current.id);
      assert db.users[k] == current;
      var u := r.db.users[k];
      forall i, j | 0 <= i < j < |r.db.users| ensures r.db.users[i].email != r.db.users[j].email {
        if i == k || j == k {
          var other := if i == k then j else i;
          assert r.db.users[other] == db.users[other];
        }
      }
    }
  }

  /** `read_user_by_id`: refused to non-superusers before any lookup (403),
      then 404 for an unknown id. */
  function ReadUserById(users: seq<User>, current: User, id: int): (r: Result<UserResponse, ApiError>)
    ensures !current.isSuperuser ==> r == Err(ForbiddenError(OtherUsersDenied))
    ensures current.isSuperuser && UserRepository.GetById(users, id).None? ==> r == Err(NotFoundError(UserNotFound))
    ensures r.Ok? ==> current.isSuperuser && exists j | 0 <= j < |users| :: users[j].id == id && r.value == ToResponse(users[j])
    ensures r.Ok? <==> current.isSuperuser && UserRepository.GetById(users, id).Some?
  {
    if !current.isSuperuser then Err(ForbiddenError(OtherUsersDenied))
    else
      match UserRepository.GetById(users, id)
      case None => Err(NotFoundError(UserNotFound))
      case Some(u) => Ok(ToResponse(u))
  }

  /** With unique ids, a superuser asking for a stored user's id reads
      exactly that user's profile. */
  lemma SuperuserReadsThatUser(users: seq<User>, current: User, u: User)
    requires UniqueUserIds(users)
    requires current.isSuperuser && u in users
    ensures ReadUserById(users, current, u.id) == Ok(ToResponse(u))
  {
    var found := UserRepository.GetById(users, u.id);
    var j :| 0 <= j < |users| && users[j] == u;
    assert found.Some?;
    var i :| 0 <= i < |users| && users[i] == found.value;
    assert i == j;
  }
}

=== FILE: wrappers.dfy ===
/** Failure-carrying datatypes used throughout the model: `Option` stands for
    Python's `Optional[...]` / `None`, and `Result` for a value that is either
    produced or replaced by an HTTP-shaped error. */
module Wrappers {

  datatype Option<+T> = None | Some(value: T) {

    /** The value, or `default` when absent (Python's `x if x is not None else d`). */
    function GetOr(default: T): T {
      match this
      case Some(v) => v
      case None => default
    }
  }

  datatype Result<+T, +E> = Ok(value: T) | Err(error: E) {

    predicate IsFailure() {
      Err?
    }

    function PropagateFailure<U>(): Result<U, E>
      requires Err?
    {
      Err(error)
    }

    function Extract(): T
      requires Ok?
    {
      value
    }
  }
}
